=== FILE: README.md ===
# Flytz core, modelled in Dafny

Flytz is a browser app for "flight hacking". A traveller enters a profile: home airports, a budget and a chaos level, meaning appetite for risky routings. They also enter a trip: destinations, a start date and how flexible the dates are. The app then:

- generates a strategy. This includes route patterns (core, backup and chaos), solution cards, search links for four providers, a summary, steps and prompts;
- fetches flight deals from the Amadeus API, or from canned mock deals when no API key is configured;
- shows the deals on a route map with a savings rank;
- saves strategies to the browser's local storage.

This project models the deterministic core of that behaviour as pure Dafny functions over immutable datatypes. It proves what each operation promises.

Modelling choices:

- Money is integer cents, in place of the source's `parseFloat` of decimal strings.
- `localStorage` is a map from key to stored text. Stored text is abstracted to what `JSON.parse` makes of it: a list of records, some other JSON value, unparseable text, or the empty string.
- Random ids, the clock and every network answer are parameters. This covers `crypto.randomUUID`, `Date.now`, `new Date().toISOString()`, the OAuth reply and the search replies.
- The airport table `data/airports.ts` is not part of this model. It is a parameter: a map from IATA code to city, country and, for the route map, a map position.
- JavaScript truthiness of an optional string (`!!x`) is `Truthy`: present and non-empty.
- JavaScript `%` truncates toward zero. It is written out as `JsRem`.

Modules:

| file | module | models |
|---|---|---|
| wrappers.dfy, seqs.dfy, text.dfy | Wrappers, Seqs, Text | `Option`; filter, dedup and toggle; the string built-ins used (`includes`, `split(c)[0]`, `replace`, `trim`, `toLowerCase`, `encodeURIComponent`, sort order) |
| types.dfy | Types | the records of `types.ts` |
| strategy_engine.dfy | StrategyEngine | `services/strategyEngine.ts` |
| storage.dfy | Storage | `services/storage.ts` |
| strategy_context.dfy | StrategyContext | `context/FlightStrategyContext.tsx` as a state machine |
| flights_api.dfy | FlightsApi | the decisions in `services/flightsApi.ts`: hubs, token cache, booking link, offer mapping, sort, mocks |
| strategy_page.dfy | StrategyPage | the pure helpers of `pages/StrategyPage.tsx` |
| route_map.dfy | RouteMap | `components/strategy/RouteMap.tsx` without the projection |
| location_select.dfy | LocationSelect | `components/LocationMultiSelect.tsx` |
| hacker_terminal.dfy | HackerTerminal | the log buffer of `components/ui/HackerTerminal.tsx` |
| knowledge_page.dfy | KnowledgePage | the glossary search of `pages/KnowledgePage.tsx` |
| faq_page.dfy | FaqPage | the FAQ search and grouping of `pages/FaqPage.tsx` |

## Model

| member | source | states |
|---|---|---|
| StrategyEngine.SafeCode | services/strategyEngine.ts:21-22 | the code used in a leg link is a prefix of the node, at most 3 characters long, free of `/`, and stops early only at the end of the node or at its first `/` |
| StrategyEngine.SkyscannerDate | services/strategyEngine.ts:29 | the Skyscanner date has no `-` and is a subsequence of the date |
| StrategyEngine.SkyscannerDateOfIso | services/strategyEngine.ts:29 | for an ISO date `YYYY-MM-DD` the Skyscanner date is `YYMMDD` |
| StrategyEngine.LegLink | services/strategyEngine.ts:20-33 | Google Flights gets `from <origin> to <dest> on <date>` with both codes cut; Skyscanner gets `origin/dest/YYMMDD`; any other provider yields `#` |
| StrategyEngine.LegLinkMentionsEndpoints | services/strategyEngine.ts:20-30 | a Google Flights or Skyscanner leg link contains the cut codes of both endpoints |
| StrategyEngine.HubCodes | services/strategyEngine.ts:88 | one routing code per node: the node up to its first `/`, or all of it when it has none |
| StrategyEngine.CreatePattern | services/strategyEngine.ts:36-92 | exactly two step links iff the type is Split-Ticket or Positioning; leg 1 is a Google Flights link from the origin to the hub (`nodes[1]` before `/`); leg 2 is a Skyscanner link from the hub to the destination; the given fields are kept; there are two action plans, Google Flights then ITA Matrix |
| StrategyEngine.SolutionCards | services/strategyEngine.ts:95-178 | the cards appear in the source's order. The budget card is first iff the budget is under 1500. The flexibility card is low iff fewer than 2 flexible days. The international card comes next-to-last iff a destination is neither USA nor Canada. The last card is skiplagging iff chaos is at least 4, otherwise packing |
| StrategyEngine.SolutionCardsMembership | services/strategyEngine.ts:98-176 | no card twice; each card is present iff its condition holds |
| StrategyEngine.CardSolutionsAt | services/strategyEngine.ts:95-177 | the i-th solution is the prose of the i-th card |
| StrategyEngine.GenerateSolutions | services/strategyEngine.ts:95-177 | one solution per selected card; which card gives which text is stated by GenerateSolutionsAt |
| StrategyEngine.GenerateSolutionsAt | services/strategyEngine.ts:95-177 | `generateSolutions` lists the prose of the selected cards in order |
| StrategyEngine.FamilyOf | services/strategyEngine.ts:187-221 | a region is European iff it contains "Europe" or is one of five countries; otherwise Asian iff it contains "Asia" or is one of seven countries; otherwise generic |
| StrategyEngine.KindsOf | services/strategyEngine.ts:181-279 | every family has a low-risk hub-and-spoke core and a high-risk split-ticket chaos template; only the generic family lacks a backup |
| StrategyEngine.Instantiate | services/strategyEngine.ts:188-277 | a template becomes a pattern with nodes `[origin, hub, end]`, its type and risk, and step links only for multi-leg types |
| StrategyEngine.RegionPatterns | services/strategyEngine.ts:181-279 | one core plan; one backup plan unless the family is generic; one chaos plan iff chaos is at least 3. The plans' nodes, types and risks are stated by the three lemmas below |
| StrategyEngine.RegionCorePlan | services/strategyEngine.ts:181-279 | exactly one core plan, `[origin, family hub, region]`, hub-and-spoke, low risk |
| StrategyEngine.RegionBackupPlan | services/strategyEngine.ts:181-279 | one backup plan for Europe and Asia, none for other regions, ending at the region |
| StrategyEngine.RegionChaosPlan | services/strategyEngine.ts:208-277 | a chaos plan exists iff chaos is at least 3; it is split-ticket, high risk and has two step links |
| StrategyEngine.EuropeWinsOverAsia | services/strategyEngine.ts:187-221 | a region that mentions both Europe and Asia is routed as Europe, via LHR/AMS |
| StrategyEngine.SkyscannerDestination | services/strategyEngine.ts:304 | a 3-letter destination is kept; anything else becomes `anywhere` |
| StrategyEngine.GenerateSearchLinks | services/strategyEngine.ts:283-321 | four links in the order Google Flights, Google Explore, Skyscanner, Kayak; only the first is primary; the Skyscanner URL is built from the cut origin, the destination or `anywhere`, and the `YYMMDD` date |
| StrategyEngine.KayakAnywhere | services/strategyEngine.ts:303-316 | a destination that is not 3 letters is searched on Kayak as `-any` |
| StrategyEngine.FirstOr | services/strategyEngine.ts:325-326 | the first entry if present and non-empty, otherwise the fallback (`NYC`, `Everywhere`) |
| StrategyEngine.Summary | services/strategyEngine.ts:337-340 | the summary opens with "The recommended approach is the", and closes with the detected sentence when there is a chaos plan and with the suppressed one otherwise |
| StrategyEngine.Steps | services/strategyEngine.ts:342-362 | Analyze Base Fares (Easy), then Check Contingencies (Medium); a third step, Try Advanced Option (Hard), iff there is a chaos plan |
| StrategyEngine.Prompts | services/strategyEngine.ts:364-403 | three prompts, for Google Flights, ITA Matrix and Google Gemini / ChatGPT, in that order |
| StrategyEngine.GenerateStrategy | services/strategyEngine.ts:324-415 | the strategy takes the generated id. It has one core plan, four search links and three prompts, a third step iff there is a chaos plan, and the summary's opening |
| StrategyEngine.GenerateStrategyPlans | services/strategyEngine.ts:324-417 | the strategy's core plan runs from the origin via the family hub to the target region; one backup plan unless the region is generic; a chaos plan iff chaos is at least 3, always split-ticket and high risk |
| StrategyEngine.GenerateStrategyContents | services/strategyEngine.ts:332-417 | the strategy carries the generated solutions, four search links, three steps iff there is a chaos plan (else two) and three prompts; the summary ends with "Advanced savings options detected." iff there is a chaos plan |
| StrategyEngine.SummaryEnding | services/strategyEngine.ts:338-340 | the summary's last sentence depends only on whether a chaos plan exists |
| Storage.FindId | services/storage.ts:21 | `findIndex`: -1 iff no record has the id, otherwise the first record with it |
| Storage.Upsert | services/storage.ts:20-26 | the list grows by one iff the id is new, and always contains the saved record |
| Storage.UpsertInPlace | services/storage.ts:21-26 | a known id is replaced at its first position, a new one is appended, and every other record stays where it was |
| Storage.UpsertIdempotent | services/storage.ts:20-26 | saving the same record twice equals saving it once |
| Storage.RemoveId | services/storage.ts:56 | the filter drops every record with the id; every other record keeps its multiplicity, and the result is a subsequence of the input |
| Storage.RemoveAfterUpsert | services/storage.ts:20-56 | deleting an id right after upserting it leaves what deleting it alone leaves |
| Storage.GetAll | services/storage.ts:36-48 | absent, empty or unparseable text reads as the empty list; a stored list reads as itself |
| Storage.Save | services/storage.ts:7-34 | succeeds iff storage is writable and the stored text is not a non-list JSON value; on failure nothing changes; other keys are never touched |
| Storage.SaveThenGetAll | services/storage.ts:7-48 | after a successful save the list read back is the upsert of the old list, and it holds the record |
| Storage.SaveGrowsByAtMostOne | services/storage.ts:20-28 | a save grows the stored list by at most one record |
| Storage.SaveOverCorrupted | services/storage.ts:11-17 | over unparseable or empty text, a save starts a fresh list holding only the new record |
| Storage.SaveIdempotent | services/storage.ts:7-34 | saving the same record again changes nothing |
| Storage.Delete | services/storage.ts:50-63 | succeeds iff storage is writable and holds a list; absent or empty text gives false; failures change nothing |
| Storage.DeleteThenGetAll | services/storage.ts:50-59 | after a delete the list read back is the old list with the id filtered out: no record has the id, every other record keeps its multiplicity, and order is kept |
| Storage.DeleteAfterSave | services/storage.ts:7-59 | save then delete of the same record leaves the old list without that id |
| StrategyContext.Or | context/FlightStrategyContext.tsx:33-34 | a supplied override wins; otherwise the current value is used |
| StrategyContext.RunStrategy | context/FlightStrategyContext.tsx:31-51 | with a profile or trip missing, the state is unchanged. Otherwise the overrides are stored and the strategy is the engine's output for them. The deals are cleared and the analysis is null |
| StrategyContext.RunStrategyIdempotent | context/FlightStrategyContext.tsx:31-51 | re-running without overrides reproduces the same state |
| StrategyContext.RunStrategyUsesOverride | context/FlightStrategyContext.tsx:33-46 | run with overrides, the strategy is generated from the overrides, not the stored inputs |
| StrategyContext.LoadStrategy | context/FlightStrategyContext.tsx:75-81 | every field is loaded from the record; missing deals become the empty list and a missing analysis becomes null |
| StrategyContext.Reset | context/FlightStrategyContext.tsx:83-89 | every field goes back to null or empty |
| StrategyContext.RunAfterResetIsNoOp | context/FlightStrategyContext.tsx:31-89 | after a reset, a run without overrides has no input and changes nothing |
| StrategyContext.First | context/FlightStrategyContext.tsx:59-60 | `xs[0]` is absent exactly for the empty list |
| StrategyContext.Snapshot | context/FlightStrategyContext.tsx:55-66 | the saved record carries the given id, name and time, plus the first home airport and the first destination as summaries |
| StrategyContext.LoadSnapshot | context/FlightStrategyContext.tsx:53-81 | loading a saved record restores exactly the state it was taken from |
| StrategyContext.SaveStrategy | context/FlightStrategyContext.tsx:53-73 | nothing happens iff profile, trip or strategy is missing. The list is written iff storage is writable and its text is absent, empty or a list. Otherwise the call throws |
| StrategyContext.SaveStrategyAppends | context/FlightStrategyContext.tsx:69-72 | a written save appends exactly one record at the end, and that record loads back to the saved state |
| StrategyContext.SaveStrategyTwiceKeepsBoth | context/FlightStrategyContext.tsx:69-72 | unlike the storage service, saving twice keeps two records |
| FlightsApi.RegionHubs | services/flightsApi.ts:29-53 | every known region maps to one to four hubs, each a three-letter airport code |
| FlightsApi.ResolveHubs | services/flightsApi.ts:169-173 | the table's hubs for a known region; an unknown 3-letter region is searched as itself; anything else falls back to LHR, IST, DXB |
| FlightsApi.UnknownCodeSearchedAsItself | services/flightsApi.ts:170-171 | an unlisted airport code is its own hub |
| FlightsApi.Credential | services/flightsApi.ts:95-103 | the environment value wins when truthy, otherwise the stored one |
| FlightsApi.GetToken | services/flightsApi.ts:94-135 | no token without both credentials. A cached token is reused while unexpired. A fresh token expires `expires_in` seconds after receipt, less one minute. A refused request gives no token and leaves the cache as it was. The cache only ever changes to a newly granted token |
| FlightsApi.TokenReuseWindow | services/flightsApi.ts:110-131 | a granted token is returned unchanged until one minute before its expiry; from then on a new token is requested |
| FlightsApi.BookingLinkEndpoints | services/flightsApi.ts:75-79 | the booking link names the final arrival after `to` and the first departure after `from` |
| FlightsApi.BookingLinkDate | services/flightsApi.ts:78-79 | the link ends with the departure date, cut at `T` |
| FlightsApi.MapOffer | services/flightsApi.ts:198-222 | an offer with segments becomes an Amadeus deal with its id, price and segments; stops are segments minus one; the airline is the first carrier; the deep link is the booking link |
| FlightsApi.MapBatch | services/flightsApi.ts:194-224 | a reply is used iff every offer has segments, and then maps offer for offer |
| FlightsApi.HubDeals | services/flightsApi.ts:194-224 | a failed reply, or one with an offer lacking segments, adds nothing; a usable reply adds its mapped offers in order |
| FlightsApi.Collect | services/flightsApi.ts:180-228 | no hubs answered means no deals. Membership and order are stated by CollectMembers and CollectSnoc |
| FlightsApi.CollectMembers | services/flightsApi.ts:180-228 | a deal is collected iff it is among the mapped offers of some hub's reply |
| FlightsApi.CollectSnoc | services/flightsApi.ts:180-228 | each further hub's deals are appended after those already collected, as `results.push(...deals)` does |
| FlightsApi.CollectShape | services/flightsApi.ts:180-228 | every collected deal has segments and stops equal to segments minus one |
| FlightsApi.InsertByPrice | services/flightsApi.ts:229 | inserting into a price-sorted list keeps it sorted and adds exactly that deal |
| FlightsApi.SortByPrice | services/flightsApi.ts:229 | the result is sorted by price and is a permutation of the input |
| FlightsApi.SortByPriceStable | services/flightsApi.ts:229 | deals of equal price keep their relative order, as `Array.prototype.sort` guarantees |
| FlightsApi.PlanSearch | services/flightsApi.ts:165-185 | without a destination the call fails. Without a token the mock deals are used for the resolved hubs. With a token the first one or two hubs are queried from the origin on the start date |
| FlightsApi.LiveResults | services/flightsApi.ts:224-229 | the live results are sorted by price and are a permutation of the collected deals |
| FlightsApi.LiveResultsStops | services/flightsApi.ts:212-229 | sorting keeps the stop count consistent with the segments |
| FlightsApi.MockDeal | services/flightsApi.ts:404-420 | each mock deal has at least one segment and is marked as a mock |
| FlightsApi.MockDestinations | services/flightsApi.ts:404-420 | the three mock deals end at BKK, SIN and LHR |
| FlightsApi.MockDeals | services/flightsApi.ts:404-420 | the three mock deals, in order, each with segments |
| FlightsApi.FilterMocks | services/flightsApi.ts:422-429 | a mock deal is kept iff the region is Everywhere, or an Asian region reaches BKK or SIN, or a European one reaches LHR or IST, or the arrival is one of the hubs. Order is kept |
| FlightsApi.Restamp | services/flightsApi.ts:431 | each kept deal gets a fresh id and its booking link |
| FlightsApi.ServeMocks | services/flightsApi.ts:422-431 | one served deal per deal the filter keeps, in the given order: the j-th kept deal under the j-th fresh id and with its booking link |
| FlightsApi.RestampItineraries | services/flightsApi.ts:431 | restamping serves exactly the itineraries it was given |
| FlightsApi.ServeMocksKeeps | services/flightsApi.ts:422-431 | a given deal's itinerary is served iff the region and hub filter keeps its final arrival |
| FlightsApi.GetMockDeals | services/flightsApi.ts:401-434 | at most three deals: the kept mocks in `MOCK_DEALS` order, the j-th under the j-th fresh id and with its booking link |
| FlightsApi.EverywhereServesInOrder | services/flightsApi.ts:401-434 | for "Everywhere" all three mocks are served in listed order, so the first served deal is mock-1 at 485.00 |
| FlightsApi.GetMockDealsServes | services/flightsApi.ts:401-434 | the i-th mock's itinerary is served iff the filter keeps its final arrival |
| FlightsApi.EverywhereKeepsAll | services/flightsApi.ts:423 | "Everywhere" keeps every deal in its order, so all three mocks |
| FlightsApi.AsiaKeepsBangkokAndSingapore | services/flightsApi.ts:425 | an Asian region keeps the Bangkok and Singapore mocks |
| FlightsApi.EuropeKeepsLondon | services/flightsApi.ts:426 | a European region keeps the London mock |
| FlightsApi.ConfirmFlightPrice | services/flightsApi.ts:233-267 | without a token the offer's own price is confirmed. Otherwise confirmation holds iff pricing answered. A confirmed result has a price and no error, an unconfirmed one the reverse |
| FlightsApi.LocationsOf | services/flightsApi.ts:287-292 | one option per location, in order, each mapped by `LocationOf` |
| FlightsApi.SearchLocations | services/flightsApi.ts:270-296 | no token, fewer than 2 typed characters or a failed request gives no results; otherwise one option per location, in order (`LocationsOf`) |
| FlightsApi.SearchLocationsLabels | services/flightsApi.ts:287-292 | option i of a successful search has hit i's code as value and shows the hit's name followed by `(CODE)` |
| FlightsApi.LocationOf | services/flightsApi.ts:287-292 | a location's value is its IATA code; its type is Airport exactly for AIRPORT sub-types, otherwise City |
| FlightsApi.MockHotels | services/flightsApi.ts:436-442 | three hotels, all in the requested city, with distinct ids and hotel ids, priced in USD, rated 1 to 5 |
| FlightsApi.MockActivities | services/flightsApi.ts:444-449 | two activities with distinct ids, priced in USD |
| FlightsApi.SearchHotels | services/flightsApi.ts:299-341 | without a token, three mock hotels in the requested city |
| FlightsApi.SearchActivities | services/flightsApi.ts:344-370 | without a token, the two mock activities |
| FlightsApi.FlightInspiration | services/flightsApi.ts:373-397 | without a token, nothing |
| StrategyPage.FormatICSDate | pages/StrategyPage.tsx:511-516 | the calendar stamp has no `-`, `:` or `.` |
| StrategyPage.FormatICSDateMinutes | pages/StrategyPage.tsx:511-516 | `YYYY-MM-DDTHH:MM` becomes the basic form `YYYYMMDDTHHMM00` |
| StrategyPage.FormatICSDateSeconds | pages/StrategyPage.tsx:511-516 | `YYYY-MM-DDTHH:MM:SS`, with or without a fraction, becomes `YYYYMMDDTHHMMSS` |
| StrategyPage.RankOf | pages/StrategyPage.tsx:299-315 | the rank is S above 40% savings, A above 20%, B above 0%, otherwise D. Percentages are exact, including JavaScript's division by a zero budget |
| StrategyPage.RankByPrice | pages/StrategyPage.tsx:296-315 | for a positive budget, S iff the price is under 60% of it, A from 60% to under 80%, B from 80% to under the budget, D at or above the budget |
| StrategyPage.RankMonotone | pages/StrategyPage.tsx:296-315 | a cheaper cheapest deal never gets a worse rank |
| StrategyPage.Score | pages/StrategyPage.tsx:294-318 | there is no score without deals or a profile; savings are the budget minus the first deal's price; the rank is the savings rank of those savings against the budget; the title matches the rank |
| StrategyPage.ScoreByPrice | pages/StrategyPage.tsx:294-318 | for a positive budget the score is S iff the first deal costs under 60% of it and D iff it costs the budget or more; a cheaper first deal never gives a worse rank |
| StrategyPage.ToggleDealExpanded | pages/StrategyPage.tsx:566-573 | flips exactly one deal's expanded state |
| StrategyPage.ToggleDealTwice | pages/StrategyPage.tsx:566-573 | toggling twice restores the set |
| StrategyPage.AlertFires | pages/StrategyPage.tsx:676-694 | the alert fires iff it is active, the target is non-zero, and the first deal is at or under the target |
| StrategyPage.AlertSeesOnlyFirst | pages/StrategyPage.tsx:676-682 | only the first deal counts: a later deal under the target does not fire the alert while the first is over it |
| StrategyPage.AlertOnSortedDeals | pages/StrategyPage.tsx:676-682 | on price-sorted deals, the alert fires iff some deal is at or under the target |
| StrategyPage.CountryOf | pages/StrategyPage.tsx:282-284 | a deal's country is the airport table's non-empty country of its final arrival |
| StrategyPage.DestinationCountries | pages/StrategyPage.tsx:278-287 | strictly sorted and duplicate-free; holds exactly the countries some deal reaches |
| StrategyPage.StrictlySortedUnique | pages/StrategyPage.tsx:286 | the sorted country list is determined by its set of countries |
| StrategyPage.IsMultiCountry | pages/StrategyPage.tsx:352 | true iff the deals reach two different countries |
| StrategyPage.JsQuot | pages/StrategyPage.tsx:621 | division toward zero: the quotient has the dividend's sign, and what is left is smaller than the divisor and has the dividend's sign |
| StrategyPage.JsRem | pages/StrategyPage.tsx:621 | JavaScript's `%` is the dividend minus the truncated quotient times the divisor, so it lies strictly between minus and plus the divisor and takes the dividend's sign |
| StrategyPage.JsRemExamples | pages/StrategyPage.tsx:621 | `7 % 5` is 2, `-7 % 5` is -2 and `-5 % 5` is 0, where the Euclidean remainder of -7 by 5 is 3 |
| StrategyPage.LayoverOfNegativeGap | pages/StrategyPage.tsx:618-622 | a gap of minus 90 minutes is shown as -2 hours and -30 minutes: hours are floored, the remainder truncates |
| StrategyPage.LayoverExact | pages/StrategyPage.tsx:618-622 | for a non-negative gap, hours and minutes are the whole hours and whole remaining minutes |
| RouteMap.ToggleFilter | components/strategy/RouteMap.tsx:43-45 | flips exactly one filter flag |
| RouteMap.ShownFilters | components/strategy/RouteMap.tsx:50-58 | with every filter on, every deal is shown; a deal at the budget is under budget; turning a side off hides it |
| RouteMap.StopCodes | components/strategy/RouteMap.tsx:61-71 | the stops are the first departure followed by every arrival |
| RouteMap.Resolve | components/strategy/RouteMap.tsx:61-71 | unknown airports are skipped; known ones keep their order and position |
| RouteMap.ResolveKeepsKnownInOrder | components/strategy/RouteMap.tsx:61-71 | the resolved stops are exactly the stop codes the airport table knows, in order and with repeats |
| RouteMap.BuildNodes | components/strategy/RouteMap.tsx:61-71 | the `reduce` loop yields the resolved stops |
| RouteMap.NodesOfKnownAirports | components/strategy/RouteMap.tsx:61-71 | when every airport is known there is one node per segment plus one |
| RouteMap.BuildPath | components/strategy/RouteMap.tsx:76-83 | the path is one move to the first node followed by one curve per leg |
| RouteMap.PathShape | components/strategy/RouteMap.tsx:76-83 | only the first command is a move, and the i-th command ends at the i-th node |
| RouteMap.StyleOf | components/strategy/RouteMap.tsx:85-96 | orange iff over budget. The selected route is opaque, 3 wide and gets zIndex 10, which animates its path and pings its nodes (RouteMap.tsx:186, 197). Others are 1.5 wide with zIndex 1, dimmed to 0.1 while something is selected, otherwise 0.6 |
| RouteMap.OneHighlighted | components/strategy/RouteMap.tsx:87-95 | at most one deal id gets zIndex 10, so at most one route is animated |
| RouteMap.RouteOf | components/strategy/RouteMap.tsx:73-97 | a route is drawn iff at least two stops are known |
| RouteMap.RoutePaths | components/strategy/RouteMap.tsx:47-98 | the drawn routes are exactly those of shown deals with at least two known stops |
| RouteMap.DrawnRoute | components/strategy/RouteMap.tsx:47-98 | one deal yields one route iff it is shown and has at least two known stops, and that route is the deal's own; otherwise none |
| RouteMap.RoutePathsSnoc | components/strategy/RouteMap.tsx:47-98 | one more deal at the end of the list adds its own route, if any, after all the earlier ones: routes come in deal order (the SVG paints them in that order, RouteMap.tsx:174), one per drawable deal |
| RouteMap.RoutesAreDrawable | components/strategy/RouteMap.tsx:73-98 | every drawn route has a path as long as its nodes, starting with a move |
| LocationSelect.HandleSelect | components/LocationMultiSelect.tsx:60-67 | the value is appended iff not already chosen; the input is cleared, the options reset and the menu closed |
| LocationSelect.SelectKeepsNoDups | components/LocationMultiSelect.tsx:61-63 | selecting never creates a duplicate |
| LocationSelect.SelectIdempotent | components/LocationMultiSelect.tsx:60-67 | selecting the same value twice equals selecting it once |
| LocationSelect.HandleRemove | components/LocationMultiSelect.tsx:69-71 | every occurrence of the item goes; every other value keeps its multiplicity and order; nothing else changes |
| LocationSelect.RemoveAfterSelect | components/LocationMultiSelect.tsx:60-71 | removing a value right after selecting it equals removing it alone |
| LocationSelect.HandleKey | components/LocationMultiSelect.tsx:73-78 | Enter with text typed selects the raw text; any other key, or an empty input, changes nothing |
| LocationSelect.LocalFilter | components/LocationMultiSelect.tsx:50-54 | keeps, in order, the options whose label, value or a keyword contains the input, ignoring case; every copy of a kept option survives and nothing else does |
| LocationSelect.LocalFilterEmpty | components/LocationMultiSelect.tsx:50-54 | an empty input keeps every option |
| LocationSelect.UpdateOptions | components/LocationMultiSelect.tsx:42-55 | remote results when a search handler exists and at least two characters are typed; otherwise the local filter |
| LocationSelect.FindOption | components/LocationMultiSelect.tsx:104 | `find` returns the first option with that value; it returns nothing iff no option has that value |
| LocationSelect.ChipText | components/LocationMultiSelect.tsx:107 | `split('(')[0].trim()` is the part of the label before its first `(` with the white space at both ends removed: it starts after the leading spaces, only white space follows it in that part, and it has no space at either end |
| LocationSelect.ChipLabel | components/LocationMultiSelect.tsx:104-107 | the chip shows the cut label of the first shown option with that value; when no shown option has it, that of the first default with it; an unknown value is shown raw; a known one never holds `(` |
| LocationSelect.ChipOfNamedCode | components/LocationMultiSelect.tsx:107 | a label `name (CODE)` is shown as `name` |
| HackerTerminal.LineAt | components/ui/HackerTerminal.tsx:34-36 | every line starts with the `> ` prompt |
| HackerTerminal.Push | components/ui/HackerTerminal.tsx:36-37 | the new line goes at the end; past eight lines only the oldest is dropped |
| HackerTerminal.WindowIsSuffix | components/ui/HackerTerminal.tsx:33-38 | the buffer is exactly the last `min(n, 8)` lines pushed, in order |
| HackerTerminal.RunWindow | components/ui/HackerTerminal.tsx:31-41 | after n ticks the terminal shows the last `min(n, 8)` generated lines |
| HackerTerminal.RunStep | components/ui/HackerTerminal.tsx:33-40 | tick n pushes line n, which is `HACKER_LOGS[n mod 14]` |
| HackerTerminal.RunLength | components/ui/HackerTerminal.tsx:36-37 | the buffer holds `min(n, 8)` lines |
| HackerTerminal.OldestShown | components/ui/HackerTerminal.tsx:36-37 | once full, the first line shown is the one written eight ticks ago |
| HackerTerminal.RunTicks | components/ui/HackerTerminal.tsx:31-41 | the interval loop leaves the last `min(n, 8)` lines, with line i being the one written on that tick |
| KnowledgePage.FilteredData | pages/KnowledgePage.tsx:12-20 | an entry is kept iff term or definition contains the search, ignoring case, and the tab is All or the entry's category; order is kept, and so is every copy of a kept entry |
| KnowledgePage.InitialShowsAll | pages/KnowledgePage.tsx:9-17 | an empty search under All lists the whole glossary |
| KnowledgePage.CategoryNarrows | pages/KnowledgePage.tsx:17 | a category tab shows a subsequence of what All shows |
| KnowledgePage.Reset | pages/KnowledgePage.tsx:128 | reset clears the search and selects All |
| KnowledgePage.ResetShowsAll | pages/KnowledgePage.tsx:12-128 | after a reset the whole glossary is listed |
| FaqPage.ToggleItem | pages/FaqPage.tsx:11-19 | flips exactly one question's open state |
| FaqPage.ToggleItemTwice | pages/FaqPage.tsx:11-19 | toggling twice restores the open set |
| FaqPage.FilteredFaq | pages/FaqPage.tsx:21-25 | an item is kept iff question, answer or category contains the search, ignoring case; order is kept, and so is every copy of a kept item |
| FaqPage.EmptySearchKeepsAll | pages/FaqPage.tsx:21-25 | an empty search keeps every question |
| FaqPage.Categories | pages/FaqPage.tsx:27 | each category of the data once, in order of first appearance |
| FaqPage.InCategory | pages/FaqPage.tsx:60 | the items of one category, in order, with every copy kept and nothing from another category |
| FaqPage.GroupsOf | pages/FaqPage.tsx:59-62 | a section holds exactly the matches of its category and is never empty; every category with a match has its section (order: `GroupsOfOrder`) |
| FaqPage.Sections | pages/FaqPage.tsx:59-62 | every rendered section is non-empty and holds only its own category; sections come in first-appearance order of the categories, skipping those without a match, and no category gets two sections |
| FaqPage.GroupsOfOrder | pages/FaqPage.tsx:59-62 | the section headings are the categories, in the given order, that have at least one match |
| FaqPage.SectionsCoverMatches | pages/FaqPage.tsx:21-62 | a question is shown in some section iff it matches the search |

## Left out

- The network: the bodies of `fetch`, OAuth requests (section 4.4 of RFC 6749) and JSON response shapes. Every reply is a parameter, and a failing request is a missing reply.
- `validateAmadeusConnection` in services/flightsApi.ts: it only issues the token request and stores its result, like the granted branch of `GetToken`.
- The 800 ms `setTimeout` in the mock search, the 500 ms debounce in the location picker and the 400 ms interval of the terminal: time is a step count or left out.
- UTF-16: JavaScript strings are sequences of UTF-16 code units, while a Dafny `string` is a sequence of characters. Lengths and cuts therefore agree only for text on the Basic Multilingual Plane. This concerns the length tests in `FlightsApi.ResolveHubs` (flightsApi.ts:171), `StrategyEngine.SkyscannerDestination` (strategyEngine.ts:304), `FlightsApi.SearchLocations` (flightsApi.ts:272) and `LocationSelect.UpdateOptions` (LocationMultiSelect.tsx:44). It also concerns the `substring(0,3)` cuts in `StrategyEngine.SafeCode` and at strategyEngine.ts:303 and 387. A code outside that plane is counted and cut by characters here, by code units in the source.
- Floating point: prices are integer cents and percentages are exact rationals. `Math.round` in the savings display and the text of the layover (`LayoverText`) are not given contracts.
- Storage.GetAll: when the stored text parses to a JSON value that is not a list, the source returns that value as is. The model returns the empty list, because such a value has no typed reading.
- StrategyContext.SaveStrategy: which statement throws is not distinguished. All throwing paths give `Thrown`.
- FlightsApi.SearchLocations: every location is assumed to have an address. The source puts `undefined` in the keywords when `address` is missing, and the model always takes a country name.
- FlightsApi.SearchHotels, FlightsApi.SearchActivities, FlightsApi.FlightInspiration: with a token, the live result is a parameter. The two-step hotel query and its `slice(0, 5)` are left out.
- FlightsApi.ResolveHubs: the hub table is a plain object (flightsApi.ts:29), so the lookup at flightsApi.ts:169 also finds names inherited from `Object.prototype`: `constructor`, `__proto__`, `toString`, `valueOf`, `hasOwnProperty` and the like. For such a region the source gets a function or an object in place of a hub list. With a token, `hubs.slice(0, 2)` (flightsApi.ts:180) throws and the search rejects. Without one, `hubs.includes` (flightsApi.ts:427) throws inside the timer and the promise never settles. The model treats these names as unknown regions: they are not three letters long, so it falls back to LHR, IST, DXB.
- FlightsApi.PlanSearch: for those inherited region names it plans a search over the fallback hubs, and `GetMockDeals` serves mock-3 (its LHR arrival), where the source rejects or never settles.
- Case-insensitive matching folds ASCII letters only. JavaScript's `toLowerCase` follows full Unicode.
- StrategyEngine.Prompts: the ITA Matrix prompt upper-cases the first three characters of the destination (strategyEngine.ts:387) for ASCII letters only. JavaScript's `toUpperCase` follows full Unicode, so `Réunion` gives `RÉU` in the source and `RéU` here.
- The country sort compares characters, where JavaScript compares UTF-16 code units. The two agree on the Basic Multilingual Plane.
- HackerTerminal: the React state updater is assumed to run before the counter increments, so tick k shows `HACKER_LOGS[k mod 14]`. The sound on mount and the auto-scroll are left out.
- The Mercator `project` of the route map: positions are exact map points taken from the airport table.
- The LLM client, the 3D scenes, the audio effects and the AI report parser are out of scope. So are `generateUUID` randomness, locale date formatting and the wizard form.
- The `update*` setters of the context are plain field replacements and have no separate members.
- The static tables `data/knowledgeBase.ts` and `data/faqData.ts` are parameters. `HACKER_LOGS`, the region hub table and the mock deals are transcribed.
- Long text constants are written as concatenations of shorter pieces. This keeps them cheap to verify and does not change their values.

=== FILE: faq_page.dfy ===
/**
 * pages/FaqPage.tsx: the open/closed state of the questions, the search filter, and the
 * grouping of the matches under their categories. The question list (data/faqData.ts)
 * is a parameter.
 */
module FaqPage {
  import Seqs
  import Text

  datatype FaqCategory = General | Strategies | Technical | Safety

  datatype FaqItem = FaqItem(id: string, question: string, answer: string, category: FaqCategory)

  /** The category as the string the data holds, which the search also looks in. */
  function CategoryName(c: FaqCategory): (r: string)
    ensures |r| > 0
  {
    match c
    case General => "General"
    case Strategies => "Strategies"
    case Technical => "Technical"
    case Safety => "Safety"
  }

  /** The four names are distinct, so a group's heading names one category. */
  lemma CategoryNamesDistinct(a: FaqCategory, b: FaqCategory)
    requires a != b
    ensures CategoryName(a) != CategoryName(b)
  {
    assert CategoryName(a)[0] != CategoryName(b)[0] || |CategoryName(a)| != |CategoryName(b)|;
  }

  /** `toggleItem`: the question's id is added to the open set if absent and removed if present. */
  function ToggleItem(openItems: set<string>, id: string): (r: set<string>)
    ensures id in r <==> id !in openItems
    ensures forall other :: other != id ==> (other in r <==> other in openItems)
  {
    Seqs.Toggle(openItems, id)
  }

  /** Clicking a question twice leaves the open set as it was. */
  lemma ToggleItemTwice(openItems: set<string>, id: string)
    ensures ToggleItem(ToggleItem(openItems, id), id) == openItems
  {
    Seqs.ToggleTwice(openItems, id);
  }

  /** The question, the answer or the category name contains the search text, ignoring case. */
  predicate Matches(item: FaqItem, searchTerm: string) {
    || Text.ContainsIgnoreCase(item.question, searchTerm)
    || Text.ContainsIgnoreCase(item.answer, searchTerm)
    || Text.ContainsIgnoreCase(CategoryName(item.category), searchTerm)
  }

  /** `filteredFaq`: the matching items in data order. */
  function FilteredFaq(data: seq<FaqItem>, searchTerm: string): (r: seq<FaqItem>)
    ensures forall item :: item in r <==> item in data && Matches(item, searchTerm)
    ensures Seqs.IsSubseq(r, data)
    ensures forall item: FaqItem :: multiset(r)[item] == if Matches(item, searchTerm) then multiset(data)[item] else 0
  {
    if |data| == 0 then []
    else
      assert data == [data[0]] + data[1..];
      if Matches(data[0], searchTerm) then [data[0]] + FilteredFaq(data[1..], searchTerm)
    else FilteredFaq(data[1..], searchTerm)
  }

  /** With nothing typed every question is listed. */
  lemma {:induction false} EmptySearchKeepsAll(data: seq<FaqItem>)
    ensures FilteredFaq(data, "") == data
  {
    if |data| > 0 {
      Text.ContainsIgnoreCaseEmpty(data[0].question);
      EmptySearchKeepsAll(data[1..]);
      assert data == [data[0]] + data[1..];
    }
  }

  /** The category of each item, in data order. */
  function CategoryList(data: seq<FaqItem>): (r: seq<FaqCategory>)
    ensures |r| == |data|
    ensures forall i :: 0 <= i < |data| ==> r[i] == data[i].category
  {
    if |data| == 0 then [] else [data[0].category] + CategoryList(data[1..])
  }

  /** `categories`: each category of the data once, in order of first appearance. */
  function Categories(data: seq<FaqItem>): (r: seq<FaqCategory>)
    ensures Seqs.NoDups(r)
    ensures forall c :: c in r <==> c in CategoryList(data)
    ensures forall c :: c in r <==> exists item :: item in data && item.category == c
    ensures forall i, j :: 0 <= i < j < |r| ==>
      Seqs.IndexOf(CategoryList(data), r[i]) < Seqs.IndexOf(CategoryList(data), r[j])
  {
    var cats := CategoryList(data);
    forall c | c in cats ensures exists item :: item in data && item.category == c {
      var i :| 0 <= i < |cats| && cats[i] == c;
      assert data[i] in data;
    }
    forall item | item in data ensures item.category in cats {
      var i :| 0 <= i < |data| && data[i] == item;
      assert cats[i] == item.category;
    }
    Seqs.Dedup(cats)
  }

  /** The items of one category, in order. */
  function InCategory(items: seq<FaqItem>, c: FaqCategory): (r: seq<FaqItem>)
    ensures forall item :: item in r <==> item in items && item.category == c
    ensures Seqs.IsSubseq(r, items)
    ensures forall item: FaqItem :: multiset(r)[item] == if item.category == c then multiset(items)[item] else 0
  {
    if |items| == 0 then []
    else
      assert items == [items[0]] + items[1..];
      if items[0].category == c then [items[0]] + InCategory(items[1..], c)
    else InCategory(items[1..], c)
  }

  /** A rendered section: a category heading and its matching questions. */
  datatype Group = Group(category: FaqCategory, items: seq<FaqItem>)

  /** The headings of a list of sections, in order. */
  function GroupCategories(gs: seq<Group>): seq<FaqCategory> {
    seq(|gs|, i requires 0 <= i < |gs| => gs[i].category)
  }

  /** Prepending a section prepends its heading. */
  lemma GroupCategoriesCons(g: Group, gs: seq<Group>)
    ensures GroupCategories([g] + gs) == [g.category] + GroupCategories(gs)
  {
  }

  /** A category has at least one of the matching items. */
  function HasMatches(matches: seq<FaqItem>): FaqCategory -> bool {
    c => |InCategory(matches, c)| > 0
  }

  /** One section per category in `cats`, skipping those with no matching item. */
  function GroupsOf(cats: seq<FaqCategory>, matches: seq<FaqItem>): (r: seq<Group>)
    ensures forall g :: g in r ==> g.category in cats && g.items == InCategory(matches, g.category) && |g.items| > 0
    ensures forall c :: c in cats && |InCategory(matches, c)| > 0 ==> Group(c, InCategory(matches, c)) in r
  {
    if |cats| == 0 then []
    else
      var rest := GroupsOf(cats[1..], matches);
      var items := InCategory(matches, cats[0]);
      if |items| == 0 then rest else [Group(cats[0], items)] + rest
  }

  /** The section headings are `cats` filtered to the categories with matches, in the order of `cats`. */
  lemma {:induction false} GroupsOfOrder(cats: seq<FaqCategory>, matches: seq<FaqItem>)
    ensures GroupCategories(GroupsOf(cats, matches)) == Seqs.Filter(cats, HasMatches(matches))
  {
    if |cats| > 0 {
      GroupsOfOrder(cats[1..], matches);
      var rest := GroupsOf(cats[1..], matches);
      var items := InCategory(matches, cats[0]);
      assert HasMatches(matches)(cats[0]) <==> |items| > 0;
      if |items| > 0 {
        GroupCategoriesCons(Group(cats[0], items), rest);
      }
    }
  }

  /**
   * The sections the page renders for a search: one per category with a match, in the
   * order in which the categories first appear in the data, none twice.
   */
  function Sections(data: seq<FaqItem>, searchTerm: string): (r: seq<Group>)
    ensures forall g :: g in r ==> |g.items| > 0 && forall item :: item in g.items ==> item.category == g.category
    ensures GroupCategories(r) == Seqs.Filter(Categories(data), HasMatches(FilteredFaq(data, searchTerm)))
    ensures Seqs.NoDups(GroupCategories(r))
  {
    var cats := Categories(data);
    var matches := FilteredFaq(data, searchTerm);
    GroupsOfOrder(cats, matches);
    Seqs.FilterNoDups(cats, HasMatches(matches));
    GroupsOf(cats, matches)
  }

  /** Every matching question is shown, in the section of its own category, and nothing else is. */
  lemma SectionsCoverMatches(data: seq<FaqItem>, searchTerm: string, item: FaqItem)
    ensures (exists g :: g in Sections(data, searchTerm) && item in g.items)
      <==> item in data && Matches(item, searchTerm)
  {
    var matches := FilteredFaq(data, searchTerm);
    if item in data && Matches(item, searchTerm) {
      var g := Group(item.category, InCategory(matches, item.category));
      assert item in g.items;
      assert g in Sections(data, searchTerm);
    }
  }
}

=== FILE: flights_api.dfy ===
/**
 * The decision logic of the flights client, services/flightsApi.ts: which hubs a region
 * searches, when the cached access token is reused, how offers become deals and are
 * ordered, the booking link, and what every call returns without a token.
 *
 * Network responses are parameters: each operation receives what the server would
 * have answered and uses it only on the path where the source calls the server.
 */
module FlightsApi {
  import opened Wrappers
  import opened Types
  import Seqs
  import Text
  import StrategyEngine

  // ---------------------------------------------------------------- region -> hubs

  /** The region table: the airports searched for a named region. */
  function RegionHubs(region: string): (r: Option<seq<string>>)
    ensures r.Some? ==> 0 < |r.value| <= 4
    ensures r.Some? ==> forall i :: 0 <= i < |r.value| ==> |r.value[i]| == 3
  {
    if region == "Southeast Asia" then Some(["BKK", "SIN", "SGN", "KUL"])
    else if region == "Thailand" then Some(["BKK", "HKT"])
    else if region == "Vietnam" then Some(["SGN", "HAN"])
    else if region == "Bali" then Some(["DPS"])
    else if region == "Western Europe" then Some(["LHR", "CDG", "AMS", "FRA"])
    else if region == "Eastern Europe" then Some(["WAW", "BUD", "IST", "PRG"])
    else if region == "East Asia" then Some(["HND", "ICN", "TPE", "HKG"])
    else if region == "Japan" then Some(["HND", "NRT", "KIX"])
    else if region == "Korea" then Some(["ICN"])
    else if region == "China" then Some(["PVG", "PEK", "HKG"])
    else if region == "South America" then Some(["GRU", "BOG", "LIM", "EZE"])
    else if region == "Central America" then Some(["PTY", "SJO", "SAL"])
    else if region == "Mexico" then Some(["MEX", "CUN"])
    else if region == "Italy" then Some(["FCO", "MXP", "VCE"])
    else if region == "France" then Some(["CDG", "ORY", "NCE"])
    else if region == "UK" then Some(["LHR", "LGW", "MAN"])
    else if region == "Spain" then Some(["MAD", "BCN"])
    else if region == "Portugal" then Some(["LIS", "OPO"])
    else if region == "London" then Some(["LHR", "LGW"])
    else if region == "Paris" then Some(["CDG"])
    else if region == "Tokyo" then Some(["HND", "NRT"])
    else if region == "Bangkok" then Some(["BKK"])
    else if region == "Everywhere" then Some(["LHR", "DXB", "IST"])
    else None
  }

  /** The hubs searched when a region is neither in the table nor an airport code. */
  const FallbackHubs: seq<string> := ["LHR", "IST", "DXB"]

  /**
   * The hubs for a destination: the table entry when there is one, otherwise the text
   * itself when it has the length of an airport code, otherwise the fallback hubs.
   */
  function ResolveHubs(region: string): (r: seq<string>)
    ensures |r| > 0
    ensures RegionHubs(region).Some? ==> r == RegionHubs(region).value
    ensures RegionHubs(region).None? && |region| == 3 ==> r == [region]
    ensures RegionHubs(region).None? && |region| != 3 ==> r == FallbackHubs
  {
    match RegionHubs(region)
    case Some(hubs) => hubs
    case None => if |region| == 3 then [region] else FallbackHubs
  }

  /** Any three-character text not in the table is searched as an airport code. */
  lemma UnknownCodeSearchedAsItself(code: string)
    requires |code| == 3 && RegionHubs(code).None?
    ensures ResolveHubs(code) == [code]
  {
  }

  // ---------------------------------------------------------------- access token

  /** `!!x` for an optional text: present and non-empty. */
  predicate Truthy(s: Option<string>) {
    s.Some? && |s.value| > 0
  }

  /** A credential from the environment, else from the browser store; empty values count as missing. */
  function Credential(env: Option<string>, stored: Option<string>): (r: Option<string>)
    ensures Truthy(r) <==> Truthy(env) || Truthy(stored)
    ensures Truthy(env) ==> r == env
    ensures !Truthy(env) && Truthy(stored) ==> r == stored
  {
    if Truthy(env) then env else if Truthy(stored) then stored else None
  }

  /** The module-level token cache; the expiry is a clock reading in milliseconds. */
  datatype TokenCache = TokenCache(accessToken: Option<string>, expiryMs: int)

  const EmptyCache := TokenCache(None, 0)

  /** What the token endpoint answers: a token with its lifetime, received at a clock reading; or a failure. */
  datatype TokenResponse = Granted(accessToken: string, expiresInSec: int, receivedAtMs: int) | Refused

  datatype TokenResult = TokenResult(token: Option<string>, cache: TokenCache)

  /** The cached token is still used at `nowMs`. */
  predicate CacheValid(cache: TokenCache, nowMs: int) {
    Truthy(cache.accessToken) && nowMs < cache.expiryMs
  }

  /**
   * `getAmadeusToken`: no token without both credentials; the cached token while it is
   * valid; otherwise the endpoint's answer, cached to expire one minute before the
   * lifetime it announced. A failed request yields no token and keeps the cache.
   */
  function GetToken(clientId: Option<string>, clientSecret: Option<string>, cache: TokenCache, nowMs: int,
                    response: TokenResponse): (r: TokenResult)
    ensures !Truthy(clientId) || !Truthy(clientSecret) ==> r == TokenResult(None, cache)
    ensures Truthy(clientId) && Truthy(clientSecret) && CacheValid(cache, nowMs) ==>
      r == TokenResult(cache.accessToken, cache)
    ensures Truthy(clientId) && Truthy(clientSecret) && !CacheValid(cache, nowMs) && response.Granted? ==>
      && r.token == Some(response.accessToken)
      && r.cache.expiryMs == response.receivedAtMs + response.expiresInSec * 1000 - 60000
    ensures Truthy(clientId) && Truthy(clientSecret) && !CacheValid(cache, nowMs) && response.Refused? ==>
      r == TokenResult(None, cache)
    ensures r.cache != cache ==> r.token == r.cache.accessToken
  {
    if !Truthy(clientId) || !Truthy(clientSecret) then TokenResult(None, cache)
    else if CacheValid(cache, nowMs) then TokenResult(cache.accessToken, cache)
    else match response
      case Refused => TokenResult(None, cache)
      case Granted(t, e, at) => TokenResult(Some(t), TokenCache(Some(t), at + e * 1000 - 60000))
  }

  /**
   * A granted token is reused, without asking the endpoint, exactly until one minute
   * before its announced lifetime ends; from then on the call behaves as with no cache.
   */
  lemma TokenReuseWindow(id: string, secret: string, cache: TokenCache, t0: int, tok: string, e: int,
                         t: int, later: TokenResponse)
    requires |id| > 0 && |secret| > 0 && |tok| > 0
    requires !CacheValid(cache, t0)
    ensures var first := GetToken(Some(id), Some(secret), cache, t0, Granted(tok, e, t0));
      var second := GetToken(Some(id), Some(secret), first.cache, t, later);
      && (t < t0 + e * 1000 - 60000 ==> second == first)
      && (t >= t0 + e * 1000 - 60000 ==>
            second.token == GetToken(Some(id), Some(secret), EmptyCache, t, later).token)
  {
  }

  // ---------------------------------------------------------------- booking link

  /**
   * `generateBookingLink`: a Google Flights query to the last arrival from the first
   * departure on the first departure's date, the part of its timestamp before `T`.
   */
  function BookingLink(d: FlightDeal): (r: string)
    requires |d.segments| > 0
  {
    var origin := d.segments[0].departureCode;
    var dest := FinalArrival(d);
    var date := Text.BeforeFirst(d.segments[0].departureAt, 'T');
    StrategyEngine.GoogleFlightsBase + "Flights+to+" + dest + "+from+" + origin + "+on+" + date
  }

  /** The date of the link is the departure's calendar date: for `YYYY-MM-DDTHH:MM` its first ten characters. */
  lemma BookingLinkDate(d: FlightDeal)
    requires |d.segments| > 0
    requires var at := d.segments[0].departureAt; |at| > 10 && at[10] == 'T' && 'T' !in at[..10]
    ensures Text.IsSuffix("+on+" + d.segments[0].departureAt[..10], BookingLink(d))
  {
    var at := d.segments[0].departureAt;
    var date := Text.BeforeFirst(at, 'T');
    assert date == at[..10];
  }

  /** The link names both endpoints of the itinerary. */
  lemma BookingLinkEndpoints(d: FlightDeal)
    requires |d.segments| > 0
    ensures Text.Contains(BookingLink(d), "+to+" + FinalArrival(d))
    ensures Text.Contains(BookingLink(d), "+from+" + d.segments[0].departureCode)
  {
    var origin := d.segments[0].departureCode;
    var dest := FinalArrival(d);
    var date := Text.BeforeFirst(d.segments[0].departureAt, 'T');
    var pre := StrategyEngine.GoogleFlightsBase + "Flights";
    var a := pre + "+to+" + dest;
    var b := a + "+from+" + origin;
    assert BookingLink(d) == b + ("+on+" + date);
    assert a == pre + ("+to+" + dest);
    Text.ContainsLastPiece(pre, "+to+" + dest);
    Text.ContainsExtend(a, "+from+" + origin, "+to+" + dest);
    Text.ContainsExtend(b, "+on+" + date, "+to+" + dest);
    assert b == (pre + "+to+" + dest) + ("+from+" + origin);
    Text.ContainsLastPiece(a, "+from+" + origin);
    Text.ContainsExtend(b, "+on+" + date, "+from+" + origin);
  }

  // ---------------------------------------------------------------- offers -> deals

  /** A flight offer as the search endpoint returns it (first itinerary only; price in cents). */
  datatype RawOffer = RawOffer(
    id: string,
    priceCents: int,
    currency: string,
    duration: string,                 // ISO-8601 duration such as PT16H20M
    segments: seq<FlightSegment>)

  /**
   * One offer as a deal: its first carrier, a duration with `PT` removed and lowered,
   * one stop fewer than segments, and a booking link. An offer without segments makes
   * the mapping throw: `None`.
   */
  function MapOffer(o: RawOffer): (r: Option<FlightDeal>)
    ensures r.Some? <==> |o.segments| > 0
    ensures r.Some? ==>
      && r.value.id == o.id && r.value.source == Amadeus
      && r.value.priceCents == o.priceCents
      && r.value.segments == o.segments
      && r.value.stops == |o.segments| - 1
      && r.value.airlines == [o.segments[0].carrierCode]
      && r.value.deepLink == Some(BookingLink(r.value))
  {
    if |o.segments| == 0 then None
    else
      var d := FlightDeal(o.id, Amadeus, o.priceCents, o.currency, [o.segments[0].carrierCode], o.segments,
        None, Text.Lower(Text.RemoveFirst(o.duration, "PT")), |o.segments| - 1);
      Some(d.(deepLink := Some(BookingLink(d))))
  }

  /** One hub's answer mapped as a whole: if any offer fails, the hub contributes nothing. */
  function MapBatch(offers: seq<RawOffer>): (r: Option<seq<FlightDeal>>)
    ensures r.Some? <==> forall i :: 0 <= i < |offers| ==> |offers[i].segments| > 0
    ensures r.Some? ==> |r.value| == |offers|
    ensures r.Some? ==> forall i :: 0 <= i < |offers| ==> MapOffer(offers[i]) == Some(r.value[i])
  {
    if |offers| == 0 then Some([])
    else match (MapOffer(offers[0]), MapBatch(offers[1..]))
      case (Some(d), Some(rest)) =>
        var r := [d] + rest;
        assert forall i :: 1 <= i < |offers| ==> offers[i] == offers[1..][i - 1];
        Some(r)
      case (None, _) => None
      case (_, None) =>
        assert forall i :: 0 <= i < |offers[1..]| ==> offers[1..][i] == offers[i + 1];
        None
  }

  /** The deals of every hub that answered with data that mapped, in hub order. */
  function Collect(answers: seq<Option<seq<RawOffer>>>): (r: seq<FlightDeal>)
    ensures |answers| == 0 ==> r == []
  {
    if |answers| == 0 then [] else HubDeals(answers[0]) + Collect(answers[1..])
  }

  /** The deals hub `i` contributes: its answer's mapped batch, or nothing. */
  function HubDeals(answer: Option<seq<RawOffer>>): (r: seq<FlightDeal>)
    ensures answer.None? ==> r == []
    ensures answer.Some? && MapBatch(answer.value).Some? ==> r == MapBatch(answer.value).value
    ensures answer.Some? && MapBatch(answer.value).None? ==> r == []
  {
    match answer
    case Some(offers) => MapBatch(offers).GetOr([])
    case None => []
  }

  /**
   * A deal is collected iff some hub answered with a batch that mapped and holds it
   * (`HubDeals` is that batch, or nothing).
   */
  lemma {:induction false} CollectMembers(answers: seq<Option<seq<RawOffer>>>)
    ensures forall d :: d in Collect(answers) <==> exists i :: 0 <= i < |answers| && d in HubDeals(answers[i])
  {
    if |answers| > 0 {
      CollectMembers(answers[1..]);
      assert Collect(answers) == HubDeals(answers[0]) + Collect(answers[1..]);
      forall d | d in Collect(answers) ensures exists i :: 0 <= i < |answers| && d in HubDeals(answers[i]) {
        if d !in HubDeals(answers[0]) {
          assert d in Collect(answers[1..]);
          var j :| 0 <= j < |answers[1..]| && d in HubDeals(answers[1..][j]);
          assert answers[j + 1] == answers[1..][j];
        }
      }
      forall d | exists i :: 0 <= i < |answers| && d in HubDeals(answers[i]) ensures d in Collect(answers) {
        var i :| 0 <= i < |answers| && d in HubDeals(answers[i]);
        if i > 0 {
          assert answers[1..][i - 1] == answers[i];
        }
      }
    }
  }

  /** One more hub's answer puts its deals after those of the hubs before it. */
  lemma {:induction false} CollectSnoc(answers: seq<Option<seq<RawOffer>>>, a: Option<seq<RawOffer>>)
    ensures Collect(answers + [a]) == Collect(answers) + HubDeals(a)
  {
    if |answers| == 0 {
      assert [a][1..] == [];
    } else {
      var h, rest := HubDeals(answers[0]), answers[1..];
      assert Collect(answers + [a]) == h + Collect(rest + [a]) by {
        assert (answers + [a])[0] == answers[0];
        assert (answers + [a])[1..] == rest + [a];
      }
      assert Collect(rest + [a]) == Collect(rest) + HubDeals(a) by {
        CollectSnoc(rest, a);
      }
      assert Collect(answers) == h + Collect(rest);
      Seqs.ConcatAssoc(h, Collect(rest), HubDeals(a));
    }
  }

  /** Every collected deal has segments, and as many stops as it has segments less one. */
  lemma {:induction false} CollectShape(answers: seq<Option<seq<RawOffer>>>)
    ensures forall d :: d in Collect(answers) ==> d.stops == |d.segments| - 1 && |d.segments| > 0
  {
    if |answers| > 0 {
      CollectShape(answers[1..]);
      match answers[0]
      case Some(offers) =>
        var b := MapBatch(offers);
        if b.Some? {
          forall d | d in b.value ensures d.stops == |d.segments| - 1 && |d.segments| > 0 {
            var i :| 0 <= i < |b.value| && b.value[i] == d;
            assert MapOffer(offers[i]) == Some(d);
          }
        }
      case None =>
    }
  }

  // ---------------------------------------------------------------- price order

  predicate SortedByPrice(ds: seq<FlightDeal>) {
    forall i, j :: 0 <= i < j < |ds| ==> ds[i].priceCents <= ds[j].priceCents
  }

  /** A deal no dearer than every deal of a sorted list can go in front of it. */
  lemma SortedCons(x: FlightDeal, ds: seq<FlightDeal>)
    requires SortedByPrice(ds)
    requires forall y :: y in ds ==> x.priceCents <= y.priceCents
    ensures SortedByPrice([x] + ds)
  {
    var r := [x] + ds;
    forall i, j | 0 <= i < j < |r| ensures r[i].priceCents <= r[j].priceCents {
      assert r[j] == ds[j - 1];
      if i > 0 {
        assert r[i] == ds[i - 1];
      }
    }
  }

  /** Places `d` before the first deal that is not cheaper: after every cheaper one. */
  function InsertByPrice(d: FlightDeal, ds: seq<FlightDeal>): (r: seq<FlightDeal>)
    requires SortedByPrice(ds)
    ensures SortedByPrice(r)
    ensures multiset(r) == multiset(ds) + multiset{d}
  {
    if |ds| == 0 then [d]
    else if d.priceCents <= ds[0].priceCents then
      SortedCons(d, ds);
      [d] + ds
    else
      var rest := InsertByPrice(d, ds[1..]);
      assert multiset([ds[0]] + rest) == multiset(ds) + multiset{d} by {
        assert ds == [ds[0]] + ds[1..];
      }
      assert SortedByPrice([ds[0]] + rest) by {
        HeadIsCheapest(ds);
        BoundSurvivesInsert(ds[0].priceCents, ds[1..], d, rest);
        SortedCons(ds[0], rest);
      }
      [ds[0]] + rest
  }

  /** In a price-sorted list the first deal is no dearer than any later one. */
  lemma HeadIsCheapest(ds: seq<FlightDeal>)
    requires SortedByPrice(ds) && |ds| > 0
    ensures forall y :: y in ds[1..] ==> ds[0].priceCents <= y.priceCents
  {
    forall y | y in ds[1..] ensures ds[0].priceCents <= y.priceCents {
      var k :| 0 <= k < |ds[1..]| && ds[1..][k] == y;
      assert ds[k + 1] == y;
    }
  }

  /** A lower price bound on a list and on `d` holds for any list with their deals. */
  lemma BoundSurvivesInsert(low: int, ds: seq<FlightDeal>, d: FlightDeal, rest: seq<FlightDeal>)
    requires forall y :: y in ds ==> low <= y.priceCents
    requires low <= d.priceCents
    requires multiset(rest) == multiset(ds) + multiset{d}
    ensures forall x :: x in rest ==> low <= x.priceCents
  {
    forall x | x in rest ensures low <= x.priceCents {
      assert x in multiset(rest);
      if x != d {
        assert x in multiset(ds);
      }
    }
  }

  /**
   * The final order of a live search: ascending total price. `Array.prototype.sort` is
   * stable, so deals of equal price keep the order in which they were found.
   */
  function SortByPrice(ds: seq<FlightDeal>): (r: seq<FlightDeal>)
    ensures SortedByPrice(r)
    ensures multiset(r) == multiset(ds)
  {
    if |ds| == 0 then []
    else
      assert ds == [ds[0]] + ds[1..];
      InsertByPrice(ds[0], SortByPrice(ds[1..]))
  }

  /** The deals of one price, in order. */
  function AtPrice(ds: seq<FlightDeal>, price: int): (r: seq<FlightDeal>)
    ensures forall d :: d in r <==> d in ds && d.priceCents == price
  {
    if |ds| == 0 then []
    else if ds[0].priceCents == price then [ds[0]] + AtPrice(ds[1..], price)
    else AtPrice(ds[1..], price)
  }

  /** The deals of one price in a list with one deal put in front. */
  lemma AtPriceCons(x: FlightDeal, rest: seq<FlightDeal>, price: int)
    ensures AtPrice([x] + rest, price) == (if x.priceCents == price then [x] else []) + AtPrice(rest, price)
  {
    assert ([x] + rest)[0] == x && ([x] + rest)[1..] == rest;
  }

  lemma {:induction false} AtPriceInsert(d: FlightDeal, ds: seq<FlightDeal>, price: int)
    requires SortedByPrice(ds)
    ensures AtPrice(InsertByPrice(d, ds), price)
         == (if d.priceCents == price then [d] else []) + AtPrice(ds, price)
  {
    if |ds| == 0 {
      AtPriceCons(d, [], price);
    } else if d.priceCents <= ds[0].priceCents {
      assert InsertByPrice(d, ds) == [d] + ds;
      AtPriceCons(d, ds, price);
    } else {
      var rest := InsertByPrice(d, ds[1..]);
      assert InsertByPrice(d, ds) == [ds[0]] + rest;
      AtPriceInsert(d, ds[1..], price);
      AtPriceCons(ds[0], rest, price);
      AtPriceCons(ds[0], ds[1..], price);
      assert ds == [ds[0]] + ds[1..];
    }
  }

  /** Sorting is stable: the deals of each price appear in the order they were found. */
  lemma {:induction false} SortByPriceStable(ds: seq<FlightDeal>, price: int)
    ensures AtPrice(SortByPrice(ds), price) == AtPrice(ds, price)
  {
    if |ds| > 0 {
      SortByPriceStable(ds[1..], price);
      AtPriceInsert(ds[0], SortByPrice(ds[1..]), price);
    }
  }

  // ---------------------------------------------------------------- flight search

  /** What `searchDeals` does once it knows the token: serve mocks, or query the first two hubs. */
  datatype SearchPlan =
    | MockPlan(region: string, hubs: seq<string>)
    | LivePlan(origin: string, queried: seq<string>, date: string)

  /**
   * The plan of `searchDeals`: the first destination's hubs; mocks without a token,
   * otherwise a live query from the first home airport (or NYC) to at most two hubs.
   * With no destination at all the source throws on `region.length`: `None`.
   */
  function PlanSearch(profile: FlightProfile, trip: TripPlan, token: Option<string>): (r: Option<SearchPlan>)
    ensures r.None? <==> |trip.destinationRegions| == 0
    ensures r.Some? && !Truthy(token) ==>
      r.value == MockPlan(trip.destinationRegions[0], ResolveHubs(trip.destinationRegions[0]))
    ensures r.Some? && Truthy(token) ==>
      && r.value.LivePlan?
      && |r.value.queried| == (if |ResolveHubs(trip.destinationRegions[0])| < 2 then 1 else 2)
      && r.value.queried <= ResolveHubs(trip.destinationRegions[0])
      && r.value.origin == StrategyEngine.Origin(profile)
      && r.value.date == trip.startDate
  {
    if |trip.destinationRegions| == 0 then None
    else
      var region := trip.destinationRegions[0];
      var hubs := ResolveHubs(region);
      if !Truthy(token) then Some(MockPlan(region, hubs))
      else Some(LivePlan(StrategyEngine.Origin(profile), Seqs.Take(hubs, 2), trip.startDate))
  }

  /** The result of a live search: every hub's mapped deals, cheapest first. */
  function LiveResults(answers: seq<Option<seq<RawOffer>>>): (r: seq<FlightDeal>)
    ensures SortedByPrice(r)
    ensures multiset(r) == multiset(Collect(answers))
  {
    SortByPrice(Collect(answers))
  }

  /** Every live deal has one stop fewer than segments. */
  lemma LiveResultsStops(answers: seq<Option<seq<RawOffer>>>)
    ensures forall d :: d in LiveResults(answers) ==> d.stops == |d.segments| - 1
  {
    CollectShape(answers);
    forall d | d in LiveResults(answers) ensures d in Collect(answers) {
      assert d in multiset(LiveResults(answers));
    }
  }

  // ---------------------------------------------------------------- mock deals

  function MockSegment(from: string, at: string, to: string, arrives: string, carrier: string, number: string,
                       duration: string): FlightSegment {
    FlightSegment(from, at, to, arrives, carrier, number, duration)
  }

  /** The number of demo itineraries. */
  const MockCount := 3

  /** The demo itineraries: mock-1 to Bangkok via Istanbul, mock-2 to Singapore, mock-3 to London. */
  function MockDeal(i: nat): (d: FlightDeal)
    requires i < MockCount
    ensures |d.segments| > 0 && d.source == Mock
  {
    if i == 0 then
      FlightDeal("mock-1", Mock, 48500, "USD", ["TK"],
        [ MockSegment("JFK", "2024-05-10T18:00", "IST", "2024-05-11T11:00", "TK", "001", "10h"),
          MockSegment("IST", "2024-05-11T14:00", "BKK", "2024-05-12T03:00", "TK", "068", "9h") ],
        None, "16h 20m", 1)
    else if i == 1 then
      FlightDeal("mock-2", Mock, 62000, "USD", ["SQ"],
        [ MockSegment("EWR", "2024-05-10T09:00", "SIN", "2024-05-11T16:00", "SQ", "21", "18h 30m") ],
        None, "21h 00m", 1)
    else
      FlightDeal("mock-3", Mock, 55000, "USD", ["BA"],
        [ MockSegment("JFK", "2024-05-10T18:00", "LHR", "2024-05-11T06:00", "BA", "112", "7h") ],
        None, "7h 00m", 0)
  }

  /** Where each demo itinerary ends. */
  lemma MockDestinations()
    ensures FinalArrival(MockDeal(0)) == "BKK"
    ensures FinalArrival(MockDeal(1)) == "SIN"
    ensures FinalArrival(MockDeal(2)) == "LHR"
  {
  }

  /** `MOCK_DEALS`, in the source's order. */
  function MockDeals(): (r: seq<FlightDeal>)
    ensures |r| == MockCount
    ensures forall i :: 0 <= i < MockCount ==> r[i] == MockDeal(i)
    ensures forall d :: d in r ==> |d.segments| > 0 && d.source == Mock
  {
    [MockDeal(0), MockDeal(1), MockDeal(2)]
  }

  /** The mock filter: keep a deal ending at `dest`. */
  predicate MockKeeps(region: string, hubs: seq<string>, dest: string) {
    || region == "Everywhere"
    || (Text.Contains(region, "Asia") && dest in ["BKK", "SIN"])
    || (Text.Contains(region, "Europe") && dest in ["LHR", "IST"])
    || dest in hubs
  }

  /** The deals the mock filter keeps, in order. */
  function FilterMocks(region: string, hubs: seq<string>, ds: seq<FlightDeal>): (r: seq<FlightDeal>)
    requires forall d :: d in ds ==> |d.segments| > 0
    ensures forall d :: d in r <==> d in ds && MockKeeps(region, hubs, FinalArrival(d))
    ensures Seqs.IsSubseq(r, ds)
  {
    if |ds| == 0 then []
    else if MockKeeps(region, hubs, FinalArrival(ds[0])) then [ds[0]] + FilterMocks(region, hubs, ds[1..])
    else FilterMocks(region, hubs, ds[1..])
  }

  /** Kept mock deals get a fresh id each and their booking link. */
  function Restamp(ds: seq<FlightDeal>, freshIds: seq<string>): (r: seq<FlightDeal>)
    requires forall d :: d in ds ==> |d.segments| > 0
    requires |freshIds| >= |ds|
    ensures |r| == |ds|
    ensures forall i :: 0 <= i < |ds| ==>
      r[i] == ds[i].(id := freshIds[i], deepLink := Some(BookingLink(ds[i])))
  {
    if |ds| == 0 then []
    else
      [ds[0].(id := freshIds[0], deepLink := Some(BookingLink(ds[0])))] + Restamp(ds[1..], freshIds[1..])
  }

  lemma {:induction false} SubseqLength<T>(a: seq<T>, b: seq<T>)
    requires Seqs.IsSubseq(a, b)
    ensures |a| <= |b|
    decreases |b|
  {
    if |a| > 0 {
      if a[0] == b[0] && Seqs.IsSubseq(a[1..], b[1..]) {
        SubseqLength(a[1..], b[1..]);
      } else {
        SubseqLength(a, b[1..]);
      }
    }
  }

  /**
   * The mock answer for a list of demo deals: the ones the filter keeps, in order, each
   * under the next fresh id and with its booking link.
   */
  function ServeMocks(region: string, hubs: seq<string>, ds: seq<FlightDeal>, freshIds: seq<string>)
    : (r: seq<FlightDeal>)
    requires forall d :: d in ds ==> |d.segments| > 0
    requires |freshIds| >= |ds|
    ensures |r| <= |ds|
    ensures forall j :: 0 <= j < |r| ==>
      exists k :: 0 <= k < |ds| && r[j] == ds[k].(id := freshIds[j], deepLink := Some(BookingLink(ds[k])))
    ensures |r| == |FilterMocks(region, hubs, ds)|
    ensures forall j :: 0 <= j < |r| ==>
      r[j] == FilterMocks(region, hubs, ds)[j].(id := freshIds[j], deepLink := Some(BookingLink(FilterMocks(region, hubs, ds)[j])))
  {
    var kept := FilterMocks(region, hubs, ds);
    SubseqLength(kept, ds);
    var r := Restamp(kept, freshIds);
    forall j | 0 <= j < |r|
      ensures exists k :: 0 <= k < |ds| && r[j] == ds[k].(id := freshIds[j], deepLink := Some(BookingLink(ds[k])))
    {
      assert kept[j] in ds;
    }
    r
  }

  /** Restamping changes ids and links only: the same itineraries come out. */
  lemma RestampItineraries(ds: seq<FlightDeal>, freshIds: seq<string>, segs: seq<FlightSegment>)
    requires forall d :: d in ds ==> |d.segments| > 0
    requires |freshIds| >= |ds|
    ensures (exists j :: 0 <= j < |Restamp(ds, freshIds)| && Restamp(ds, freshIds)[j].segments == segs)
        <==> (exists d :: d in ds && d.segments == segs)
  {
    var r := Restamp(ds, freshIds);
    if exists j :: 0 <= j < |r| && r[j].segments == segs {
      var j :| 0 <= j < |r| && r[j].segments == segs;
      assert ds[j] in ds && ds[j].segments == segs;
    }
    if exists d :: d in ds && d.segments == segs {
      var d :| d in ds && d.segments == segs;
      var j :| 0 <= j < |ds| && ds[j] == d;
      assert Restamp(ds, freshIds)[j].segments == segs;
    }
  }

  /** A demo deal's itinerary is served exactly when the mock filter accepts where it ends. */
  lemma ServeMocksKeeps(region: string, hubs: seq<string>, ds: seq<FlightDeal>, freshIds: seq<string>, x: FlightDeal)
    requires forall d :: d in ds ==> |d.segments| > 0
    requires |freshIds| >= |ds|
    requires x in ds
    ensures (exists j :: 0 <= j < |ServeMocks(region, hubs, ds, freshIds)|
               && ServeMocks(region, hubs, ds, freshIds)[j].segments == x.segments)
        <==> MockKeeps(region, hubs, FinalArrival(x))
  {
    var kept := FilterMocks(region, hubs, ds);
    SubseqLength(kept, ds);
    assert ServeMocks(region, hubs, ds, freshIds) == Restamp(kept, freshIds);
    RestampItineraries(kept, freshIds, x.segments);
    if exists d :: d in kept && d.segments == x.segments {
      var d :| d in kept && d.segments == x.segments;
      assert d in ds && MockKeeps(region, hubs, FinalArrival(d));
      SameItinerarySameEnd(d, x);
    }
  }

  lemma SameItinerarySameEnd(a: FlightDeal, b: FlightDeal)
    requires a.segments == b.segments && |a.segments| > 0
    ensures FinalArrival(a) == FinalArrival(b)
  {
  }

  /** `getMockDeals`: the demo deals the filter keeps, in order, each under the next fresh id and with its booking link. */
  function GetMockDeals(region: string, hubs: seq<string>, freshIds: seq<string>): (r: seq<FlightDeal>)
    requires |freshIds| >= MockCount
    ensures |r| <= MockCount
    ensures forall j :: 0 <= j < |r| ==>
      exists k :: 0 <= k < MockCount && r[j] == MockDeal(k).(id := freshIds[j], deepLink := Some(BookingLink(MockDeal(k))))
    ensures |r| == |FilterMocks(region, hubs, MockDeals())|
    ensures forall j :: 0 <= j < |r| ==>
      r[j] == FilterMocks(region, hubs, MockDeals())[j].(id := freshIds[j],
                                                          deepLink := Some(BookingLink(FilterMocks(region, hubs, MockDeals())[j])))
  {
    ServeMocks(region, hubs, MockDeals(), freshIds)
  }

  /**
   * For "Everywhere" all three mocks are served in their listed order, so the first deal
   * the page sees is mock-1 at 485.00, not a dearer one.
   */
  lemma EverywhereServesInOrder(hubs: seq<string>, freshIds: seq<string>)
    requires |freshIds| >= MockCount
    ensures |GetMockDeals("Everywhere", hubs, freshIds)| == MockCount
    ensures forall i :: 0 <= i < MockCount ==>
      GetMockDeals("Everywhere", hubs, freshIds)[i]
        == MockDeal(i).(id := freshIds[i], deepLink := Some(BookingLink(MockDeal(i))))
    ensures GetMockDeals("Everywhere", hubs, freshIds)[0].priceCents == 48500
  {
    EverywhereKeepsAll(hubs, MockDeals());
  }

  /**
   * `getMockDeals` as a whole: the itinerary of demo deal `i` is served exactly when the
   * mock filter accepts where it ends.
   */
  lemma GetMockDealsServes(region: string, hubs: seq<string>, freshIds: seq<string>, i: nat)
    requires |freshIds| >= MockCount && i < MockCount
    ensures (exists j :: 0 <= j < |GetMockDeals(region, hubs, freshIds)|
               && GetMockDeals(region, hubs, freshIds)[j].segments == MockDeal(i).segments)
        <==> MockKeeps(region, hubs, FinalArrival(MockDeal(i)))
  {
    var ds := MockDeals();
    assert ds[i] == MockDeal(i);
    assert GetMockDeals(region, hubs, freshIds) == ServeMocks(region, hubs, ds, freshIds);
    ServeMocksKeeps(region, hubs, ds, freshIds, MockDeal(i));
  }

  /** "Everywhere" keeps every deal, so all three demo deals. */
  lemma {:induction false} EverywhereKeepsAll(hubs: seq<string>, ds: seq<FlightDeal>)
    requires forall d :: d in ds ==> |d.segments| > 0
    ensures FilterMocks("Everywhere", hubs, ds) == ds
  {
    if |ds| > 0 {
      assert forall d :: d in ds[1..] ==> d in ds;
      EverywhereKeepsAll(hubs, ds[1..]);
      assert ds == [ds[0]] + ds[1..];
    }
  }

  /** A region naming Asia keeps the deals ending in Bangkok and Singapore, whatever the hubs. */
  lemma AsiaKeepsBangkokAndSingapore(region: string, hubs: seq<string>)
    requires Text.Contains(region, "Asia")
    ensures MockDeal(0) in FilterMocks(region, hubs, MockDeals())
    ensures MockDeal(1) in FilterMocks(region, hubs, MockDeals())
  {
    MockDestinations();
    assert MockDeals()[0] == MockDeal(0) && MockDeals()[1] == MockDeal(1);
  }

  /** A region naming Europe keeps the deal ending in London, whatever the hubs. */
  lemma EuropeKeepsLondon(region: string, hubs: seq<string>)
    requires Text.Contains(region, "Europe")
    ensures MockDeal(2) in FilterMocks(region, hubs, MockDeals())
  {
    MockDestinations();
    assert MockDeals()[2] == MockDeal(2);
  }

  // ---------------------------------------------------------------- other calls without a token

  datatype PricingAnswer = Priced(totalCents: int) | PricingRejected(detail: Option<string>) | NetworkError

  datatype PriceCheck = PriceCheck(confirmed: bool, priceCents: Option<int>, error: Option<string>)

  const PricingFailed := "Pricing verification " + "failed"
  const PricingNetworkError := "Network error " + "during verification"

  /**
   * `confirmFlightPrice`: without a token the offer is confirmed at its own price;
   * otherwise the pricing answer decides, a rejection without detail getting a default message.
   */
  function ConfirmFlightPrice(token: Option<string>, offerTotalCents: int, answer: PricingAnswer): (r: PriceCheck)
    ensures !Truthy(token) ==> r == PriceCheck(true, Some(offerTotalCents), None)
    ensures r.confirmed <==> !Truthy(token) || answer.Priced?
    ensures r.confirmed <==> r.priceCents.Some? && r.error.None?
  {
    if !Truthy(token) then PriceCheck(true, Some(offerTotalCents), None)
    else match answer
      case Priced(p) => PriceCheck(true, Some(p), None)
      case PricingRejected(detail) =>
        PriceCheck(false, None, Some(if Truthy(detail) then detail.value else PricingFailed))
      case NetworkError => PriceCheck(false, None, Some(PricingNetworkError))
  }

  /** An autocomplete hit as the locations endpoint returns it. */
  datatype RawLocation = RawLocation(name: string, iataCode: string, subType: string, countryName: string)

  function LocationOf(loc: RawLocation): (r: LocationOption)
    ensures r.value == loc.iataCode
    ensures r.locationType == (if loc.subType == "AIRPORT" then Airport else City)
  {
    LocationOption(loc.name + " (" + loc.iataCode + ")", loc.iataCode,
      if loc.subType == "AIRPORT" then Airport else City, [loc.countryName])
  }

  function LocationsOf(locs: seq<RawLocation>): (r: seq<LocationOption>)
    ensures |r| == |locs|
    ensures forall i :: 0 <= i < |locs| ==> r[i] == LocationOf(locs[i])
  {
    if |locs| == 0 then [] else [LocationOf(locs[0])] + LocationsOf(locs[1..])
  }

  /**
   * `searchLocations`: nothing without a token or for a keyword under two characters;
   * otherwise one option per hit, or nothing when the request failed.
   */
  function SearchLocations(token: Option<string>, keyword: string, answer: Option<seq<RawLocation>>)
    : (r: seq<LocationOption>)
    ensures !Truthy(token) || |keyword| < 2 ==> r == []
    ensures Truthy(token) && |keyword| >= 2 && answer.Some? ==> |r| == |answer.value|
    ensures forall o :: o in r ==> answer.Some? && exists loc :: loc in answer.value && o == LocationOf(loc)
    ensures Truthy(token) && |keyword| >= 2 && answer.Some? ==> r == LocationsOf(answer.value)
    ensures answer.None? ==> r == []
  {
    if !Truthy(token) || |keyword| < 2 then []
    else match answer
      case None => []
      case Some(locs) =>
        var r := LocationsOf(locs);
        assert forall o :: o in r ==> exists loc :: loc in locs && o == LocationOf(loc) by {
          forall o | o in r ensures exists loc :: loc in locs && o == LocationOf(loc) {
            var i :| 0 <= i < |r| && r[i] == o;
            assert locs[i] in locs;
          }
        }
        r
  }

  /**
   * A successful search lists the hits in the order the endpoint gave them: option `i`
   * carries hit `i`'s code as its value and shows `name (CODE)`.
   */
  lemma SearchLocationsLabels(token: Option<string>, keyword: string, locs: seq<RawLocation>, i: nat)
    requires Truthy(token) && |keyword| >= 2 && i < |locs|
    ensures |SearchLocations(token, keyword, Some(locs))| == |locs|
    ensures SearchLocations(token, keyword, Some(locs))[i].value == locs[i].iataCode
    ensures Text.IsPrefix(locs[i].name, SearchLocations(token, keyword, Some(locs))[i].caption)
    ensures Text.IsSuffix("(" + locs[i].iataCode + ")", SearchLocations(token, keyword, Some(locs))[i].caption)
  {
    var caption := SearchLocations(token, keyword, Some(locs))[i].caption;
    assert caption == locs[i].name + " (" + locs[i].iataCode + ")";
    assert caption == (locs[i].name + " ") + ("(" + locs[i].iataCode + ")");
  }

  /** A hotel offer; prices in cents. */
  datatype HotelOffer = HotelOffer(id: string, hotelId: string, name: string, cityCode: string, rating: int,
                                   priceCents: int, currency: string)

  /** The three demo hotels, all placed in the requested city. */
  function MockHotels(cityCode: string): (r: seq<HotelOffer>)
    ensures |r| == 3
    ensures forall h :: h in r ==> h.cityCode == cityCode
    ensures forall i, j :: 0 <= i < j < |r| ==> r[i].id != r[j].id && r[i].hotelId != r[j].hotelId
    ensures forall h :: h in r ==> h.currency == "USD" && 1 <= h.rating <= 5 && h.priceCents > 0
  {
    [ HotelOffer("h1", "H1", "Grand Hyatt", cityCode, 5, 25000, "USD"),
      HotelOffer("h2", "H2", "Ibis Budget", cityCode, 3, 8500, "USD"),
      HotelOffer("h3", "H3", "Marriott Downtown", cityCode, 4, 18000, "USD") ]
  }

  /** `searchHotels`: the demo hotels without a token, otherwise what the two requests produced. */
  function SearchHotels(token: Option<string>, cityCode: string, live: seq<HotelOffer>): (r: seq<HotelOffer>)
    ensures !Truthy(token) ==> |r| == 3 && forall h :: h in r ==> h.cityCode == cityCode
    ensures Truthy(token) ==> r == live
  {
    if !Truthy(token) then MockHotels(cityCode) else live
  }

  /** An activity offer; prices in cents. */
  datatype ActivityOffer = ActivityOffer(id: string, name: string, shortDescription: string, rating: string,
                                         priceCents: int, currency: string)

  /** The two demo activities, with distinct ids and positive prices in dollars. */
  function MockActivities(): (r: seq<ActivityOffer>)
    ensures |r| == 2
    ensures r[0].id != r[1].id
    ensures forall a :: a in r ==> a.currency == "USD" && a.priceCents > 0
  {
    [ ActivityOffer("a1", "City Walking Tour", "Explore the " + "historic center.", "4.5", 2500, "USD"),
      ActivityOffer("a2", "Museum Entry", "Skip the line " + "tickets.", "4.8", 4000, "USD") ]
  }

  /** `searchActivities`: the two demo activities without a token, otherwise the live answer. */
  function SearchActivities(token: Option<string>, live: seq<ActivityOffer>): (r: seq<ActivityOffer>)
    ensures !Truthy(token) ==> |r| == 2
    ensures Truthy(token) ==> r == live
  {
    if !Truthy(token) then MockActivities() else live
  }

  /** `getFlightInspiration`: nothing without a token, otherwise the live answer. */
  function FlightInspiration<T>(token: Option<string>, live: seq<T>): (r: seq<T>)
    ensures !Truthy(token) ==> r == []
    ensures Truthy(token) ==> r == live
  {
    if !Truthy(token) then [] else live
  }
}

=== FILE: hacker_terminal.dfy ===
/**
 * The scrolling log of components/ui/HackerTerminal.tsx: every 400 ms the interval
 * callback appends the next canned line and keeps only the last eight. Time is the
 * number of ticks so far; the timer itself is not modelled.
 */
module HackerTerminal {

  /** The number of canned lines, `HACKER_LOGS.length`. */
  const LogCount: nat := 14

  /** The most lines the terminal keeps. */
  const MaxLines: nat := 8

  /** `HACKER_LOGS[i]`; longer lines are written as `+` pieces that concatenate to the source's line. */
  function LogText(i: nat): (r: string)
    requires i < LogCount
    ensures |r| > 0
  {
    if i == 0 then "INITIALIZING NEURAL " + "HANDSHAKE..."
    else if i == 1 then "ACCESSING AMADEUS " + "GDS [SECURE " + "CHANNEL]..."
    else if i == 2 then "BYPASSING GEO-" + "FENCING PROTOCOLS..."
    else if i == 3 then "TRIANGULATING " + "OPEN-JAW " + "OPPORTUNITIES..."
    else if i == 4 then "ANALYZING 40,320 " + "ROUTE PERMUTATIONS..."
    else if i == 5 then "DETECTING HIDDEN " + "CITY TICKETS..."
    else if i == 6 then "INJECTING FUEL " + "DUMP HEURISTICS..."
    else if i == 7 then "DECRYPTING FARE " + "CLASS BUCKETS " + "(J/C/Y)..."
    else if i == 8 then "OPTIMIZING LAYOVER " + "EFFICIENCY..."
    else if i == 9 then "CROSS-REFERENCING " + "ALLIANCE PARTNERS..."
    else if i == 10 then "FILTERING GHOST " + "FLIGHTS..."
    else if i == 11 then "ESTABLISHING " + "SECURE UPLINK..."
    else if i == 12 then "DOWNLOADING ITA " + "MATRIX DATA..."
    else "COMPILING STRATEGIC " + "VECTORS..."
  }

  /** The line written on tick `k` (counting from 0): the prompt and the canned line, cycling. */
  function LineAt(k: nat): (r: string)
    ensures |r| > 2 && r[0] == '>' && r[1] == ' '
  {
    "> " + LogText(k % LogCount)
  }

  /** One tick's update: the new line goes at the end and, past eight lines, the oldest one is dropped. */
  function Push<T>(lines: seq<T>, line: T): (r: seq<T>)
    requires |lines| <= MaxLines
    ensures |r| <= MaxLines
    ensures |r| > 0 && r[|r| - 1] == line
    ensures |lines| < MaxLines ==> r == lines + [line]
    ensures |lines| == MaxLines ==> r == lines[1..] + [line]
  {
    var updated := lines + [line];
    if |updated| > MaxLines then updated[1..] else updated
  }

  /** The buffer after pushing `all`, oldest first, onto the empty buffer. */
  function Window<T>(all: seq<T>): (r: seq<T>)
    ensures |r| <= MaxLines
  {
    if |all| == 0 then [] else Push(Window(all[..|all| - 1]), all[|all| - 1])
  }

  function Min(a: nat, b: nat): nat { if a < b then a else b }

  /** The buffer keeps exactly the last `min(|all|, 8)` lines pushed, in order. */
  lemma {:induction false} WindowIsSuffix<T>(all: seq<T>)
    ensures Window(all) == all[|all| - Min(|all|, MaxLines)..]
  {
    if |all| > 0 {
      var n := |all|;
      var g := all[..n - 1];
      WindowIsSuffix(g);
      assert all == g + [all[n - 1]];
      if n - 1 >= MaxLines {
        assert Window(g)[1..] == g[n - MaxLines..];
        assert all[n - MaxLines..] == g[n - MaxLines..] + [all[n - 1]];
      }
    }
  }

  /** Every line generated by the first `n` ticks, oldest first. */
  function Generated(n: nat): (r: seq<string>)
    ensures |r| == n
    ensures forall k :: 0 <= k < n ==> r[k] == LineAt(k)
  {
    if n == 0 then [] else Generated(n - 1) + [LineAt(n - 1)]
  }

  /** The buffer after `n` ticks, starting from the empty buffer at mount. */
  function Run(n: nat): (r: seq<string>)
    ensures |r| <= MaxLines
  {
    Window(Generated(n))
  }

  /** After `n` ticks the terminal shows exactly the last `min(n, 8)` generated lines, in order. */
  lemma RunWindow(n: nat)
    ensures Run(n) == Generated(n)[n - Min(n, MaxLines)..]
  {
    WindowIsSuffix(Generated(n));
  }

  /** Each tick appends the line of that tick to what the previous tick left. */
  lemma RunStep(n: nat)
    ensures Run(n + 1) == Push(Run(n), LineAt(n))
  {
    assert Generated(n + 1)[..n] == Generated(n);
  }

  /** The terminal holds eight lines from the eighth tick on, and fewer before. */
  lemma RunLength(n: nat)
    ensures |Run(n)| == Min(n, MaxLines)
  {
    RunWindow(n);
  }

  /** Once full, the first line shown is the one written eight ticks ago. */
  lemma OldestShown(n: nat)
    requires n >= MaxLines
    ensures Run(n)[0] == LineAt(n - MaxLines)
  {
    RunWindow(n);
  }

  /**
   * The interval loop: the counter and the buffer advance together; the returned
   * buffer holds the last `min(n, 8)` lines written, oldest first.
   */
  method RunTicks(n: nat) returns (lines: seq<string>)
    ensures |lines| == Min(n, MaxLines)
    ensures forall i :: 0 <= i < |lines| ==> lines[i] == LineAt(n - |lines| + i)
  {
    lines := [];
    var currentIndex := 0;
    while currentIndex < n
      invariant currentIndex <= n
      invariant lines == Run(currentIndex)
    {
      RunStep(currentIndex);
      lines := Push(lines, LineAt(currentIndex));
      currentIndex := currentIndex + 1;
    }
    RunWindow(n);
  }
}

=== FILE: knowledge_page.dfy ===
/**
 * The search of pages/KnowledgePage.tsx: the glossary is filtered by a search text and a
 * category tab. The glossary itself (data/knowledgeBase.ts) is a parameter.
 */
module KnowledgePage {
  import opened Wrappers
  import Seqs
  import Text

  datatype KnowledgeCategory = Concept | Acronym | Tool

  datatype Link = Link(text: string, url: string)

  datatype KnowledgeEntry = KnowledgeEntry(
    id: string, term: string, category: KnowledgeCategory, definition: string,
    example: Option<string>, links: seq<Link>)

  /** The category tab: `'All'` or one category. */
  datatype CategoryTab = All | Only(category: KnowledgeCategory)

  /** The page's two filter inputs. */
  datatype Filters = Filters(searchTerm: string, activeCategory: CategoryTab)

  /** The state on first render. */
  const Initial := Filters("", All)

  /** The term or the definition contains the search text, ignoring case. */
  predicate MatchesSearch(item: KnowledgeEntry, searchTerm: string) {
    Text.ContainsIgnoreCase(item.term, searchTerm) || Text.ContainsIgnoreCase(item.definition, searchTerm)
  }

  /** The tab is `'All'` or the entry's own category. */
  predicate MatchesCategory(item: KnowledgeEntry, tab: CategoryTab) {
    tab == All || tab == Only(item.category)
  }

  /** Both of the page's tests. */
  predicate Passes(e: KnowledgeEntry, f: Filters) {
    MatchesSearch(e, f.searchTerm) && MatchesCategory(e, f.activeCategory)
  }

  /** `filteredData`: the entries passing both tests, in glossary order. */
  function FilteredData(data: seq<KnowledgeEntry>, f: Filters): (r: seq<KnowledgeEntry>)
    ensures forall e :: e in r <==> e in data && MatchesSearch(e, f.searchTerm) && MatchesCategory(e, f.activeCategory)
    ensures Seqs.IsSubseq(r, data)
    ensures forall e: KnowledgeEntry :: multiset(r)[e] == if Passes(e, f) then multiset(data)[e] else 0
  {
    if |data| == 0 then []
    else
      assert data == [data[0]] + data[1..];
      var rest := FilteredData(data[1..], f);
      if MatchesSearch(data[0], f.searchTerm) && MatchesCategory(data[0], f.activeCategory)
      then [data[0]] + rest else rest
  }

  /** With nothing typed and the `'All'` tab, the whole glossary is listed in its order. */
  lemma {:induction false} InitialShowsAll(data: seq<KnowledgeEntry>)
    ensures FilteredData(data, Initial) == data
  {
    if |data| > 0 {
      Text.ContainsIgnoreCaseEmpty(data[0].term);
      InitialShowsAll(data[1..]);
      assert data == [data[0]] + data[1..];
    }
  }

  /** Choosing a category tab only ever removes entries from the `'All'` list, keeping their order. */
  lemma {:induction false} CategoryNarrows(data: seq<KnowledgeEntry>, searchTerm: string, c: KnowledgeCategory)
    ensures Seqs.IsSubseq(FilteredData(data, Filters(searchTerm, Only(c))), FilteredData(data, Filters(searchTerm, All)))
  {
    if |data| > 0 {
      CategoryNarrows(data[1..], searchTerm, c);
      var narrow := FilteredData(data[1..], Filters(searchTerm, Only(c)));
      var wide := FilteredData(data[1..], Filters(searchTerm, All));
      if MatchesSearch(data[0], searchTerm) {
        SubseqSkip(FilteredData(data, Filters(searchTerm, Only(c))), data[0], wide);
      }
    }
  }

  /** A subsequence of `b` is a subsequence of `b` with one element put in front, and stays one when both gain it. */
  lemma SubseqSkip<T>(a: seq<T>, x: T, b: seq<T>)
    requires Seqs.IsSubseq(a, b) || (|a| > 0 && a[0] == x && Seqs.IsSubseq(a[1..], b))
    ensures Seqs.IsSubseq(a, [x] + b)
  {
    assert ([x] + b)[1..] == b;
  }

  /** "Reset Filters": the search is cleared and the `'All'` tab chosen. */
  function Reset(f: Filters): (r: Filters)
    ensures r.searchTerm == "" && r.activeCategory == All
  {
    Initial
  }

  /** After a reset, whatever was filtered before, the whole glossary is listed again. */
  lemma ResetShowsAll(data: seq<KnowledgeEntry>, f: Filters)
    ensures FilteredData(data, Reset(f)) == data
  {
    InitialShowsAll(data);
  }
}

=== FILE: location_select.dfy ===
/**
 * The multi-select location picker (components/LocationMultiSelect.tsx): the chosen
 * values, the text being typed, whether the dropdown is open and the options it shows.
 */
module LocationSelect {
  import opened Wrappers
  import opened Types
  import Seqs
  import Text

  datatype Picker = Picker(value: seq<string>, input: string, isOpen: bool, activeOptions: seq<LocationOption>)

  /**
   * `handleSelect`: the value is appended unless already chosen; the input is cleared,
   * the options go back to the defaults and the dropdown closes.
   */
  function HandleSelect(p: Picker, defaults: seq<LocationOption>, v: string): (r: Picker)
    ensures v in r.value
    ensures v in p.value ==> r.value == p.value
    ensures v !in p.value ==> r.value == p.value + [v]
    ensures r.input == "" && !r.isOpen && r.activeOptions == defaults
  {
    Picker(if v in p.value then p.value else p.value + [v], "", false, defaults)
  }

  /** Selecting never introduces a duplicate. */
  lemma SelectKeepsNoDups(p: Picker, defaults: seq<LocationOption>, v: string)
    requires Seqs.NoDups(p.value)
    ensures Seqs.NoDups(HandleSelect(p, defaults, v).value)
  {
  }

  /** Selecting the same value twice chooses it once. */
  lemma SelectIdempotent(p: Picker, defaults: seq<LocationOption>, v: string)
    ensures HandleSelect(HandleSelect(p, defaults, v), defaults, v) == HandleSelect(p, defaults, v)
  {
  }

  /** `value.filter(v => v !== item)`. */
  function Without(value: seq<string>, item: string): (r: seq<string>)
    ensures forall x :: x in r <==> x in value && x != item
    ensures Seqs.IsSubseq(r, value)
    ensures item !in value ==> r == value
    ensures forall x :: multiset(r)[x] == if x == item then 0 else multiset(value)[x]
  {
    if |value| == 0 then []
    else
      assert value == [value[0]] + value[1..];
      if value[0] == item then Without(value[1..], item)
      else
        assert item !in value ==> item !in value[1..];
        [value[0]] + Without(value[1..], item)
  }

  /** `handleRemove`: every occurrence of the item goes, the rest keep their order. */
  function HandleRemove(p: Picker, item: string): (r: Picker)
    ensures item !in r.value
    ensures forall x :: x != item ==> (x in r.value <==> x in p.value)
    ensures Seqs.IsSubseq(r.value, p.value)
    ensures forall x :: x != item ==> multiset(r.value)[x] == multiset(p.value)[x]
    ensures r.input == p.input && r.isOpen == p.isOpen && r.activeOptions == p.activeOptions
  {
    p.(value := Without(p.value, item))
  }

  /** Removing a value right after selecting it leaves what removing it alone leaves. */
  lemma {:induction false} RemoveAfterSelect(p: Picker, defaults: seq<LocationOption>, v: string)
    ensures HandleRemove(HandleSelect(p, defaults, v), v).value == HandleRemove(p, v).value
  {
    if v !in p.value {
      WithoutAppend(p.value, v);
    }
  }

  lemma {:induction false} WithoutAppend(value: seq<string>, v: string)
    requires v !in value
    ensures Without(value + [v], v) == value
  {
    if |value| == 0 {
      assert [v][1..] == [];
    } else {
      assert (value + [v])[0] == value[0] && (value + [v])[1..] == value[1..] + [v];
      assert v !in value[1..];
      WithoutAppend(value[1..], v);
      assert value == [value[0]] + value[1..];
    }
  }

  /** `handleKeyDown`: Enter with text typed selects that text verbatim; anything else changes nothing. */
  function HandleKey(p: Picker, defaults: seq<LocationOption>, key: string): (r: Picker)
    ensures key == "Enter" && p.input != "" ==> r == HandleSelect(p, defaults, p.input)
    ensures key != "Enter" || p.input == "" ==> r == p
  {
    if key == "Enter" && p.input != "" then HandleSelect(p, defaults, p.input) else p
  }

  /** After Enter the typed text is chosen and the input is empty again. */
  lemma EnterSelectsInput(p: Picker, defaults: seq<LocationOption>)
    requires p.input != ""
    ensures var r := HandleKey(p, defaults, "Enter"); p.input in r.value && r.input == ""
  {
  }

  // ---------------------------------------------------------------- option filter

  /** An option matches when its label, its value or one of its keywords contains the input, ignoring case. */
  predicate Matches(o: LocationOption, input: string) {
    || Text.ContainsIgnoreCase(o.caption, input)
    || Text.ContainsIgnoreCase(o.value, input)
    || exists k :: k in o.keywords && Text.ContainsIgnoreCase(k, input)
  }

  /** The local option filter, in option order. */
  function LocalFilter(options: seq<LocationOption>, input: string): (r: seq<LocationOption>)
    ensures forall o :: o in r <==> o in options && Matches(o, input)
    ensures Seqs.IsSubseq(r, options)
    ensures forall o: LocationOption :: multiset(r)[o] == if Matches(o, input) then multiset(options)[o] else 0
  {
    if |options| == 0 then []
    else
      assert options == [options[0]] + options[1..];
      if Matches(options[0], input) then [options[0]] + LocalFilter(options[1..], input)
    else LocalFilter(options[1..], input)
  }

  /** An empty input keeps every option. */
  lemma {:induction false} LocalFilterEmpty(options: seq<LocationOption>)
    ensures LocalFilter(options, "") == options
  {
    if |options| > 0 {
      Text.ContainsIgnoreCaseEmpty(options[0].caption);
      LocalFilterEmpty(options[1..]);
      assert options == [options[0]] + options[1..];
    }
  }

  /**
   * The options shown after the debounce: the remote search results when a search
   * handler is given and at least two characters are typed, otherwise the local filter.
   */
  function UpdateOptions(defaults: seq<LocationOption>, input: string, remote: Option<seq<LocationOption>>)
    : (r: seq<LocationOption>)
    ensures |input| >= 2 && remote.Some? ==> r == remote.value
    ensures |input| < 2 || remote.None? ==> r == LocalFilter(defaults, input)
  {
    if |input| >= 2 && remote.Some? then remote.value else LocalFilter(defaults, input)
  }

  // ---------------------------------------------------------------- chips

  /** `options[i]` is the first option whose value is `item`. */
  predicate FirstWithValue(options: seq<LocationOption>, item: string, i: int) {
    0 <= i < |options| && options[i].value == item && forall j :: 0 <= j < i ==> options[j].value != item
  }

  /** `find(o => o.value === item)`: the first option with that value, if any. */
  function FindOption(options: seq<LocationOption>, item: string): (r: Option<LocationOption>)
    ensures r.Some? ==> exists i :: FirstWithValue(options, item, i) && options[i] == r.value
    ensures forall i :: FirstWithValue(options, item, i) ==> r == Some(options[i])
    ensures r.None? <==> forall o :: o in options ==> o.value != item
  {
    if |options| == 0 then None
    else if options[0].value == item then
      assert FirstWithValue(options, item, 0);
      Some(options[0])
    else
      var rest := FindOption(options[1..], item);
      assert rest.Some? ==> exists i :: FirstWithValue(options, item, i) && options[i] == rest.value by {
        if rest.Some? {
          var i :| FirstWithValue(options[1..], item, i) && options[1..][i] == rest.value;
          assert FirstWithValue(options, item, i + 1);
        }
      }
      assert forall i :: FirstWithValue(options, item, i) ==> rest == Some(options[i]) by {
        forall i | FirstWithValue(options, item, i)
          ensures rest == Some(options[i])
        {
          assert FirstWithValue(options[1..], item, i - 1);
        }
      }
      assert rest.None? <==> forall o :: o in options ==> o.value != item by {
        assert options == [options[0]] + options[1..];
      }
      rest
  }

  /** `label.split('(')[0].trim()`: the part of a label before its first `(`, trimmed. */
  function ChipText(caption: string): (r: string)
    ensures '(' !in r
    ensures Text.OccursAt(caption, r, Text.LeadingSpaces(Text.BeforeFirst(caption, '(')))
    ensures Text.LeadingSpaces(Text.BeforeFirst(caption, '(')) + |r| <= |Text.BeforeFirst(caption, '(')|
    ensures forall k :: Text.LeadingSpaces(Text.BeforeFirst(caption, '(')) + |r| <= k < |Text.BeforeFirst(caption, '(')| ==>
              Text.IsSpace(Text.BeforeFirst(caption, '(')[k])
    ensures |r| > 0 ==> !Text.IsSpace(r[0]) && !Text.IsSpace(r[|r| - 1])
  {
    var cut := Text.BeforeFirst(caption, '(');
    var t := Text.Trim(cut);
    assert forall k :: 0 <= k < |t| ==> t[k] == cut[Text.LeadingSpaces(cut) + k];
    t
  }

  /**
   * A chip's text: the label of the first option with that value, first among the
   * shown options and then among the defaults, cut at `(` and trimmed; an unknown
   * value as is.
   */
  function ChipLabel(item: string, active: seq<LocationOption>, defaults: seq<LocationOption>): (r: string)
    ensures forall i :: FirstWithValue(active, item, i) ==> r == ChipText(active[i].caption)
    ensures (forall o :: o in active ==> o.value != item) ==>
              forall i :: FirstWithValue(defaults, item, i) ==> r == ChipText(defaults[i].caption)
    ensures (forall o :: o in active + defaults ==> o.value != item) ==> r == item
    ensures (exists o :: o in active + defaults && o.value == item) ==> '(' !in r
  {
    var known := match FindOption(active, item)
      case Some(o) => Some(o)
      case None => FindOption(defaults, item);
    match known
    case Some(o) => ChipText(o.caption)
    case None => item
  }

  /** A label `name (CODE)` shows as `name` on its chip. */
  lemma ChipOfNamedCode(name: string, code: string, kind: LocationType, keywords: seq<string>)
    requires |name| > 0 && '(' !in name && !Text.IsSpace(name[0]) && !Text.IsSpace(name[|name| - 1])
    ensures ChipLabel(code, [LocationOption(name + " (" + code + ")", code, kind, keywords)], []) == name
  {
    var caption := name + " (" + code + ")";
    assert caption == (name + " ") + ("(" + code + ")");
    Text.BeforeFirstAt(name + " ", "(" + code + ")", '(');
    Text.TrimTrailingSpace(name);
  }
}

=== FILE: route_map.dfy ===
/**
 * The route overlay of the deal map (components/strategy/RouteMap.tsx): which deals
 * are drawn under the four map filters, the airports each route passes through, the
 * SVG path commands of a route and how a route is styled.
 *
 * Positions are already projected map coordinates (the Mercator projection itself is
 * not modelled); they are exact reals, so the control points are exact.
 */
module RouteMap {
  import opened Wrappers
  import opened Types
  import Seqs

  // ---------------------------------------------------------------- filters

  /** The four map filter flags; all start on. */
  datatype Filters = Filters(core: bool, complex: bool, underBudget: bool, overBudget: bool)

  const AllOn := Filters(true, true, true, true)

  datatype FilterKey = Core | Complex | UnderBudget | OverBudget

  function Flag(f: Filters, key: FilterKey): bool {
    match key
    case Core => f.core
    case Complex => f.complex
    case UnderBudget => f.underBudget
    case OverBudget => f.overBudget
  }

  /** `toggleFilter`: flips the named flag and no other. */
  function ToggleFilter(f: Filters, key: FilterKey): (r: Filters)
    ensures Flag(r, key) == !Flag(f, key)
    ensures forall k :: k != key ==> Flag(r, k) == Flag(f, k)
  {
    match key
    case Core => f.(core := !f.core)
    case Complex => f.(complex := !f.complex)
    case UnderBudget => f.(underBudget := !f.underBudget)
    case OverBudget => f.(overBudget := !f.overBudget)
  }

  /** Flipping a flag twice restores the filters. */
  lemma ToggleFilterTwice(f: Filters, key: FilterKey)
    ensures ToggleFilter(ToggleFilter(f, key), key) == f
  {
  }

  /** Over budget means strictly dearer than the budget: a price equal to it counts as under. */
  predicate IsOver(d: FlightDeal, budgetCents: int) {
    d.priceCents > budgetCents
  }

  /**
   * The deal filter: the budget flag for the deal's side of the budget, and the stops
   * flag for direct or multi-stop deals, must both be on.
   */
  predicate Shown(d: FlightDeal, budgetCents: int, f: Filters) {
    && (if IsOver(d, budgetCents) then f.overBudget else f.underBudget)
    && (if d.stops == 0 then f.core else f.complex)
  }

  /** With every filter on every deal is drawn; with one budget flag off, that side of the budget is hidden. */
  lemma ShownFilters(d: FlightDeal, budgetCents: int, f: Filters)
    ensures Shown(d, budgetCents, AllOn)
    ensures !f.underBudget && d.priceCents == budgetCents ==> !Shown(d, budgetCents, f)
    ensures !f.overBudget && d.priceCents > budgetCents ==> !Shown(d, budgetCents, f)
  {
  }

  // ---------------------------------------------------------------- route nodes

  datatype Point = Point(x: real, y: real)

  /** What the map knows of an airport: where it is drawn, and its city and country. */
  datatype Place = Place(pos: Point, city: string, country: string)

  type MapDb = map<string, Place>

  datatype MapNode = MapNode(pos: Point, code: string, city: string, country: string)

  /** The airports an itinerary passes through: the first departure, then every arrival. */
  function StopCodes(segs: seq<FlightSegment>): (r: seq<string>)
    ensures |r| == if |segs| == 0 then 0 else |segs| + 1
  {
    if |segs| == 0 then []
    else if |segs| == 1 then [segs[0].departureCode, segs[0].arrivalCode]
    else StopCodes(segs[..|segs| - 1]) + [segs[|segs| - 1].arrivalCode]
  }

  /** The node of one airport, or nothing when the table does not know it. */
  function NodeOf(c: string, db: MapDb): (r: seq<MapNode>)
    ensures |r| <= 1
    ensures c in db <==> |r| == 1
    ensures c in db ==> r[0].code == c && r[0].pos == db[c].pos
  {
    if c in db then [MapNode(db[c].pos, c, db[c].city, db[c].country)] else []
  }

  /** The map nodes of the codes the table knows, in order; unknown airports are skipped. */
  function Resolve(codes: seq<string>, db: MapDb): (r: seq<MapNode>)
    ensures |r| <= |codes|
    ensures forall n :: n in r ==> n.code in codes && n.code in db && n.pos == db[n.code].pos
    ensures (forall c :: c in codes ==> c in db) ==> |r| == |codes|
  {
    if |codes| == 0 then []
    else
      var init := codes[..|codes| - 1];
      var c := codes[|codes| - 1];
      assert forall x :: x in init ==> x in codes;
      Resolve(init, db) + NodeOf(c, db)
  }

  /** The airport codes of a list of nodes, in order. */
  function CodesOf(nodes: seq<MapNode>): (r: seq<string>)
    ensures |r| == |nodes|
    ensures forall i :: 0 <= i < |nodes| ==> r[i] == nodes[i].code
  {
    seq(|nodes|, i requires 0 <= i < |nodes| => nodes[i].code)
  }

  /** The airport table knows the code. */
  function Known(db: MapDb): string -> bool {
    c => c in db
  }

  /**
   * The nodes are those of exactly the known codes, in their order, each as often as it
   * occurs: filtering the codes by the table gives the node codes.
   */
  lemma {:induction false} ResolveKeepsKnownInOrder(codes: seq<string>, db: MapDb)
    ensures CodesOf(Resolve(codes, db)) == Seqs.Filter(codes, Known(db))
  {
    if |codes| > 0 {
      var init := codes[..|codes| - 1];
      var c := codes[|codes| - 1];
      var p := Known(db);
      var front := Seqs.Filter(init, p);
      var last := Seqs.Filter([c], p);
      ResolveLast(codes, db);
      assert CodesOf(Resolve(init, db)) + CodesOf(NodeOf(c, db)) == front + last by {
        ResolveKeepsKnownInOrder(init, db);
        KnownSingle(c, db);
      }
      assert front + last == Seqs.Filter(codes, p) by {
        SplitLast(codes);
        Seqs.FilterConcat(init, [c], p);
      }
    }
  }

  lemma SplitLast<T>(s: seq<T>)
    requires |s| > 0
    ensures s[..|s| - 1] + [s[|s| - 1]] == s
  {
  }

  lemma ResolveLast(codes: seq<string>, db: MapDb)
    requires |codes| > 0
    ensures CodesOf(Resolve(codes, db))
         == CodesOf(Resolve(codes[..|codes| - 1], db)) + CodesOf(NodeOf(codes[|codes| - 1], db))
  {
    var init := codes[..|codes| - 1];
    var c := codes[|codes| - 1];
    assert Resolve(codes, db) == Resolve(init, db) + NodeOf(c, db);
    CodesOfConcat(Resolve(init, db), NodeOf(c, db));
  }

  lemma CodesOfConcat(a: seq<MapNode>, b: seq<MapNode>)
    ensures CodesOf(a + b) == CodesOf(a) + CodesOf(b)
  {
  }

  lemma KnownSingle(c: string, db: MapDb)
    ensures Seqs.Filter([c], Known(db)) == CodesOf(NodeOf(c, db))
  {
    assert [c][1..] == [];
  }

  /** Resolving one more code adds its node, if any, at the end. */
  lemma ResolveSnoc(codes: seq<string>, c: string, db: MapDb)
    ensures Resolve(codes + [c], db) == Resolve(codes, db) + NodeOf(c, db)
  {
    assert (codes + [c])[..|codes|] == codes;
  }

  /** The stops of a prefix of the itinerary grow by one arrival per segment. */
  lemma StopCodesStep(segs: seq<FlightSegment>, i: nat)
    requires i < |segs|
    ensures i == 0 ==> StopCodes(segs[..1]) == [segs[0].departureCode] + [segs[0].arrivalCode]
    ensures i > 0 ==> StopCodes(segs[..i + 1]) == StopCodes(segs[..i]) + [segs[i].arrivalCode]
  {
    if i > 0 {
      assert segs[..i + 1][..i] == segs[..i];
    }
  }

  /**
   * The coordinate list of one deal, built as the source's `reduce` builds it: the first
   * segment adds its departure and arrival, every later segment its arrival, each only
   * when the airport table knows it.
   */
  method BuildNodes(segs: seq<FlightSegment>, db: MapDb) returns (nodes: seq<MapNode>)
    ensures nodes == Resolve(StopCodes(segs), db)
  {
    nodes := [];
    var i := 0;
    while i < |segs|
      invariant 0 <= i <= |segs|
      invariant nodes == Resolve(StopCodes(segs[..i]), db)
    {
      var seg := segs[i];
      StopCodesStep(segs, i);
      if i == 0 {
        nodes := nodes + NodeOf(seg.departureCode, db);
        ResolveSnoc([], seg.departureCode, db);
        ResolveSnoc([seg.departureCode], seg.arrivalCode, db);
      } else {
        ResolveSnoc(StopCodes(segs[..i]), seg.arrivalCode, db);
      }
      nodes := nodes + NodeOf(seg.arrivalCode, db);
      i := i + 1;
    }
    assert segs[..|segs|] == segs;
  }

  /** When the table knows every airport, a route has one node more than segments. */
  lemma NodesOfKnownAirports(segs: seq<FlightSegment>, db: MapDb)
    requires |segs| > 0
    requires forall c :: c in StopCodes(segs) ==> c in db
    ensures |Resolve(StopCodes(segs), db)| == |segs| + 1
  {
  }

  // ---------------------------------------------------------------- path shape

  /** One SVG path command: `M x y`, or `Q cx cy, x y`. */
  datatype PathCommand = Move(to: Point) | Quad(control: Point, to: Point)

  /** The control point of a curve: the midpoint lifted 40 units. */
  function Control(a: Point, b: Point): Point {
    Point((a.x + b.x) / 2.0, (a.y + b.y) / 2.0 - 40.0)
  }

  /** The curve from the `i`-th node to the next. */
  function CurveAt(nodes: seq<MapNode>, i: nat): PathCommand
    requires i + 1 < |nodes|
  {
    Quad(Control(nodes[i].pos, nodes[i + 1].pos), nodes[i + 1].pos)
  }

  /**
   * The path of a route: one `M` to the first node, then one `Q` per consecutive pair
   * of nodes, ending at the second node of the pair.
   */
  method BuildPath(nodes: seq<MapNode>) returns (cmds: seq<PathCommand>)
    requires |nodes| >= 2
    ensures |cmds| == |nodes|
    ensures cmds[0] == Move(nodes[0].pos)
    ensures forall i :: 1 <= i < |cmds| ==> cmds[i] == CurveAt(nodes, i - 1)
  {
    cmds := [Move(nodes[0].pos)];
    var i := 0;
    while i < |nodes| - 1
      invariant 0 <= i <= |nodes| - 1
      invariant |cmds| == i + 1
      invariant cmds[0] == Move(nodes[0].pos)
      invariant forall k :: 1 <= k < |cmds| ==> cmds[k] == CurveAt(nodes, k - 1)
    {
      cmds := cmds + [CurveAt(nodes, i)];
      i := i + 1;
    }
  }

  /** The same path as a function, for use in the route list. */
  function PathOf(nodes: seq<MapNode>): (r: seq<PathCommand>)
    requires |nodes| >= 2
    ensures |r| == |nodes| && r[0] == Move(nodes[0].pos)
    ensures forall i :: 1 <= i < |r| ==> r[i] == CurveAt(nodes, i - 1)
  {
    [Move(nodes[0].pos)] + seq(|nodes| - 1, i requires 0 <= i < |nodes| - 1 => CurveAt(nodes, i))
  }

  /** Every path has exactly one `M`, at its start, and its curves end at the nodes in order. */
  lemma PathShape(nodes: seq<MapNode>)
    requires |nodes| >= 2
    ensures forall i :: 0 <= i < |PathOf(nodes)| ==> (PathOf(nodes)[i].Move? <==> i == 0)
    ensures forall i :: 0 <= i < |nodes| ==> PathOf(nodes)[i].to == nodes[i].pos
  {
    var p := PathOf(nodes);
    forall i | 1 <= i < |p| ensures p[i].Quad? && p[i].to == nodes[i].pos {
      assert p[i] == CurveAt(nodes, i - 1);
    }
  }

  // ---------------------------------------------------------------- styling

  datatype Color = Orange | Cyan

  datatype Style = Style(color: Color, opacity: real, strokeWidth: real, zIndex: int)

  /** `selectedDealId` as JavaScript tests it: a non-empty id. */
  predicate AnySelected(selected: Option<string>) {
    selected.Some? && |selected.value| > 0
  }

  /**
   * A route's style: orange iff over budget; a selected route is opaque, 3 wide and has
   * z-index 10, which animates it; the others are faint while something is selected
   * and half-visible otherwise.
   */
  function StyleOf(d: FlightDeal, selected: Option<string>, budgetCents: int): (r: Style)
    ensures r.color == Orange <==> IsOver(d, budgetCents)
    ensures selected == Some(d.id) ==> r.opacity == 1.0 && r.strokeWidth == 3.0 && r.zIndex == 10
    ensures selected != Some(d.id) ==> r.strokeWidth == 1.5 && r.zIndex == 1
    ensures selected != Some(d.id) && AnySelected(selected) ==> r.opacity == 0.1
    ensures selected != Some(d.id) && !AnySelected(selected) ==> r.opacity == 0.6
  {
    var isSelected := selected == Some(d.id);
    Style(
      if IsOver(d, budgetCents) then Orange else Cyan,
      if isSelected then 1.0 else if AnySelected(selected) then 0.1 else 0.6,
      if isSelected then 3.0 else 1.5,
      if isSelected then 10 else 1)
  }

  /** At most one route is highlighted: only the deal whose id is selected. */
  lemma OneHighlighted(d1: FlightDeal, d2: FlightDeal, selected: Option<string>, budgetCents: int)
    requires StyleOf(d1, selected, budgetCents).zIndex == 10 && StyleOf(d2, selected, budgetCents).zIndex == 10
    ensures d1.id == d2.id
  {
  }

  // ---------------------------------------------------------------- route list

  datatype Route = Route(id: string, path: seq<PathCommand>, style: Style, nodes: seq<MapNode>)

  /** The route of one deal, or `None` when fewer than two of its airports are known. */
  function RouteOf(d: FlightDeal, selected: Option<string>, budgetCents: int, db: MapDb): (r: Option<Route>)
    ensures r.Some? <==> |Resolve(StopCodes(d.segments), db)| >= 2
    ensures r.Some? ==> r.value.id == d.id && r.value.nodes == Resolve(StopCodes(d.segments), db)
  {
    var nodes := Resolve(StopCodes(d.segments), db);
    if |nodes| < 2 then None
    else Some(Route(d.id, PathOf(nodes), StyleOf(d, selected, budgetCents), nodes))
  }

  /** The route one deal contributes: its route when it is shown and drawable, otherwise nothing. */
  function DrawnRoute(d: FlightDeal, selected: Option<string>, budgetCents: int, f: Filters, db: MapDb): (r: seq<Route>)
    ensures |r| <= 1
    ensures |r| == 1 <==> Shown(d, budgetCents, f) && RouteOf(d, selected, budgetCents, db).Some?
    ensures |r| == 1 ==> r[0] == RouteOf(d, selected, budgetCents, db).value
  {
    var here := RouteOf(d, selected, budgetCents, db);
    if Shown(d, budgetCents, f) && here.Some? then [here.value] else []
  }

  /** `routePaths`: the routes of the shown deals that have one, in deal order. */
  function RoutePaths(deals: seq<FlightDeal>, selected: Option<string>, budgetCents: int, f: Filters, db: MapDb)
    : (r: seq<Route>)
    ensures |r| <= |deals|
    ensures forall rt :: rt in r <==>
      exists d :: d in deals && Shown(d, budgetCents, f) && RouteOf(d, selected, budgetCents, db) == Some(rt)
  {
    if |deals| == 0 then []
    else
      var d := deals[0];
      assert forall x :: x in deals <==> x == d || x in deals[1..] by {
        assert deals == [d] + deals[1..];
      }
      DrawnRoute(d, selected, budgetCents, f, db) + RoutePaths(deals[1..], selected, budgetCents, f, db)
  }

  /**
   * A deal added at the end of the list adds its route, if any, at the end of the drawn routes:
   * routes are drawn in deal order, each deal at most once.
   */
  lemma {:induction false} RoutePathsSnoc(deals: seq<FlightDeal>, d: FlightDeal, selected: Option<string>,
                                          budgetCents: int, f: Filters, db: MapDb)
    ensures RoutePaths(deals + [d], selected, budgetCents, f, db)
         == RoutePaths(deals, selected, budgetCents, f, db) + DrawnRoute(d, selected, budgetCents, f, db)
  {
    var tail := DrawnRoute(d, selected, budgetCents, f, db);
    if |deals| == 0 {
      assert deals + [d] == [d];
      assert [d][1..] == [];
    } else {
      var head := DrawnRoute(deals[0], selected, budgetCents, f, db);
      var rest := deals[1..];
      assert RoutePaths(deals + [d], selected, budgetCents, f, db)
          == head + RoutePaths(rest + [d], selected, budgetCents, f, db) by {
        assert (deals + [d])[0] == deals[0];
        assert (deals + [d])[1..] == rest + [d];
      }
      assert RoutePaths(rest + [d], selected, budgetCents, f, db)
          == RoutePaths(rest, selected, budgetCents, f, db) + tail by {
        RoutePathsSnoc(rest, d, selected, budgetCents, f, db);
      }
      assert RoutePaths(deals, selected, budgetCents, f, db) == head + RoutePaths(rest, selected, budgetCents, f, db);
      Seqs.ConcatAssoc(head, RoutePaths(rest, selected, budgetCents, f, db), tail);
    }
  }

  /** Every drawn route has at least two nodes and a path with one command per node. */
  lemma RoutesAreDrawable(deals: seq<FlightDeal>, selected: Option<string>, budgetCents: int, f: Filters, db: MapDb)
    ensures forall rt :: rt in RoutePaths(deals, selected, budgetCents, f, db) ==>
      |rt.nodes| >= 2 && |rt.path| == |rt.nodes| && rt.path[0].Move?
  {
  }
}

=== FILE: seqs.dfy ===
/** Generic sequence and set operations shared by the components. */
module Seqs {

  /** `a` occurs in `b` in the same order, possibly with gaps. */
  predicate IsSubseq<T(==)>(a: seq<T>, b: seq<T>)
    decreases |b|
  {
    |a| == 0 || (|b| > 0 && ((a[0] == b[0] && IsSubseq(a[1..], b[1..])) || IsSubseq(a, b[1..])))
  }

  /** No element occurs twice. */
  predicate NoDups<T(==)>(s: seq<T>) {
    forall i, j :: 0 <= i < j < |s| ==> s[i] != s[j]
  }

  /** An element put in front of a duplicate-free list it is not in keeps the list duplicate-free. */
  lemma NoDupsCons<T>(x: T, s: seq<T>)
    requires NoDups(s) && x !in s
    ensures NoDups([x] + s)
  {
    var r := [x] + s;
    forall i, j | 0 <= i < j < |r| ensures r[i] != r[j] {
      assert r[j] == s[j - 1];
      if i > 0 {
        assert r[i] == s[i - 1];
      }
    }
  }

  /** `Array.prototype.filter`: the elements satisfying `p`, in their original order. */
  function Filter<T(==,!new)>(s: seq<T>, p: T -> bool): (r: seq<T>)
    ensures |r| <= |s|
    ensures forall x :: x in r <==> x in s && p(x)
    ensures IsSubseq(r, s)
    ensures forall x :: multiset(r)[x] == if p(x) then multiset(s)[x] else 0
  {
    if |s| == 0 then []
    else
      assert s == [s[0]] + s[1..];
      if p(s[0]) then [s[0]] + Filter(s[1..], p)
      else Filter(s[1..], p)
  }

  /** Concatenation is associative. */
  lemma ConcatAssoc<T>(x: seq<T>, y: seq<T>, z: seq<T>)
    ensures x + (y + z) == (x + y) + z
  {
  }

  /** Filtering a duplicate-free list gives a duplicate-free list. */
  lemma {:induction false} FilterNoDups<T(!new)>(s: seq<T>, p: T -> bool)
    requires NoDups(s)
    ensures NoDups(Filter(s, p))
  {
    if |s| > 0 {
      assert NoDups(s[1..]) by {
        forall i, j | 0 <= i < j < |s[1..]| ensures s[1..][i] != s[1..][j] {
          assert s[1..][i] == s[i + 1] && s[1..][j] == s[j + 1];
        }
      }
      FilterNoDups(s[1..], p);
      if p(s[0]) {
        assert s[0] !in s[1..] by {
          forall k | 0 <= k < |s[1..]| ensures s[1..][k] != s[0] {
            assert s[1..][k] == s[k + 1];
          }
        }
        NoDupsCons(s[0], Filter(s[1..], p));
      }
    }
  }

  /** A filter that rejects nothing returns its input unchanged. */
  lemma {:induction false} FilterKeepsAll<T(!new)>(s: seq<T>, p: T -> bool)
    requires forall x :: x in s ==> p(x)
    ensures Filter(s, p) == s
  {
    if |s| > 0 {
      assert s[0] in s;
      forall x | x in s[1..] ensures p(x) {
        assert x in s;
      }
      FilterKeepsAll(s[1..], p);
      assert s == [s[0]] + s[1..];
    }
  }

  /** Filtering distributes over concatenation. */
  lemma {:induction false} FilterConcat<T(!new)>(a: seq<T>, b: seq<T>, p: T -> bool)
    ensures Filter(a + b, p) == Filter(a, p) + Filter(b, p)
  {
    if |a| > 0 {
      assert (a + b)[0] == a[0];
      assert (a + b)[1..] == a[1..] + b;
      FilterConcat(a[1..], b, p);
    } else {
      assert a + b == b;
    }
  }

  /** `Array.prototype.map`. */
  function Map<A, B>(s: seq<A>, f: A -> B): (r: seq<B>)
    ensures |r| == |s|
    ensures forall i :: 0 <= i < |s| ==> r[i] == f(s[i])
  {
    seq(|s|, i requires 0 <= i < |s| => f(s[i]))
  }

  /** `s.substring(0, n)`: at most the first `n` elements. */
  function Take<T>(s: seq<T>, n: nat): (r: seq<T>)
    ensures |r| == if n <= |s| then n else |s|
    ensures r == s[..|r|]
  {
    if n <= |s| then s[..n] else s
  }

  /** The position of the first occurrence of `x` in `s`. */
  function IndexOf<T(==)>(s: seq<T>, x: T): (i: nat)
    requires x in s
    ensures i < |s| && s[i] == x
    ensures x !in s[..i]
  {
    if s[0] == x then 0
    else
      assert x in s[1..] by { assert s == [s[0]] + s[1..]; }
      var j := IndexOf(s[1..], x);
      assert s[..j + 1] == [s[0]] + s[1..][..j];
      j + 1
  }

  /**
   * Duplicate-free list of the elements of `s` in order of first appearance:
   * what `Array.from(new Set(s))` returns.
   */
  function Dedup<T(==,!new)>(s: seq<T>): (r: seq<T>)
    ensures NoDups(r)
    ensures forall x :: x in r <==> x in s
    ensures forall i, j :: 0 <= i < j < |r| ==> IndexOf(s, r[i]) < IndexOf(s, r[j])
  {
    if |s| == 0 then []
    else
      var init := s[..|s| - 1];
      var last := s[|s| - 1];
      var rest := Dedup(init);
      assert s == init + [last];
      forall y | y in init ensures IndexOf(s, y) == IndexOf(init, y) {
        IndexOfPrefix(init, last, y);
      }
      if last in rest then rest
      else
        assert s[..|s| - 1] == init;
        assert IndexOf(s, last) == |s| - 1;
        var r := rest + [last];
        forall i, j | 0 <= i < j < |r| ensures IndexOf(s, r[i]) < IndexOf(s, r[j]) {
          if j == |r| - 1 {
            assert r[i] in init;
          }
        }
        r
  }

  /** Extending a sequence at the end does not move the first occurrence of an element it already had. */
  lemma {:induction false} IndexOfPrefix<T>(init: seq<T>, last: T, y: T)
    requires y in init
    ensures y in init + [last] && IndexOf(init + [last], y) == IndexOf(init, y)
  {
    var s := init + [last];
    assert s[0] == init[0];
    if init[0] != y {
      assert s[1..] == init[1..] + [last];
      assert y in init[1..] by { assert init == [init[0]] + init[1..]; }
      IndexOfPrefix(init[1..], last, y);
    }
  }

  /** Adding `x` if absent and removing it if present: the `Set` toggle of the source's UI state. */
  function Toggle<T(!new)>(s: set<T>, x: T): (r: set<T>)
    ensures x in r <==> x !in s
    ensures forall y :: y != x ==> (y in r <==> y in s)
  {
    if x in s then s - {x} else s + {x}
  }

  /** Toggling the same element twice restores the set. */
  lemma ToggleTwice<T(!new)>(s: set<T>, x: T)
    ensures Toggle(Toggle(s, x), x) == s
  {
  }

  /** `xs.join(sep)`. */
  function Join(xs: seq<string>, sep: string): string {
    if |xs| == 0 then ""
    else if |xs| == 1 then xs[0]
    else xs[0] + sep + Join(xs[1..], sep)
  }
}

=== FILE: storage.dfy ===
/**
 * The saved-strategy store of services/storage.ts: one local-storage key whose text
 * holds the JSON list of saved strategies.
 *
 * The browser store is a map from key to the decoded meaning of its text; JSON
 * parsing is abstracted into the four outcomes the code can tell apart.
 */
module Storage {
  import opened Wrappers
  import opened Types
  import Seqs

  const StorageKey := "flytz_strategies_v1"

  /** What `JSON.parse` makes of the stored text. */
  datatype StoredText =
    | Records(items: seq<SavedStrategy>)  // a JSON array of saved strategies
    | NotAList                           // valid JSON that is not an array (`null`, an object, a number)
    | Unparseable                        // text on which `JSON.parse` throws
    | EmptyText                          // the empty string, which JavaScript treats as false

  type Store = map<string, StoredText>

  /** `localStorage.getItem(StorageKey)`: `None` when the key is absent. */
  function Existing(store: Store): (r: Option<StoredText>)
    ensures r.Some? <==> StorageKey in store
  {
    if StorageKey in store then Some(store[StorageKey]) else None
  }

  /** The result of a store operation: whether it reported success, and the store afterwards. */
  datatype Outcome = Outcome(ok: bool, store: Store)

  /** Some entry of `l` has id `id`. */
  predicate HasId(l: seq<SavedStrategy>, id: string) {
    exists j :: 0 <= j < |l| && l[j].id == id
  }

  /** `findIndex(s => s.id === id)`: the first position holding `id`, or -1. */
  function FindId(l: seq<SavedStrategy>, id: string): (i: int)
    ensures -1 <= i < |l|
    ensures i >= 0 <==> HasId(l, id)
    ensures i >= 0 ==> l[i].id == id && forall j :: 0 <= j < i ==> l[j].id != id
  {
    if |l| == 0 then -1
    else if l[0].id == id then 0
    else
      var k := FindId(l[1..], id);
      assert HasId(l, id) ==> HasId(l[1..], id) by {
        if HasId(l, id) {
          var j :| 0 <= j < |l| && l[j].id == id;
          assert l[1..][j - 1].id == id;
        }
      }
      if k < 0 then -1 else k + 1
  }

  /**
   * The list `save` writes back: the new record replaces the first entry with its id,
   * or is appended when there is none.
   */
  function Upsert(l: seq<SavedStrategy>, s: SavedStrategy): (r: seq<SavedStrategy>)
    ensures |r| == if HasId(l, s.id) then |l| else |l| + 1
    ensures s in r
  {
    if |l| == 0 then [s]
    else if l[0].id == s.id then [s] + l[1..]
    else
      assert HasId(l, s.id) <==> HasId(l[1..], s.id) by {
        if HasId(l, s.id) {
          var j :| 0 <= j < |l| && l[j].id == s.id;
          assert l[1..][j - 1].id == s.id;
        }
        if HasId(l[1..], s.id) {
          var j :| 0 <= j < |l[1..]| && l[1..][j].id == s.id;
          assert l[j + 1].id == s.id;
        }
      }
      [l[0]] + Upsert(l[1..], s)
  }

  /**
   * Upsert works in place: the first entry with the record's id becomes the record,
   * or the record is added at the end; every other entry keeps its value and position.
   */
  lemma {:induction false} UpsertInPlace(l: seq<SavedStrategy>, s: SavedStrategy)
    ensures var r := Upsert(l, s); var k := FindId(l, s.id);
      && (k >= 0 ==> |r| == |l| && r[k] == s)
      && (k < 0 ==> |r| == |l| + 1 && r[|l|] == s)
      && forall j :: 0 <= j < |l| && j != k ==> r[j] == l[j]
  {
    if |l| > 0 && l[0].id != s.id {
      UpsertInPlace(l[1..], s);
      var r := Upsert(l, s);
      assert r == [l[0]] + Upsert(l[1..], s);
      var k := FindId(l, s.id);
      forall j | 0 < j < |l| && j != k ensures r[j] == l[j] {
        assert r[j] == Upsert(l[1..], s)[j - 1];
        assert l[j] == l[1..][j - 1];
      }
    }
  }

  /** Saving the same record twice leaves the list as one save did. */
  lemma {:induction false} UpsertIdempotent(l: seq<SavedStrategy>, s: SavedStrategy)
    ensures Upsert(Upsert(l, s), s) == Upsert(l, s)
  {
    if |l| > 0 && l[0].id != s.id {
      UpsertIdempotent(l[1..], s);
      var r := Upsert(l, s);
      assert r[0] == l[0] && r[1..] == Upsert(l[1..], s);
    }
  }

  /** `filter(s => s.id !== id)`: the entries with another id, in their original order. */
  function RemoveId(l: seq<SavedStrategy>, id: string): (r: seq<SavedStrategy>)
    ensures forall x :: x in r <==> x in l && x.id != id
    ensures Seqs.IsSubseq(r, l)
    ensures forall x: SavedStrategy :: multiset(r)[x] == if x.id == id then 0 else multiset(l)[x]
  {
    if |l| == 0 then []
    else
      assert l == [l[0]] + l[1..];
      if l[0].id == id then RemoveId(l[1..], id)
      else [l[0]] + RemoveId(l[1..], id)
  }

  /** Deleting an id after saving a record with that id is the same as deleting it from the old list. */
  lemma {:induction false} RemoveAfterUpsert(l: seq<SavedStrategy>, s: SavedStrategy)
    ensures RemoveId(Upsert(l, s), s.id) == RemoveId(l, s.id)
  {
    if |l| == 0 {
      assert RemoveId([s], s.id) == RemoveId([s][1..], s.id);
    } else if l[0].id == s.id {
      var r := Upsert(l, s);
      assert r[0] == s && r[1..] == l[1..];
    } else {
      RemoveAfterUpsert(l[1..], s);
      var r := Upsert(l, s);
      assert r[0] == l[0] && r[1..] == Upsert(l[1..], s);
    }
  }

  /** The list as `getAll` reads it; text that is not a list of records reads as no records. */
  function GetAll(store: Store): (r: seq<SavedStrategy>)
    ensures StorageKey !in store ==> r == []
    ensures StorageKey in store && store[StorageKey] in {EmptyText, Unparseable} ==> r == []
    ensures StorageKey in store && store[StorageKey].Records? ==> r == store[StorageKey].items
  {
    match Existing(store)
    case Some(Records(l)) => l
    case _ => []
  }

  /**
   * `save`: upsert the record into the stored list and write it back. Absent, empty and
   * corrupted text start from the empty list. A non-list value makes `findIndex` throw and
   * a refused write throws too; both report false and write nothing.
   */
  function Save(store: Store, s: SavedStrategy, writable: bool): (r: Outcome)
    ensures r.ok <==> writable && Existing(store) != Some(NotAList)
    ensures !r.ok ==> r.store == store
    ensures r.ok ==> StorageKey in r.store && r.store[StorageKey].Records?
    ensures forall k :: k != StorageKey ==> (k in r.store <==> k in store)
    ensures forall k :: k != StorageKey && k in store ==> r.store[k] == store[k]
  {
    match Existing(store)
    case Some(NotAList) => Outcome(false, store)
    case _ =>
      if writable then Outcome(true, store[StorageKey := Records(Upsert(GetAll(store), s))])
      else Outcome(false, store)
  }

  /** After a successful save the stored list is the old list with the record upserted. */
  lemma SaveThenGetAll(store: Store, s: SavedStrategy, writable: bool)
    ensures var r := Save(store, s, writable);
      r.ok ==> GetAll(r.store) == Upsert(GetAll(store), s) && s in GetAll(r.store)
  {
  }

  /** A save grows the list by at most one entry and keeps every entry with another id. */
  lemma SaveGrowsByAtMostOne(store: Store, s: SavedStrategy)
    ensures var r := Save(store, s, true);
      r.ok ==> |GetAll(store)| <= |GetAll(r.store)| <= |GetAll(store)| + 1
  {
  }

  /** Over corrupted or empty text, a successful save leaves exactly the one record. */
  lemma SaveOverCorrupted(store: Store, s: SavedStrategy)
    requires StorageKey in store && store[StorageKey] in {Unparseable, EmptyText}
    ensures Save(store, s, true).ok && GetAll(Save(store, s, true).store) == [s]
  {
  }

  /** Saving the same record again changes nothing. */
  lemma SaveIdempotent(store: Store, s: SavedStrategy)
    ensures var r := Save(store, s, true);
      r.ok ==> Save(r.store, s, true) == r
  {
    var r := Save(store, s, true);
    if r.ok {
      UpsertIdempotent(GetAll(store), s);
      assert r.store[StorageKey := Records(Upsert(GetAll(r.store), s))] == r.store;
    }
  }

  /**
   * `delete`: drop every entry with the id and write the rest back. Absent or empty text
   * reports false; corrupted or non-list text makes the parse or the filter throw, and a
   * refused write throws: all of these report false and write nothing.
   */
  function Delete(store: Store, id: string, writable: bool): (r: Outcome)
    ensures r.ok <==> writable && StorageKey in store && store[StorageKey].Records?
    ensures !r.ok ==> r.store == store
    ensures forall k :: k != StorageKey ==> (k in r.store <==> k in store)
    ensures forall k :: k != StorageKey && k in store ==> r.store[k] == store[k]
  {
    match Existing(store)
    case Some(Records(l)) =>
      if writable then Outcome(true, store[StorageKey := Records(RemoveId(l, id))])
      else Outcome(false, store)
    case _ => Outcome(false, store)
  }

  /**
   * After a successful delete no entry has the id, every other entry survives as often
   * as it was stored, and the survivors keep their relative order.
   */
  lemma DeleteThenGetAll(store: Store, id: string, writable: bool)
    ensures var r := Delete(store, id, writable);
      r.ok ==>
        && GetAll(r.store) == RemoveId(GetAll(store), id)
        && (forall x :: x in GetAll(r.store) ==> x.id != id)
        && (forall x: SavedStrategy :: x.id != id ==> multiset(GetAll(r.store))[x] == multiset(GetAll(store))[x])
        && Seqs.IsSubseq(GetAll(r.store), GetAll(store))
  {
  }

  /** Deleting a record's id right after saving it leaves the list the old list without that id. */
  lemma DeleteAfterSave(store: Store, s: SavedStrategy)
    ensures var saved := Save(store, s, true);
      saved.ok ==> GetAll(Delete(saved.store, s.id, true).store) == RemoveId(GetAll(store), s.id)
  {
    RemoveAfterUpsert(GetAll(store), s);
  }
}

=== FILE: strategy_context.dfy ===
/**
 * The application state of context/FlightStrategyContext.tsx as a pure state machine:
 * each action maps the current state (and, for saving, the local store) to the next.
 */
module StrategyContext {
  import opened Wrappers
  import opened Types
  import StrategyEngine
  import Storage

  /** The five pieces of shared state; `None` is the source's `null`. */
  datatype State = State(
    profile: Option<FlightProfile>,
    trip: Option<TripPlan>,
    strategy: Option<Strategy>,
    deals: seq<FlightDeal>,
    aiAnalysis: Option<AIAnalysis>)

  /** The state before anything is entered, and after `reset`. */
  const Initial := State(None, None, None, [], None)

  /** `override || current` for an optional record: a supplied override always wins. */
  function Or<T>(override: Option<T>, current: Option<T>): (r: Option<T>)
    ensures override.Some? ==> r == override
    ensures override.None? ==> r == current
  {
    if override.Some? then override else current
  }

  /**
   * `runStrategy`: with the overrides falling back to the current profile and trip, a
   * missing input leaves the state alone; otherwise the overrides are stored, a fresh
   * strategy is generated and the deals and analysis are cleared.
   */
  function RunStrategy(st: State, overrideProfile: Option<FlightProfile>, overrideTrip: Option<TripPlan>,
                       ids: StrategyEngine.Ids): (r: State)
    ensures Or(overrideProfile, st.profile).None? || Or(overrideTrip, st.trip).None? ==> r == st
    ensures Or(overrideProfile, st.profile).Some? && Or(overrideTrip, st.trip).Some? ==>
      && r.profile == Or(overrideProfile, st.profile)
      && r.trip == Or(overrideTrip, st.trip)
      && r.strategy == Some(StrategyEngine.GenerateStrategy(r.profile.value, r.trip.value, ids))
      && r.deals == []
      && r.aiAnalysis == None
  {
    var profile := Or(overrideProfile, st.profile);
    var trip := Or(overrideTrip, st.trip);
    if profile.None? || trip.None? then st
    else State(profile, trip, Some(StrategyEngine.GenerateStrategy(profile.value, trip.value, ids)), [], None)
  }

  /** Running again without overrides reproduces the same state: the engine is deterministic. */
  lemma RunStrategyIdempotent(st: State, overrideProfile: Option<FlightProfile>, overrideTrip: Option<TripPlan>,
                              ids: StrategyEngine.Ids)
    ensures var r := RunStrategy(st, overrideProfile, overrideTrip, ids);
      RunStrategy(r, None, None, ids) == r
  {
  }

  /** Overrides are used for that run only as far as they go: the profile comes from the override. */
  lemma RunStrategyUsesOverride(st: State, p: FlightProfile, t: TripPlan, ids: StrategyEngine.Ids)
    ensures var r := RunStrategy(st, Some(p), Some(t), ids);
      && r.profile == Some(p) && r.trip == Some(t)
      && r.strategy == Some(StrategyEngine.GenerateStrategy(p, t, ids))
  {
  }

  /** `loadStrategy`: every field from the record; a missing deal list is empty, a missing analysis null. */
  function LoadStrategy(saved: SavedStrategy): (r: State)
    ensures r.profile == Some(saved.profile) && r.trip == Some(saved.trip) && r.strategy == Some(saved.strategy)
    ensures saved.deals.None? ==> r.deals == []
    ensures saved.deals.Some? ==> r.deals == saved.deals.value
    ensures r.aiAnalysis == saved.aiAnalysis
  {
    State(Some(saved.profile), Some(saved.trip), Some(saved.strategy), saved.deals.GetOr([]), saved.aiAnalysis)
  }

  /** `reset`: every field back to null or empty. */
  function Reset(st: State): (r: State)
    ensures r.profile.None? && r.trip.None? && r.strategy.None? && r.deals == [] && r.aiAnalysis.None?
  {
    Initial
  }

  /** After a reset, running without overrides finds no input and changes nothing. */
  lemma RunAfterResetIsNoOp(st: State, ids: StrategyEngine.Ids)
    ensures RunStrategy(Reset(st), None, None, ids) == Initial
  {
  }

  /** The first element of a list, `None` for the empty list (JavaScript's `xs[0]` being `undefined`). */
  function First<T>(xs: seq<T>): (r: Option<T>)
    ensures |xs| == 0 <==> r.None?
    ensures |xs| > 0 ==> r == Some(xs[0])
  {
    if |xs| == 0 then None else Some(xs[0])
  }

  /** The record `saveStrategy` builds from a complete state; the id and time are supplied. */
  function Snapshot(st: State, name: string, id: string, createdAt: string): (r: SavedStrategy)
    requires st.profile.Some? && st.trip.Some? && st.strategy.Some?
    ensures r.id == id && r.name == name && r.createdAt == createdAt
    ensures r.originSummary == First(st.profile.value.homeAirports)
    ensures r.targetSummary == First(st.trip.value.destinationRegions)
  {
    SavedStrategy(id, name, createdAt,
      First(st.profile.value.homeAirports), First(st.trip.value.destinationRegions),
      st.profile.value, st.trip.value, st.strategy.value, Some(st.deals), st.aiAnalysis)
  }

  /** Loading a snapshot restores exactly the state it was taken from. */
  lemma LoadSnapshot(st: State, name: string, id: string, createdAt: string)
    requires st.profile.Some? && st.trip.Some? && st.strategy.Some?
    ensures LoadStrategy(Snapshot(st, name, id, createdAt)) == st
  {
  }

  /** What `saveStrategy` does to the store. */
  datatype SaveEffect =
    | Skipped                       // an input was missing: nothing happens
    | Written(store: Storage.Store) // the list was appended to and written back
    | Thrown                        // the parse, the push or the write threw; nothing was written

  /**
   * `saveStrategy`: a complete state is appended to the stored list, without looking for
   * an entry with the same id. Absent or empty text starts a new list; unlike the storage
   * service, corrupted or non-list text is not recovered from but throws.
   */
  function SaveStrategy(st: State, store: Storage.Store, name: string, id: string, createdAt: string,
                        writable: bool): (r: SaveEffect)
    ensures r == Skipped <==> st.profile.None? || st.trip.None? || st.strategy.None?
    ensures r.Written? <==>
      && r != Skipped && writable
      && (Storage.StorageKey in store ==> store[Storage.StorageKey] !in {Storage.Unparseable, Storage.NotAList})
  {
    if st.profile.None? || st.trip.None? || st.strategy.None? then Skipped
    else
      match Storage.Existing(store)
      case Some(Unparseable) => Thrown
      case Some(NotAList) => Thrown
      case _ =>
        if writable then
          Written(store[Storage.StorageKey := Storage.Records(Storage.GetAll(store) + [Snapshot(st, name, id, createdAt)])])
        else Thrown
  }

  /**
   * A written save adds exactly one record at the end, whose summaries are the first home
   * airport and the first destination, and which loads back to the state that was saved.
   */
  lemma SaveStrategyAppends(st: State, store: Storage.Store, name: string, id: string, createdAt: string)
    ensures var r := SaveStrategy(st, store, name, id, createdAt, true);
      r.Written? ==>
        var before := Storage.GetAll(store);
        var after := Storage.GetAll(r.store);
        && |after| == |before| + 1
        && after[..|before|] == before
        && after[|before|].id == id
        && after[|before|].originSummary == First(st.profile.value.homeAirports)
        && after[|before|].targetSummary == First(st.trip.value.destinationRegions)
        && LoadStrategy(after[|before|]) == st
  {
    var r := SaveStrategy(st, store, name, id, createdAt, true);
    if r.Written? {
      LoadSnapshot(st, name, id, createdAt);
    }
  }

  /** Unlike the storage service's save, saving twice under one id keeps both records. */
  lemma SaveStrategyTwiceKeepsBoth(st: State, store: Storage.Store, name: string, id: string, createdAt: string)
    ensures var r := SaveStrategy(st, store, name, id, createdAt, true);
      r.Written? ==>
        var r2 := SaveStrategy(st, r.store, name, id, createdAt, true);
        r2.Written? && |Storage.GetAll(r2.store)| == |Storage.GetAll(store)| + 2
  {
  }
}

=== FILE: strategy_engine.dfy ===
/**
 * The strategy engine (services/strategyEngine.ts): a deterministic template expander
 * from a profile and a trip to route patterns, advice cards, search links, steps and prompts.
 * Generated UUIDs are passed in as `Ids`.
 * Long string literals below are written as several `+` pieces; each concatenation is
 * exactly one literal of the engine, so no text is lost or added by the split.
 */
module StrategyEngine {
  import opened Wrappers
  import opened Types
  import Seqs
  import Text

  // ------------------------------------------------------------------ leg links

  // URL bases, each split into pieces that concatenate to the engine's literal.

  const GoogleFlightsBase := "https://www." + "google.com" + "/travel/flights?q="
  const GoogleLegBase := GoogleFlightsBase + "Flights+from+"
  const GoogleExploreBase := "https://www." + "google.com" + "/travel/explore?q=" + "Flights+from+"
  const SkyscannerBase := "https://www." + "skyscanner.com" + "/transport/flights/"
  const KayakBase := "https://www." + "kayak.com" + "/flights/"

  /**
   * `node.split('/')[0].substring(0,3)`: the longest prefix of `node` that has
   * at most three characters and no `/`.
   */
  function SafeCode(node: string): (r: string)
    ensures |r| <= 3 && '/' !in r
    ensures Text.IsPrefix(r, node)
    ensures |r| < 3 ==> |r| == |node| || node[|r|] == '/'
  {
    Seqs.Take(Text.BeforeFirst(node, '/'), 3)
  }

  /** `date.slice(2).replace(/-/g, '')`: the Skyscanner date form. */
  function SkyscannerDate(date: string): (r: string)
    ensures '-' !in r
    ensures Seqs.IsSubseq(r, date)
  {
    var tail := if |date| >= 2 then date[2..] else "";
    var r := Text.RemoveChars(tail, {'-'});
    SubseqOfSuffix(r, date, |date| - |tail|);
    r
  }

  lemma {:induction false} SubseqOfSuffix(r: string, s: string, k: nat)
    requires k <= |s| && Seqs.IsSubseq(r, s[k..])
    ensures Seqs.IsSubseq(r, s)
  {
    if k > 0 {
      assert s[1..][k - 1..] == s[k..];
      SubseqOfSuffix(r, s[1..], k - 1);
    } else {
      assert s[k..] == s;
    }
  }

  predicate IsDigit(c: char) {
    '0' <= c <= '9'
  }

  /** `YYYY-MM-DD`. */
  predicate IsIsoDate(d: string) {
    |d| == 10 && d[4] == '-' && d[7] == '-'
    && forall i :: 0 <= i < 10 && i != 4 && i != 7 ==> IsDigit(d[i])
  }

  /** On an ISO date the Skyscanner form is `YYMMDD`. */
  lemma SkyscannerDateOfIso(d: string)
    requires IsIsoDate(d)
    ensures SkyscannerDate(d) == d[2..4] + d[5..7] + d[8..10]
  {
    var dash := {'-'};
    var m: string := ['-'];
    DateParts(d);
    assert d[4..5] == m && d[7..8] == m;
    DigitPairKept(d, 2, dash);
    DigitPairKept(d, 5, dash);
    DigitPairKept(d, 8, dash);
    DashesDropped(d[2..4], d[5..7], d[8..10], dash);
    assert SkyscannerDate(d) == Text.RemoveChars(d[2..], dash);
  }

  /** Removing the two dashes between three dash-free parts joins the parts. */
  lemma DashesDropped(yy: string, mm: string, dd: string, dash: set<char>)
    requires dash == {'-'}
    requires Text.RemoveChars(yy, dash) == yy && Text.RemoveChars(mm, dash) == mm && Text.RemoveChars(dd, dash) == dd
    ensures Text.RemoveChars(yy + ['-'] + mm + ['-'] + dd, dash) == yy + mm + dd
  {
    var m: string := ['-'];
    assert Text.RemoveChars(m, dash) == [];
    Text.RemoveCharsConcat(yy, m, dash);
    assert Text.RemoveChars(yy + m, dash) == yy;
    Text.RemoveCharsConcat(yy + m, mm, dash);
    assert Text.RemoveChars(yy + m + mm, dash) == yy + mm;
    Text.RemoveCharsConcat(yy + m + mm, m, dash);
    assert Text.RemoveChars(yy + m + mm + m, dash) == yy + mm;
    Text.RemoveCharsConcat(yy + m + mm + m, dd, dash);
  }

  lemma DateParts(d: string)
    requires |d| == 10
    ensures d[2..] == d[2..4] + d[4..5] + d[5..7] + d[7..8] + d[8..10]
  {
  }

  /** Two digits of a date pass through the dash removal unchanged. */
  lemma DigitPairKept(d: string, k: nat, dash: set<char>)
    requires IsIsoDate(d) && k in {2, 5, 8} && dash == {'-'}
    ensures Text.RemoveChars(d[k..k + 2], dash) == d[k..k + 2]
  {
    assert IsDigit(d[k]) && IsDigit(d[k + 1]);
    Text.RemoveCharsNone(d[k..k + 2], dash);
  }

  /** Deep link for one leg of a multi-leg pattern; providers other than the two supported give `#`. */
  function LegLink(origin: string, dest: string, date: string, provider: LinkProvider): (r: string)
    ensures provider == GoogleFlights ==>
      r == GoogleLegBase + SafeCode(origin) + "+to+" + SafeCode(dest) + "+on+" + date
    ensures provider == Skyscanner ==>
      r == SkyscannerBase + SafeCode(origin) + "/" + SafeCode(dest) + "/" + SkyscannerDate(date)
    ensures provider != GoogleFlights && provider != Skyscanner ==> r == "#"
  {
    var o := SafeCode(origin);
    var d := SafeCode(dest);
    if provider == GoogleFlights then GoogleLegBase + o + "+to+" + d + "+on+" + date
    else if provider == Skyscanner then SkyscannerBase + o + "/" + d + "/" + SkyscannerDate(date)
    else "#"
  }

  /** A leg link of either supported provider names both endpoints' codes. */
  lemma LegLinkMentionsEndpoints(origin: string, dest: string, date: string, provider: LinkProvider)
    requires provider == GoogleFlights || provider == Skyscanner
    ensures Text.Contains(LegLink(origin, dest, date, provider), SafeCode(origin))
    ensures Text.Contains(LegLink(origin, dest, date, provider), SafeCode(dest))
  {
    var o := SafeCode(origin);
    var d := SafeCode(dest);
    var base, sep1, sep2, tail :=
      if provider == GoogleFlights then GoogleLegBase else SkyscannerBase,
      if provider == GoogleFlights then "+to+" else "/",
      if provider == GoogleFlights then "+on+" else "/",
      if provider == GoogleFlights then date else SkyscannerDate(date);
    assert LegLink(origin, dest, date, provider) == base + o + sep1 + d + sep2 + tail;
    Text.ContainsLastPiece(base, o);
    Text.ContainsExtend(base + o, sep1, o);
    Text.ContainsExtend(base + o + sep1, d, o);
    Text.ContainsExtend(base + o + sep1 + d, sep2, o);
    Text.ContainsExtend(base + o + sep1 + d + sep2, tail, o);
    Text.ContainsLastPiece(base + o + sep1, d);
    Text.ContainsExtend(base + o + sep1 + d, sep2, d);
    Text.ContainsExtend(base + o + sep1 + d + sep2, tail, d);
  }

  // ------------------------------------------------------------------ patterns

  /** Split tickets and positioning flights are booked leg by leg. */
  predicate IsMultiLeg(t: PatternType) {
    t == SplitTicket || t == Positioning
  }

  /** `${nodes[i]}`: out-of-range positions print as `undefined`. */
  function NodeText(nodes: seq<string>, i: int): string {
    if 0 <= i < |nodes| then nodes[i] else "undefined"
  }

  /** `nodes.slice(1, -1)`: the intermediate nodes. */
  function InnerNodes(nodes: seq<string>): (r: seq<string>)
    ensures |nodes| >= 2 ==> |r| == |nodes| - 2 && forall i :: 0 <= i < |r| ==> r[i] == nodes[i + 1]
    ensures |nodes| < 2 ==> r == []
  {
    if |nodes| >= 2 then nodes[1..|nodes| - 1] else []
  }

  /** `n.split('/')[0]` for every node. */
  function HubCodes(nodes: seq<string>): (r: seq<string>)
    ensures |r| == |nodes|
    ensures forall i :: 0 <= i < |r| ==> Text.IsPrefix(r[i], nodes[i]) && '/' !in r[i]
    ensures forall i :: 0 <= i < |r| && |r[i]| < |nodes[i]| ==> nodes[i][|r[i]|] == '/'
  {
    if |nodes| == 0 then [] else [Text.BeforeFirst(nodes[0], '/')] + HubCodes(nodes[1..])
  }

  /** `ps.map(p => p.nodes[1].split('/')[0])`. */
  function SecondNodeCodes(ps: seq<RoutePattern>): (r: seq<string>)
    ensures |r| == |ps|
  {
    if |ps| == 0 then [] else [Text.BeforeFirst(NodeText(ps[0].nodes, 1), '/')] + SecondNodeCodes(ps[1..])
  }

  /**
   * `createPattern`. The source reads `nodes[1]` only for multi-leg types, so only those
   * need a second node.
   */
  function CreatePattern(
    id: string, name: string, nodes: seq<string>, patternType: PatternType, rationale: string,
    tradeOffs: seq<string>, risk: Risk, savings: string, origin: string, dest: string, tripDate: string
  ): (r: RoutePattern)
    requires IsMultiLeg(patternType) ==> |nodes| >= 2
    ensures r.id == id && r.name == name && r.nodes == nodes && r.patternType == patternType
    ensures r.rationale == rationale && r.tradeOffs == tradeOffs && r.risk == risk
    ensures r.estimatedSavings == savings
    ensures |r.stepLinks| == if IsMultiLeg(patternType) then 2 else 0
    ensures IsMultiLeg(patternType) ==>
      var hub := Text.BeforeFirst(nodes[1], '/');
      && r.stepLinks[0].provider == GoogleFlights
      && r.stepLinks[0].url == LegLink(origin, hub, tripDate, GoogleFlights)
      && r.stepLinks[1].provider == Skyscanner
      && r.stepLinks[1].url == LegLink(hub, dest, tripDate, Skyscanner)
    ensures |r.actionPlans| == 2
    ensures r.actionPlans[0].tool == "Google Flights" && r.actionPlans[1].tool == "ITA Matrix"
  {
    var stepLinks :=
      if IsMultiLeg(patternType) then
        var hub := Text.BeforeFirst(nodes[1], '/');
        [ BookingStepLink("Book Leg 1: " + origin + " \U{2192} " + hub, LegLink(origin, hub, tripDate, GoogleFlights), GoogleFlights),
          BookingStepLink("Book Leg 2: " + hub + " \U{2192} " + dest, LegLink(hub, dest, tripDate, Skyscanner), Skyscanner) ]
      else [];
    var inner := InnerNodes(nodes);
    RoutePattern(
      id, name, nodes, patternType,
      "Routing via " + Seqs.Join(inner, " & "),
      rationale, tradeOffs,
      [ ActionPlan("Google Flights",
          ("Select " + "\"Multi-city\". Leg " + "1: ") + NodeText(nodes, 0) + " to " + NodeText(nodes, 1)
          + ". Leg 2: " + NodeText(nodes, 1) + " to " + NodeText(nodes, |nodes| - 1)
          + (". Check pricing " + "separately then " + "combined.")),
        ActionPlan("ITA Matrix",
          "Advanced routing code: " + origin + " :: " + Seqs.Join(HubCodes(inner), " ") + " " + dest) ],
      stepLinks, risk, savings)
  }

  // ------------------------------------------------------------------ advice cards

  const BudgetThresholdCents := 1500 * 100

  /** The six advice cards `generateSolutions` can emit. */
  datatype Card = BudgetCard | LowFlexibilityCard | HighFlexibilityCard | InternationalCard | SkiplaggingCard | PackingCard

  /** The text of each card, exactly as the engine emits it (split literals concatenate to it). */
  function CardSolution(c: Card): StrategySolution {
    match c
    case BudgetCard => StrategySolution(
      "Budget Optimization", "Shoulder Season Shift",
      ("Prices drop 30-40% " + "outside peak " + "windows (June-Aug, " + "Dec)."),
      [ ("Shift dates to late " + "October or February."),
        ("Fly mid-week " + "(Tuesday/Wednesday)."),
        ("Check departures " + "from secondary " + "airports (e.g., SWF " + "instead of JFK).") ])
    case LowFlexibilityCard => StrategySolution(
      "Low Flexibility", "The Fixed-Date Tax",
      ("Rigid dates prevent " + "accessing the best " + "fare buckets."),
      [ ("Enable 'Track " + "Prices' on Google " + "Flights now."),
        ("Consider an " + "overnight layover " + "to reduce cost."),
        ("Check +1/-1 day " + "manually if the " + "grid tool is " + "restricted.") ])
    case HighFlexibilityCard => StrategySolution(
      "High Flexibility", "Date Grid Arbitrage",
      ("You have the " + "advantage. Use it " + "to find 'error " + "fares'."),
      [ ("Use Google Flights " + "'Date Grid' view."),
        ("Look for green " + "dates up to 3 weeks " + "away."),
        ("Consider " + "extending/shortening " + "trip by 1-2 days.") ])
    case InternationalCard => StrategySolution(
      "International Routing", ("Visa & Transfer " + "Protocols"),
      ("Self-transfers " + "often require " + "entering the " + "country to re-check " + "bags."),
      [ ("Verify Transit Visa " + "requirements for " + "all connection " + "points."),
        ("If booking separate " + "tickets, you MUST " + "pass immigration to " + "re-check bags."),
        ("Ensure at least 4 " + "hours between " + "separate tickets.") ])
    case SkiplaggingCard => StrategySolution(
      "High Chaos / Hidden City", ("Skiplagging " + "Protocol (WARNING)"),
      ("Booking a flight " + "BEYOND your " + "destination and " + "getting off early. " + "Requires strict " + "adherence to rules."),
      [ ("NO CHECKED BAGS: " + "They will go to the " + "final destination."),
        ("ONE-WAY ONLY: " + "Airlines will " + "cancel your return " + "flight if you miss " + "a leg."),
        ("NO FREQUENT FLYER " + "#: Do not associate " + "your account; you " + "risk a ban."),
        ("LAST ON: If gate " + "checked, your bag " + "goes to the final " + "city. Board last.") ])
    case PackingCard => StrategySolution(
      "Standard Protocol", "Packing Strategy",
      ("Budget airlines " + "survive on bag " + "fees. Beat them at " + "their game."),
      [ ("Stick to One-Bag " + "(40L backpack) " + "travel."),
        ("Wear your heaviest " + "clothes on the " + "plane."),
        ("Pre-pay for " + "carry-on if " + "absolutely " + "necessary (cheaper " + "online).") ])
  }

  /** Some destination is neither the USA nor Canada. */
  predicate IsInternational(regions: seq<string>) {
    exists i :: 0 <= i < |regions| && regions[i] != "USA" && regions[i] != "Canada"
  }

  /**
   * The cards `generateSolutions` picks: an optional budget card, exactly one flexibility card,
   * an optional international card and exactly one of skiplagging or packing, in that order.
   */
  function SolutionCards(profile: FlightProfile, trip: TripPlan): (r: seq<Card>)
    ensures |r| == 2 + (if profile.budgetMaxCents < BudgetThresholdCents then 1 else 0)
                     + (if IsInternational(trip.destinationRegions) then 1 else 0)
    ensures r[0] == BudgetCard <==> profile.budgetMaxCents < BudgetThresholdCents
    ensures r[if profile.budgetMaxCents < BudgetThresholdCents then 1 else 0]
            == (if trip.flexibleDays < 2 then LowFlexibilityCard else HighFlexibilityCard)
    ensures r[|r| - 2] == InternationalCard <==> IsInternational(trip.destinationRegions)
    ensures r[|r| - 1] == (if profile.chaosLevel >= 4 then SkiplaggingCard else PackingCard)
  {
    (if profile.budgetMaxCents < BudgetThresholdCents then [BudgetCard] else [])
    + [if trip.flexibleDays < 2 then LowFlexibilityCard else HighFlexibilityCard]
    + (if IsInternational(trip.destinationRegions) then [InternationalCard] else [])
    + [if profile.chaosLevel >= 4 then SkiplaggingCard else PackingCard]
  }

  /** Each card appears at most once, and it appears exactly when its condition holds. */
  lemma SolutionCardsMembership(profile: FlightProfile, trip: TripPlan)
    ensures var r := SolutionCards(profile, trip);
      && Seqs.NoDups(r)
      && (BudgetCard in r <==> profile.budgetMaxCents < BudgetThresholdCents)
      && (LowFlexibilityCard in r <==> trip.flexibleDays < 2)
      && (HighFlexibilityCard in r <==> trip.flexibleDays >= 2)
      && (InternationalCard in r <==> IsInternational(trip.destinationRegions))
      && (SkiplaggingCard in r <==> profile.chaosLevel >= 4)
      && (PackingCard in r <==> profile.chaosLevel < 4)
  {
  }

  /** The texts of a list of cards, in order. */
  function CardSolutions(cards: seq<Card>): (r: seq<StrategySolution>)
    ensures |r| == |cards|
  {
    if |cards| == 0 then [] else [CardSolution(cards[0])] + CardSolutions(cards[1..])
  }

  lemma {:induction false} CardSolutionsAt(cards: seq<Card>, i: nat)
    requires i < |cards|
    ensures CardSolutions(cards)[i] == CardSolution(cards[i])
  {
    if i > 0 {
      CardSolutionsAt(cards[1..], i - 1);
    }
  }

  /** `generateSolutions`: the picked cards, in order, with their texts. */
  function GenerateSolutions(profile: FlightProfile, trip: TripPlan): (r: seq<StrategySolution>)
    ensures |r| == |SolutionCards(profile, trip)|
  {
    CardSolutions(SolutionCards(profile, trip))
  }

  /** Each emitted solution is the text of the card picked at that position. */
  lemma GenerateSolutionsAt(profile: FlightProfile, trip: TripPlan, i: nat)
    requires i < |SolutionCards(profile, trip)|
    ensures GenerateSolutions(profile, trip)[i] == CardSolution(SolutionCards(profile, trip)[i])
  {
    CardSolutionsAt(SolutionCards(profile, trip), i);
  }

  // ------------------------------------------------------------------ regional templates

  const EuropeanCountries := ["Italy", "Portugal", "France", "UK", "Spain"]
  const AsianCountries := ["Thailand", "Vietnam", "Japan", "Korea", "China", "Bali", "Singapore"]

  datatype Family = Europe | Asia | Generic

  predicate IsEuropean(region: string) {
    Text.Contains(region, "Europe") || region in EuropeanCountries
  }

  predicate IsAsian(region: string) {
    Text.Contains(region, "Asia") || region in AsianCountries
  }

  /** The template family: the Europe test runs before the Asia test. */
  function FamilyOf(region: string): (f: Family)
    ensures f == Europe <==> IsEuropean(region)
    ensures f == Asia <==> !IsEuropean(region) && IsAsian(region)
  {
    if IsEuropean(region) then Europe
    else if IsAsian(region) then Asia
    else Generic
  }

  /** The eight `createPattern` calls of `getRegionPatterns`. */
  datatype TemplateKind =
    | EuropeCore | EuropeBackup | EuropeChaos
    | AsiaCore | AsiaBackup | AsiaChaos
    | GenericCore | GenericChaos

  /** The connecting node of a template's route. */
  function Hub(k: TemplateKind): string {
    match k
    case EuropeCore => "LHR/AMS"
    case EuropeBackup => "LIS/MAD"
    case EuropeChaos => "OSL/LGW"
    case AsiaCore => "TYO/TPE"
    case AsiaBackup => "IST/DOH/AUH"
    case AsiaChaos => "ATH/IST"
    case GenericCore => "Primary Hub"
    case GenericChaos => "Cheapest Entry Point"
  }

  /** The last node of a template's route: the trip's region, except for Asia's split ticket. */
  function EndNode(k: TemplateKind, region: string): string {
    if k == AsiaChaos then "SIN/BKK" else region
  }

  function KindType(k: TemplateKind): PatternType {
    match k
    case EuropeBackup => Positioning
    case EuropeChaos | AsiaChaos | GenericChaos => SplitTicket
    case _ => HubSpoke
  }

  function KindRisk(k: TemplateKind): Risk {
    match k
    case EuropeBackup => Risk.Medium
    case EuropeChaos | AsiaChaos | GenericChaos => High
    case _ => Low
  }

  /** The descriptive fields of a template. */
  datatype Prose = Prose(name: string, rationale: string, tradeOffs: seq<string>, savings: string)

  /** Each template's text; every `+` chain is one literal of the engine, split into pieces. */
  function ProseOf(k: TemplateKind): Prose {
    match k
    case EuropeCore => Prose(("The " + "Heathrow/Amsterdam " + "Pivot"),
      ("Major alliance hubs " + "offer frequency and " + "reliability. " + "Competition keeps " + "trunk route prices " + "stable."),
      ["High taxes at LHR", ("Potential for " + "delays at AMS")], "Baseline")
    case EuropeBackup => Prose("The Iberian Bridge",
      ("Southern Europe " + "often has cheaper " + "transatlantic taxes " + "than the North."),
      [("Requires separate " + "ticket on LCC " + "(Ryanair/Vueling)")], "20%")
    case EuropeChaos => Prose("Split Ticket via Norse",
      ("Use low-cost " + "long-haul carriers " + "(Norse) to get " + "across the pond " + "cheaply, then " + "self-transfer."),
      ["Self-transfer risk", "No baggage interlining", "Strict weight limits"], "40%")
    case AsiaCore => Prose("The Pacific Rim",
      ("Trans-pacific " + "routes via " + "Japan/Taiwan are " + "efficient and often " + "price-matched by " + "major carriers."),
      ["Long total travel time", ("Slightly more " + "expensive than " + "Chinese carriers")], "Baseline")
    case AsiaBackup => Prose("The Middle East Pivot",
      ("Turkish, Qatar, and " + "Etihad often run " + "aggressive sales to " + "capture traffic " + "flow to Asia."),
      ["Long layovers common", ("Geographically " + "longer route")], "15%")
    case AsiaChaos => Prose("Split Ticket via Europe",
      ("Fly cheap to Athens " + "or Istanbul, then " + "switch to Scoot or " + "a budget Asian " + "carrier."),
      [("Two separate " + "long-haul tickets"), "Very high fatigue risk", ("Check Scoot/AirAsia " + "directly for leg 2")], "30-40%")
    case GenericCore => Prose("Direct Hub Target",
      ("Identify the " + "largest airport in " + "the region and fly " + "there first."),
      [("May require " + "train/bus to final " + "city")], "Baseline")
    case GenericChaos => Prose("Global Positioning",
      ("Use \"Everywhere\" " + "search to find " + "cheapest continent " + "entry, then LCC to " + "destination."),
      ["Complex booking", "Requires research"], "Variable")
  }

  /** A family's core template, optional backup template and chaos template. */
  datatype FamilyKinds = FamilyKinds(core: TemplateKind, backup: Option<TemplateKind>, chaos: TemplateKind)

  function KindsOf(f: Family): (r: FamilyKinds)
    ensures KindType(r.core) == HubSpoke && KindRisk(r.core) == Low && r.core != AsiaChaos
    ensures r.backup.Some? <==> f != Generic
    ensures r.backup.Some? ==> r.backup.value != AsiaChaos
    ensures KindType(r.chaos) == SplitTicket && KindRisk(r.chaos) == High
  {
    match f
    case Europe => FamilyKinds(EuropeCore, Some(EuropeBackup), EuropeChaos)
    case Asia => FamilyKinds(AsiaCore, Some(AsiaBackup), AsiaChaos)
    case Generic => FamilyKinds(GenericCore, None, GenericChaos)
  }

  /** The connecting node of each family's core pattern. */
  function CoreHub(f: Family): string {
    Hub(KindsOf(f).core)
  }

  /** Ids for the patterns and the strategy, standing in for `generateUUID`. */
  datatype Ids = Ids(core: string, backup: string, chaos: string, strategy: string)

  /** A template filled in for one origin, region and date. */
  function Instantiate(k: TemplateKind, id: string, origin: string, region: string, tripDate: string): (r: RoutePattern)
    ensures r.id == id && r.name == ProseOf(k).name
    ensures r.patternType == KindType(k) && r.risk == KindRisk(k)
    ensures r.nodes == [origin, Hub(k), EndNode(k, region)]
    ensures |r.stepLinks| == if IsMultiLeg(KindType(k)) then 2 else 0
  {
    var prose := ProseOf(k);
    CreatePattern(id, prose.name, [origin, Hub(k), EndNode(k, region)], KindType(k), prose.rationale,
      prose.tradeOffs, KindRisk(k), prose.savings, origin, region, tripDate)
  }

  datatype RegionPlans = RegionPlans(core: seq<RoutePattern>, backup: seq<RoutePattern>, chaos: seq<RoutePattern>)

  /** `getRegionPatterns`: the family's templates, instantiated for this origin and region. */
  function RegionPatterns(origin: string, region: string, chaos: int, tripDate: string, ids: Ids): (r: RegionPlans)
    ensures |r.core| == 1
    ensures |r.backup| == (if FamilyOf(region) == Generic then 0 else 1)
    ensures |r.chaos| == (if chaos >= 3 then 1 else 0)
  {
    var ks := KindsOf(FamilyOf(region));
    RegionPlans(
      [Instantiate(ks.core, ids.core, origin, region, tripDate)],
      if ks.backup.Some? then [Instantiate(ks.backup.value, ids.backup, origin, region, tripDate)] else [],
      if chaos >= 3 then [Instantiate(ks.chaos, ids.chaos, origin, region, tripDate)] else [])
  }

  /** Every family's core pattern is a low-risk hub-and-spoke route through the family's hub. */
  lemma RegionCorePlan(origin: string, region: string, chaos: int, tripDate: string, ids: Ids)
    ensures var r := RegionPatterns(origin, region, chaos, tripDate, ids);
      && |r.core| == 1 && r.core[0].nodes == [origin, CoreHub(FamilyOf(region)), region]
      && r.core[0].patternType == HubSpoke && r.core[0].risk == Low && r.core[0].id == ids.core
  {
  }

  /** There is a backup pattern, from the origin to the region, unless the family is generic. */
  lemma RegionBackupPlan(origin: string, region: string, chaos: int, tripDate: string, ids: Ids)
    ensures var r := RegionPatterns(origin, region, chaos, tripDate, ids);
      && |r.backup| == (if FamilyOf(region) == Generic then 0 else 1)
      && forall p :: p in r.backup ==> p.nodes == [origin, p.nodes[1], region] && p.id == ids.backup
  {
  }

  /** Chaos 3 and above adds exactly one high-risk split ticket, booked leg by leg. */
  lemma RegionChaosPlan(origin: string, region: string, chaos: int, tripDate: string, ids: Ids)
    ensures var r := RegionPatterns(origin, region, chaos, tripDate, ids);
      && |r.chaos| == (if chaos >= 3 then 1 else 0)
      && forall p :: p in r.chaos ==> p.patternType == SplitTicket && p.risk == High && |p.stepLinks| == 2 && p.id == ids.chaos
  {
  }

  /** A region naming both continents gets the European templates, because that test runs first. */
  lemma EuropeWinsOverAsia(region: string)
    requires Text.Contains(region, "Europe") && Text.Contains(region, "Asia")
    ensures FamilyOf(region) == Europe
    ensures RegionPatterns("NYC", region, 1, "", Ids("", "", "", "")).core[0].nodes[1] == "LHR/AMS"
  {
    RegionCorePlan("NYC", region, 1, "", Ids("", "", "", ""));
  }

  // ------------------------------------------------------------------ search links

  /** `dest.length === 3 ? dest : 'anywhere'`. */
  function SkyscannerDestination(dest: string): (r: string)
    ensures |dest| == 3 ==> r == dest
    ensures |dest| != 3 ==> r == "anywhere"
  {
    if |dest| == 3 then dest else "anywhere"
  }

  /** `generateSearchLinks`: four links, Google Flights first and the only primary one. */
  function GenerateSearchLinks(origin: string, dest: string, date: string): (r: seq<SearchLink>)
    ensures |r| == 4
    ensures r[0].provider == GoogleFlightsSearch && r[1].provider == GoogleExplore
    ensures r[2].provider == SkyscannerSearch && r[3].provider == Kayak
    ensures forall i :: 0 <= i < |r| ==> (r[i].primary <==> i == 0)
    ensures r[2].url == SkyscannerBase + Seqs.Take(origin, 3) + "/" + SkyscannerDestination(dest) + "/" + SkyscannerDate(date)
  {
    var safeOrigin := Seqs.Take(origin, 3);
    var safeDest := SkyscannerDestination(dest);
    [ SearchLink(GoogleFlightsSearch, "Launch Precise Search",
        GoogleFlightsBase
        + Text.EncodeURIComponent("Flights from " + origin + " to " + dest + " on " + date), true),
      SearchLink(GoogleExplore, "Explore Map Radius",
        GoogleExploreBase + origin, false),
      SearchLink(SkyscannerSearch, "Compare on Skyscanner",
        SkyscannerBase + safeOrigin + "/" + safeDest + "/" + SkyscannerDate(date), false),
      SearchLink(Kayak, "Compare on Kayak",
        KayakBase + safeOrigin + "-" + Seqs.Take(safeDest, 3) + "/" + date, false) ]
  }

  /** A destination that is not a three-letter code reaches Kayak as the code `any`. */
  lemma KayakAnywhere(origin: string, dest: string, date: string)
    requires |dest| != 3
    ensures GenerateSearchLinks(origin, dest, date)[3].url
            == KayakBase + Seqs.Take(origin, 3) + "-any/" + date
  {
  }

  // ------------------------------------------------------------------ the strategy

  /** `xs[0] || fallback`: the first element, unless the list is empty or it is the empty string. */
  function FirstOr(xs: seq<string>, fallback: string): (r: string)
    ensures |xs| > 0 && xs[0] != "" ==> r == xs[0]
    ensures |xs| == 0 || xs[0] == "" ==> r == fallback
  {
    if |xs| > 0 && xs[0] != "" then xs[0] else fallback
  }

  function Origin(profile: FlightProfile): string {
    FirstOr(profile.homeAirports, "NYC")
  }

  function TargetRegion(trip: TripPlan): string {
    FirstOr(trip.destinationRegions, "Everywhere")
  }

  const SummaryOpening := "The recommended " + "approach is the "
  const AdvancedDetected := ("Advanced savings " + "options detected.")
  const AdvancedSuppressed := ("Advanced options " + "suppressed based on " + "your preferences.")

  /** `${ps[0]?.nodes[1]}`. */
  function FirstHub(ps: seq<RoutePattern>): string {
    if |ps| > 0 then NodeText(ps[0].nodes, 1) else "undefined"
  }

  /** `${ps[0]?.nodes.join(' -> ')}`. */
  function FirstRoute(ps: seq<RoutePattern>): string {
    if |ps| > 0 then Seqs.Join(ps[0].nodes, " -> ") else "undefined"
  }

  /**
   * The summary names the core plan first and closes on whether advanced options exist.
   * Its literal parts are split into pieces that concatenate to the engine's template text.
   */
  function Summary(plans: RegionPlans): (r: string)
    ensures Text.IsPrefix(SummaryOpening, r)
    ensures |plans.chaos| > 0 ==> Text.IsSuffix(AdvancedDetected, r)
    ensures |plans.chaos| == 0 ==> Text.IsSuffix(AdvancedSuppressed, r)
  {
    var middle := SummaryMiddle(plans);
    var closing := if |plans.chaos| > 0 then AdvancedDetected else AdvancedSuppressed;
    Text.PrefixSuffixOfConcat(SummaryOpening, middle + closing);
    Text.PrefixSuffixOfConcat(SummaryOpening + middle, closing);
    SummaryOpening + middle + closing
  }

  /** The summary's names of the core and backup plans, with their defaults. */
  function SummaryMiddle(plans: RegionPlans): string {
    (if |plans.core| > 0 && plans.core[0].name != "" then plans.core[0].name else "Standard")
    + (" route. " + "Alternatives are " + "available via ")
    + (if |plans.backup| > 0 && plans.backup[0].name != "" then plans.backup[0].name else "Alternative")
    + " routing. "
  }

  function Steps(plans: RegionPlans): (r: seq<StrategyStep>)
    ensures |r| == if |plans.chaos| > 0 then 3 else 2
    ensures r[0].title == "Analyze Base Fares" && r[0].difficulty == Easy
    ensures r[1].title == "Check Contingencies" && r[1].difficulty == Difficulty.Medium
    ensures |plans.chaos| > 0 ==> r[2].title == "Try Advanced Option" && r[2].difficulty == Hard
  {
    [ StrategyStep("Analyze Base Fares", "Check the Core Plan: " + FirstRoute(plans.core) + ". Note the price.", Easy),
      StrategyStep("Check Contingencies",
        ("Compare against " + "Backup Plan: ") + FirstRoute(plans.backup) + ". Is the saving >$150?", Difficulty.Medium) ]
    + if |plans.chaos| > 0 then
        [ StrategyStep("Try Advanced Option",
            ("If budget is " + "critical, attempt ") + plans.chaos[0].name + (". Ensure 4h+ buffer " + "between tickets."), Hard) ]
      else []
  }

  /** The three prompts; split literals concatenate to the engine's template text. */
  function Prompts(origin: string, target: string, profile: FlightProfile, trip: TripPlan, plans: RegionPlans): (r: seq<StrategyPrompt>)
    ensures |r| == 3
    ensures r[0].tool == "Google Flights" && r[1].tool == "ITA Matrix" && r[2].tool == "Google Gemini / ChatGPT"
  {
    var routingCodes := Seqs.Join(SecondNodeCodes(plans.core + plans.backup), " ");
    [ StrategyPrompt("Google Flights", ("Precise multi-city " + "construction"),
        ("Search Type: " + "Multi-city / Round " + "Trip\n1. Origin: ") + origin
        + "\n2. Connection: " + FirstHub(plans.core) + " (or " + FirstHub(plans.backup) + ")"
        + "\n3. Destination: " + target
        + "\nDates: " + trip.startDate + " (+/- " + Text.IntToString(trip.flexibleDays) + " days)"
        + ("\nFilters: \n- Mode: " + "Flights only\n- " + "Price Graph: ON")),
      StrategyPrompt("ITA Matrix", ("Advanced routing " + "language"),
        "Origin: " + origin + " :: " + routingCodes
        + "\nDestination: " + Text.Upper(Seqs.Take(target, 3))
        + "\nDate: " + trip.startDate
        + ("\nCabins: Cheapest " + "Available\nStops: Up " + "to 2")),
      StrategyPrompt("Google Gemini / ChatGPT", "Deal hunting query",
        "I need to get from " + origin + " to " + target + " around " + trip.startDate + ".\nBudget: $"
        + Text.CentsToString(profile.budgetMaxCents) + (".\nCheck for:\n1. " + "Error fares on ")
        + FirstHub(plans.core) + (" routes.\n2. " + "Positioning flights " + "via ") + FirstHub(plans.backup)
        + (".\n3. Open-jaw " + "tickets returning " + "from a nearby city.")) ]
  }

  /** `generateStrategy`. */
  function GenerateStrategy(profile: FlightProfile, trip: TripPlan, ids: Ids): (r: Strategy)
    ensures r.id == ids.strategy
    ensures |r.corePlan| == 1 && |r.searchLinks| == 4 && |r.prompts| == 3
    ensures |r.steps| == (if |r.chaosPlans| > 0 then 3 else 2)
    ensures Text.IsPrefix(SummaryOpening, r.summary)
  {
    var origin := Origin(profile);
    var target := TargetRegion(trip);
    var plans := RegionPatterns(origin, target, profile.chaosLevel, trip.startDate, ids);
    Strategy(ids.strategy, Summary(plans), plans.core, plans.backup, plans.chaos,
      GenerateSolutions(profile, trip), GenerateSearchLinks(origin, target, trip.startDate),
      Prompts(origin, target, profile, trip, plans), Steps(plans))
  }

  /**
   * The strategy routes the first home airport (or NYC) to the first region (or Everywhere)
   * through the family's hub, with a backup unless the family is generic, and adds one
   * high-risk split-ticket plan exactly when chaos reaches 3.
   */
  lemma GenerateStrategyPlans(profile: FlightProfile, trip: TripPlan, ids: Ids)
    ensures var r := GenerateStrategy(profile, trip, ids);
      && |r.corePlan| == 1
      && r.corePlan[0].nodes == [Origin(profile), CoreHub(FamilyOf(TargetRegion(trip))), TargetRegion(trip)]
      && |r.backupPlans| == (if FamilyOf(TargetRegion(trip)) == Generic then 0 else 1)
      && |r.chaosPlans| == (if profile.chaosLevel >= 3 then 1 else 0)
      && (forall p :: p in r.chaosPlans ==> p.patternType == SplitTicket && p.risk == High)
  {
    var plans := RegionPatterns(Origin(profile), TargetRegion(trip), profile.chaosLevel, trip.startDate, ids);
    var r := GenerateStrategy(profile, trip, ids);
    assert r.corePlan == plans.core && r.backupPlans == plans.backup && r.chaosPlans == plans.chaos;
    RegionCorePlan(Origin(profile), TargetRegion(trip), profile.chaosLevel, trip.startDate, ids);
    RegionChaosPlan(Origin(profile), TargetRegion(trip), profile.chaosLevel, trip.startDate, ids);
  }

  /**
   * The strategy carries the picked advice cards and four search links, a third step and a
   * summary ending in the detected sentence exactly when it has a chaos plan, and three prompts.
   */
  lemma GenerateStrategyContents(profile: FlightProfile, trip: TripPlan, ids: Ids)
    ensures var r := GenerateStrategy(profile, trip, ids);
      && r.solutions == GenerateSolutions(profile, trip)
      && |r.searchLinks| == 4
      && |r.steps| == (if |r.chaosPlans| > 0 then 3 else 2)
      && |r.prompts| == 3
      && (Text.IsSuffix(AdvancedDetected, r.summary) <==> |r.chaosPlans| > 0)
  {
    SummaryEnding(RegionPatterns(Origin(profile), TargetRegion(trip), profile.chaosLevel, trip.startDate, ids));
  }

  /** The summary ends with the detected sentence exactly when there are chaos plans. */
  lemma SummaryEnding(plans: RegionPlans)
    ensures Text.IsSuffix(AdvancedDetected, Summary(plans)) <==> |plans.chaos| > 0
  {
    if |plans.chaos| == 0 {
      ClosingsExclusive(Summary(plans));
    }
  }

  /** A text ending in the suppressed sentence does not end in the detected one. */
  lemma ClosingsExclusive(s: string)
    requires Text.IsSuffix(AdvancedSuppressed, s)
    ensures !Text.IsSuffix(AdvancedDetected, s)
  {
    var n := |AdvancedDetected|;
    assert s[|s| - 6..] == "ences." by {
      assert s[|s| - 6..] == AdvancedSuppressed[|AdvancedSuppressed| - 6..];
    }
    assert AdvancedDetected[n - 6..] == "ected.";
    assert n <= |s| ==> s[|s| - n..][n - 6..] == s[|s| - 6..];
  }

  /** No listed country name is longer than nine characters. */
  lemma CountryNamesShort()
    ensures forall c :: c in EuropeanCountries ==> |c| <= 8
    ensures forall c :: c in AsianCountries ==> |c| <= 9
  {
  }

  /** The worked example: Japan is an Asian destination, routed through Tokyo or Taipei. */
  lemma JapanExample()
    ensures FamilyOf("Japan") == Asia && CoreHub(FamilyOf("Japan")) == "TYO/TPE"
  {
    Text.MissingCharNotContains("Japan", "Europe", 'E');
    assert "Japan" == AsianCountries[2];
  }

  /** The default destination, Everywhere, names no European country or the continent. */
  lemma EverywhereNotEuropean()
    ensures !IsEuropean("Everywhere")
  {
    CountryNamesShort();
    Text.MissingCharNotContains("Everywhere", "Europe", 'u');
  }

  /** Nor does it name an Asian country or the continent. */
  lemma EverywhereNotAsian()
    ensures !IsAsian("Everywhere")
  {
    CountryNamesShort();
    Text.MissingCharNotContains("Everywhere", "Asia", 'A');
  }

  /** So the default destination gets the generic template and no backup plan. */
  lemma EverywhereExample()
    ensures FamilyOf("Everywhere") == Generic && CoreHub(Generic) == "Primary Hub"
  {
    EverywhereNotEuropean();
    EverywhereNotAsian();
  }
}

=== FILE: strategy_page.dfy ===
/**
 * The pure helpers of the strategy results page (pages/StrategyPage.tsx): calendar
 * timestamps, the savings rank, the expanded-deal set, the price-alert condition,
 * the destination-country list and the layover text.
 */
module StrategyPage {
  import opened Wrappers
  import opened Types
  import Seqs
  import Text

  // ---------------------------------------------------------------- calendar timestamps

  /**
   * `formatICSDate`: the timestamp without `-` and `:`, cut at the first `.`, with `00`
   * seconds added when exactly `YYYYMMDDTHHMM` is left.
   */
  function FormatICSDate(iso: string): (r: string)
    ensures '-' !in r && ':' !in r && '.' !in r
  {
    var clean := Text.BeforeFirst(Text.RemoveChars(iso, {'-', ':'}), '.');
    if |clean| == 13 then clean + "00" else clean
  }

  predicate IsDigit(c: char) {
    '0' <= c <= '9'
  }

  /** The basic DATE-TIME form of section 3.3.5 of RFC 5545 (local time): `YYYYMMDDTHHMMSS`. */
  predicate IsBasicDateTime(s: string) {
    |s| == 15 && s[8] == 'T' && forall i :: 0 <= i < 15 && i != 8 ==> IsDigit(s[i])
  }

  /** `YYYY-MM-DDTHH:MM`, the minute-precision timestamps of the flight data. */
  predicate IsIsoMinutes(s: string) {
    && |s| == 16 && s[4] == '-' && s[7] == '-' && s[10] == 'T' && s[13] == ':'
    && forall i :: 0 <= i < 16 && i != 4 && i != 7 && i != 10 && i != 13 ==> IsDigit(s[i])
  }

  /** `YYYY-MM-DDTHH:MM:SS`. */
  predicate IsIsoSeconds(s: string) {
    |s| == 19 && IsIsoMinutes(s[..16]) && s[16] == ':' && IsDigit(s[17]) && IsDigit(s[18])
  }

  /** Removing a separator splits the removal around it. */
  lemma {:induction false} DropSeparator(a: string, c: char, b: string, cs: set<char>)
    requires c in cs
    ensures Text.RemoveChars(a + [c] + b, cs) == Text.RemoveChars(a, cs) + Text.RemoveChars(b, cs)
  {
    if |a| == 0 {
      assert a + [c] + b == [c] + b;
      assert ([c] + b)[1..] == b;
    } else {
      assert (a + [c] + b)[0] == a[0];
      assert (a + [c] + b)[1..] == a[1..] + [c] + b;
      DropSeparator(a[1..], c, b, cs);
    }
  }

  /** Only digits and `T`: nothing the separator removal or the cut at `.` touches. */
  predicate Plain(s: string) {
    forall i :: 0 <= i < |s| ==> IsDigit(s[i]) || s[i] == 'T'
  }

  /** Digits and `T` survive the separator removal. */
  lemma KeepsPlain(s: string, cs: set<char>)
    requires cs == {'-', ':'} && Plain(s)
    ensures Text.RemoveChars(s, cs) == s
  {
    Text.RemoveCharsNone(s, cs);
  }

  /** The four runs between the separators of a minute timestamp are plain. */
  lemma MinutesPartsPlain(s: string)
    requires IsIsoMinutes(s)
    ensures Plain(s[..4]) && Plain(s[5..7]) && Plain(s[8..13]) && Plain(s[14..])
  {
    forall i | 0 <= i < 2 ensures IsDigit(s[5..7][i]) {
      assert s[5..7][i] == s[5 + i];
    }
    forall i | 0 <= i < 5 ensures IsDigit(s[8..13][i]) || s[8..13][i] == 'T' {
      assert s[8..13][i] == s[8 + i];
    }
    forall i | 0 <= i < 2 ensures IsDigit(s[14..][i]) {
      assert s[14..][i] == s[14 + i];
    }
  }

  /** A minute timestamp loses exactly its four separators. */
  lemma RemoveSeparatorsMinutes(s: string)
    requires IsIsoMinutes(s)
    ensures Text.RemoveChars(s, {'-', ':'}) == s[..4] + s[5..7] + s[8..13] + s[14..]
  {
    var cs := {'-', ':'};
    var a, b, c, d := s[..4], s[5..7], s[8..13], s[14..];
    assert s == a + ['-'] + b + ['-'] + c + [':'] + d;
    MinutesPartsPlain(s);
    KeepsPlain(a, cs);
    KeepsPlain(b, cs);
    KeepsPlain(c, cs);
    KeepsPlain(d, cs);
    DropSeparator(a + ['-'] + b + ['-'] + c, ':', d, cs);
    DropSeparator(a + ['-'] + b, '-', c, cs);
    DropSeparator(a, '-', b, cs);
  }

  /** The digits of a minute timestamp followed by two digits of seconds form a basic date-time. */
  lemma CompactIsBasic(s: string, secs: string)
    requires IsIsoMinutes(s) && |secs| == 2 && IsDigit(secs[0]) && IsDigit(secs[1])
    ensures IsBasicDateTime(s[..4] + s[5..7] + s[8..13] + s[14..] + secs)
  {
    var out := s[..4] + s[5..7] + s[8..13] + s[14..] + secs;
    forall i | 0 <= i < 15 && i != 8 ensures IsDigit(out[i]) {
      if i < 4 {
        assert out[i] == s[i];
      } else if i < 6 {
        assert out[i] == s[i + 1];
      } else if i < 11 {
        assert out[i] == s[i + 2];
      } else if i < 13 {
        assert out[i] == s[i + 3];
      } else {
        assert out[i] == secs[i - 13];
      }
    }
    assert out[8] == s[10];
  }

  /** A minute timestamp gets `00` seconds and becomes an RFC 5545 basic date-time. */
  lemma FormatICSDateMinutes(s: string)
    requires IsIsoMinutes(s)
    ensures FormatICSDate(s) == s[..4] + s[5..7] + s[8..13] + s[14..] + "00"
    ensures IsBasicDateTime(FormatICSDate(s))
  {
    var clean := s[..4] + s[5..7] + s[8..13] + s[14..];
    RemoveSeparatorsMinutes(s);
    assert '.' !in clean by {
      forall i | 0 <= i < |clean| ensures clean[i] != '.' {
        assert IsDigit(clean[i]) || clean[i] == 'T';
      }
    }
    Text.BeforeFirstAt(clean, "", '.');
    assert clean + "" == clean;
    CompactIsBasic(s, "00");
  }

  /** A basic date-time holds digits and `T` only. */
  lemma BasicHasNoDot(x: string)
    requires IsBasicDateTime(x)
    ensures '.' !in x
  {
    forall i | 0 <= i < |x| ensures x[i] != '.' {
      assert IsDigit(x[i]) || x[i] == 'T';
    }
  }

  /** A fraction keeps its leading `.` through the separator removal. */
  lemma FractionKeepsDot(fraction: string)
    requires |fraction| > 0 && fraction[0] == '.'
    ensures var rest := Text.RemoveChars(fraction, {'-', ':'}); |rest| > 0 && rest[0] == '.'
  {
  }

  /** A timestamp with seconds loses its five separators and is a basic date-time. */
  lemma RemoveSeparatorsSeconds(s: string)
    requires IsIsoSeconds(s)
    ensures var clean := s[..4] + s[5..7] + s[8..13] + s[14..16] + s[17..];
      Text.RemoveChars(s, {'-', ':'}) == clean && IsBasicDateTime(clean)
  {
    var cs := {'-', ':'};
    var m := s[..16];
    var secs := s[17..];
    assert m[..4] == s[..4] && m[5..7] == s[5..7] && m[8..13] == s[8..13] && m[14..] == s[14..16];
    RemoveSeparatorsMinutes(m);
    assert s == m + [':'] + secs;
    assert secs[0] == s[17] && secs[1] == s[18];
    KeepsPlain(secs, cs);
    DropSeparator(m, ':', secs, cs);
    CompactIsBasic(m, secs);
  }

  /**
   * A timestamp with seconds, optionally followed by a fraction (`.000Z`), keeps its
   * seconds and loses the fraction: an RFC 5545 basic date-time again.
   */
  lemma FormatICSDateSeconds(s: string, fraction: string)
    requires IsIsoSeconds(s) && (|fraction| == 0 || fraction[0] == '.')
    ensures FormatICSDate(s + fraction) == s[..4] + s[5..7] + s[8..13] + s[14..16] + s[17..]
    ensures IsBasicDateTime(FormatICSDate(s + fraction))
  {
    var cs := {'-', ':'};
    var clean := s[..4] + s[5..7] + s[8..13] + s[14..16] + s[17..];
    RemoveSeparatorsSeconds(s);
    BasicHasNoDot(clean);
    Text.RemoveCharsConcat(s, fraction, cs);
    if |fraction| > 0 {
      FractionKeepsDot(fraction);
    }
    Text.BeforeFirstAt(clean, Text.RemoveChars(fraction, cs), '.');
  }

  // ---------------------------------------------------------------- savings rank

  /** The ranks the page shows; its initial `C` is always overwritten, so it never appears. */
  datatype Rank = S | A | B | D

  /**
   * `(savings / budget) * 100 > threshold` evaluated exactly, including JavaScript's
   * division by zero: a zero budget gives +Infinity for positive savings, -Infinity for
   * negative ones and NaN for none, and only +Infinity exceeds a threshold.
   */
  predicate PercentAbove(savings: int, budget: int, threshold: int) {
    if budget > 0 then savings * 100 > threshold * budget
    else if budget < 0 then savings * 100 < threshold * budget
    else savings > 0
  }

  /** The tier of a savings percentage: above 40, above 20, above 0, or not. */
  function RankOf(savings: int, budget: int): (r: Rank)
    ensures r == S <==> PercentAbove(savings, budget, 40)
    ensures r == A <==> !PercentAbove(savings, budget, 40) && PercentAbove(savings, budget, 20)
    ensures r == B <==> !PercentAbove(savings, budget, 20) && PercentAbove(savings, budget, 0)
    ensures r == D <==> !PercentAbove(savings, budget, 0)
  {
    if PercentAbove(savings, budget, 40) then S
    else if PercentAbove(savings, budget, 20) then A
    else if PercentAbove(savings, budget, 0) then B
    else D
  }

  function RankTitle(r: Rank): string {
    match r
    case S => "Elite Phantom"
    case A => "Grey Hat"
    case B => "Operator"
    case D => "Over Budget"
  }

  datatype HackerScore = HackerScore(rank: Rank, title: string, savingsCents: int)

  /**
   * The score card: none without deals or profile; otherwise the savings of the first
   * listed deal against the budget and the tier they reach.
   */
  function Score(deals: seq<FlightDeal>, profile: Option<FlightProfile>): (r: Option<HackerScore>)
    ensures r.None? <==> |deals| == 0 || profile.None?
    ensures r.Some? ==> r.value.savingsCents == profile.value.budgetMaxCents - deals[0].priceCents
    ensures r.Some? ==> r.value.rank == RankOf(r.value.savingsCents, profile.value.budgetMaxCents)
    ensures r.Some? ==> r.value.title == RankTitle(r.value.rank)
  {
    if |deals| == 0 || profile.None? then None
    else
      var budget := profile.value.budgetMaxCents;
      var savings := budget - deals[0].priceCents;
      var rank := RankOf(savings, budget);
      Some(HackerScore(rank, RankTitle(rank), savings))
  }

  /**
   * For a positive budget the tiers are price bands: S below 60% of the budget, A below
   * 80%, B below the budget, D at or above it.
   */
  lemma RankByPrice(price: int, budget: int)
    requires budget > 0
    ensures RankOf(budget - price, budget) == S <==> 5 * price < 3 * budget
    ensures RankOf(budget - price, budget) == A <==> 3 * budget <= 5 * price < 4 * budget
    ensures RankOf(budget - price, budget) == B <==> 4 * budget <= 5 * price && price < budget
    ensures RankOf(budget - price, budget) == D <==> price >= budget
  {
  }

  function RankValue(r: Rank): nat {
    match r
    case S => 3
    case A => 2
    case B => 1
    case D => 0
  }

  /** With a positive budget, a cheaper first deal never earns a lower rank. */
  lemma RankMonotone(p1: int, p2: int, budget: int)
    requires budget > 0 && p1 <= p2
    ensures RankValue(RankOf(budget - p1, budget)) >= RankValue(RankOf(budget - p2, budget))
  {
    RankByPrice(p1, budget);
    RankByPrice(p2, budget);
  }

  /**
   * With a positive budget the score card's rank is the price band of the first listed
   * deal, and of two otherwise equal lists the one led by the cheaper deal never scores lower.
   */
  lemma ScoreByPrice(deals: seq<FlightDeal>, cheaper: FlightDeal, profile: FlightProfile)
    requires |deals| > 0 && profile.budgetMaxCents > 0
    requires cheaper.priceCents <= deals[0].priceCents
    ensures var r := Score(deals, Some(profile));
      && r.Some?
      && (r.value.rank == S <==> 5 * deals[0].priceCents < 3 * profile.budgetMaxCents)
      && (r.value.rank == D <==> deals[0].priceCents >= profile.budgetMaxCents)
    ensures RankValue(Score([cheaper] + deals[1..], Some(profile)).value.rank)
         >= RankValue(Score(deals, Some(profile)).value.rank)
  {
    RankByPrice(deals[0].priceCents, profile.budgetMaxCents);
    RankMonotone(cheaper.priceCents, deals[0].priceCents, profile.budgetMaxCents);
  }

  // ---------------------------------------------------------------- expanded deals

  /** `toggleDealExpanded`: the set of expanded deal ids with one id flipped. */
  function ToggleDealExpanded(expanded: set<string>, id: string): (r: set<string>)
    ensures id in r <==> id !in expanded
    ensures forall other :: other != id ==> (other in r <==> other in expanded)
  {
    Seqs.Toggle(expanded, id)
  }

  /** Expanding and collapsing the same deal restores the set. */
  lemma ToggleDealTwice(expanded: set<string>, id: string)
    ensures ToggleDealExpanded(ToggleDealExpanded(expanded, id), id) == expanded
  {
    Seqs.ToggleTwice(expanded, id);
  }

  // ---------------------------------------------------------------- price alert

  /**
   * `checkAlertTrigger`: the alert fires when it is active, has a non-zero target and
   * the first new deal costs at most the target.
   */
  function AlertFires(active: bool, targetCents: int, deals: seq<FlightDeal>): (r: bool)
    ensures r ==> |deals| > 0 && deals[0].priceCents <= targetCents
    ensures !active || targetCents == 0 || |deals| == 0 ==> !r
    ensures active && targetCents != 0 && |deals| > 0 && deals[0].priceCents <= targetCents ==> r
  {
    active && targetCents != 0 && |deals| > 0 && deals[0].priceCents <= targetCents
  }

  predicate SortedByPrice(ds: seq<FlightDeal>) {
    forall i, j :: 0 <= i < j < |ds| ==> ds[i].priceCents <= ds[j].priceCents
  }

  /** On a price-sorted list, the alert fires iff some deal is at or below the target. */
  lemma AlertOnSortedDeals(active: bool, targetCents: int, deals: seq<FlightDeal>)
    requires SortedByPrice(deals) && active && targetCents != 0
    ensures AlertFires(active, targetCents, deals) <==> exists d :: d in deals && d.priceCents <= targetCents
  {
    if exists d :: d in deals && d.priceCents <= targetCents {
      var d :| d in deals && d.priceCents <= targetCents;
      var i :| 0 <= i < |deals| && deals[i] == d;
      assert deals[0].priceCents <= deals[i].priceCents;
    }
  }

  /**
   * Only the first deal is looked at: whatever follows it, the alert decides the same. So
   * on a list that is not sorted by price, such as the demo deals, a cheaper later deal
   * does not set it off.
   */
  lemma AlertSeesOnlyFirst(active: bool, targetCents: int, deals: seq<FlightDeal>, rest: seq<FlightDeal>)
    requires |deals| > 0
    ensures AlertFires(active, targetCents, deals) == AlertFires(active, targetCents, [deals[0]] + rest)
    ensures |deals| > 1 && active && targetCents != 0 && deals[1].priceCents <= targetCents < deals[0].priceCents ==>
      !AlertFires(active, targetCents, deals)
  {
    assert ([deals[0]] + rest)[0] == deals[0];
  }

  // ---------------------------------------------------------------- destination countries

  /** The country of the airport a deal ends at, when the table knows it and names one. */
  function CountryOf(d: FlightDeal, db: AirportDb): (r: Option<string>)
    requires |d.segments| > 0
    ensures r.Some? <==> FinalArrival(d) in db && |db[FinalArrival(d)].country| > 0
    ensures r.Some? ==> r.value == db[FinalArrival(d)].country
  {
    var code := FinalArrival(d);
    if code in db && |db[code].country| > 0 then Some(db[code].country) else None
  }

  /** Some deal ends in `country`. */
  predicate CountryReached(deals: seq<FlightDeal>, db: AirportDb, country: string)
    requires forall d :: d in deals ==> |d.segments| > 0
  {
    exists d :: d in deals && CountryOf(d, db) == Some(country)
  }

  /** `destinationCountries`: the countries of the deals' final airports, sorted and without repeats. */
  function DestinationCountries(deals: seq<FlightDeal>, db: AirportDb): (r: seq<string>)
    requires forall d :: d in deals ==> |d.segments| > 0
    ensures Text.StrictlySorted(r)
    ensures forall c :: c in r <==> CountryReached(deals, db, c)
  {
    if |deals| == 0 then []
    else
      var last := deals[|deals| - 1];
      var init := deals[..|deals| - 1];
      assert forall d :: d in init ==> d in deals;
      var rest := DestinationCountries(init, db);
      assert forall d :: d in deals ==> d in init || d == last by {
        assert deals == init + [last];
      }
      match CountryOf(last, db)
      case None => rest
      case Some(c) => Text.InsertUnique(c, rest)
  }

  /** The page switches to the country grid when the deals reach more than one country. */
  function IsMultiCountry(deals: seq<FlightDeal>, db: AirportDb): (r: bool)
    requires forall d :: d in deals ==> |d.segments| > 0
    ensures r <==> exists c1, c2 :: c1 != c2 && CountryReached(deals, db, c1) && CountryReached(deals, db, c2)
  {
    var cs := DestinationCountries(deals, db);
    if |cs| > 1 then
      Text.StrLessIrreflexive(cs[0]);
      assert cs[0] != cs[1];
      assert cs[0] in cs && cs[1] in cs;
      assert CountryReached(deals, db, cs[0]) && CountryReached(deals, db, cs[1]);
      true
    else
      assert forall c1, c2 :: c1 in cs && c2 in cs ==> c1 == c2;
      false
  }

  /** A strictly sorted list is fixed by its elements: the country list is the one sorted listing of the country set. */
  lemma {:induction false} StrictlySortedUnique(a: seq<string>, b: seq<string>)
    requires Text.StrictlySorted(a) && Text.StrictlySorted(b)
    requires forall x :: x in a <==> x in b
    ensures a == b
  {
    assert |a| > 0 ==> a[0] in b;
    assert |b| > 0 ==> b[0] in a;
    if |a| > 0 && |b| > 0 {
      assert a[0] in a && b[0] in b;
      if a[0] != b[0] {
        assert a[0] in b && b[0] in a;
        var i :| 0 <= i < |b| && b[i] == a[0];
        var j :| 0 <= j < |a| && a[j] == b[0];
        Text.StrLessTransitive(a[0], a[j], b[i]);
        Text.StrLessIrreflexive(a[0]);
        assert false;
      }
      forall x ensures x in a[1..] <==> x in b[1..] {
        if x in a[1..] {
          var i :| 1 <= i < |a| && a[i] == x;
          Text.StrLessIrreflexive(x);
          assert x != a[0] && x in a && x in b;
          var k :| 0 <= k < |b| && b[k] == x;
          assert k != 0 && b[1..][k - 1] == x;
        }
        if x in b[1..] {
          var i :| 1 <= i < |b| && b[i] == x;
          Text.StrLessIrreflexive(x);
          assert x != b[0] && x in b && x in a;
          var k :| 0 <= k < |a| && a[k] == x;
          assert k != 0 && a[1..][k - 1] == x;
        }
      }
      StrictlySortedUnique(a[1..], b[1..]);
      assert a == [a[0]] + a[1..] && b == [b[0]] + b[1..];
    }
  }

  // ---------------------------------------------------------------- layover

  /** JavaScript's integer quotient toward zero, `Math.trunc(a / b)`: it never overshoots `a` in magnitude. */
  function JsQuot(a: int, b: int): (q: int)
    requires b > 0
    ensures a >= 0 ==> q >= 0 && 0 <= a - q * b < b
    ensures a < 0 ==> q <= 0 && -b < a - q * b <= 0
  {
    if a >= 0 then a / b else -((-a) / b)
  }

  /** JavaScript's `%` on integers: what is left after the quotient toward zero, so it takes the sign of the dividend. */
  function JsRem(a: int, b: int): (r: int)
    requires b > 0
    ensures a >= 0 ==> 0 <= r < b
    ensures a < 0 ==> -b < r <= 0
    ensures r == a - JsQuot(a, b) * b
  {
    if a >= 0 then a % b else -((-a) % b)
  }

  /** Where JavaScript's `%` and Dafny's differ: a negative dividend. */
  lemma JsRemExamples()
    ensures JsRem(7, 5) == 2 && JsRem(-7, 5) == -2 && JsRem(-5, 5) == 0
    ensures (-7) % 5 == 3
  {
  }

  const HourMs := 3600000
  const MinuteMs := 60000

  /**
   * `getLayoverDuration` on the difference of the two timestamps in milliseconds:
   * whole hours by `Math.floor`, then whole minutes of the remainder.
   */
  function LayoverParts(diffMs: int): (r: (int, int))
    ensures diffMs >= 0 ==> r.0 >= 0 && 0 <= r.1 < 60
  {
    (diffMs / HourMs, JsRem(diffMs, HourMs) / MinuteMs)
  }

  function LayoverText(diffMs: int): string {
    var (h, m) := LayoverParts(diffMs);
    Text.IntToString(h) + "h " + Text.IntToString(m) + "m"
  }

  /** For a non-negative gap the text's hours and minutes are the gap rounded down to the minute. */
  lemma LayoverExact(diffMs: int)
    requires diffMs >= 0
    ensures var (h, m) := LayoverParts(diffMs);
      h * HourMs + m * MinuteMs <= diffMs < h * HourMs + m * MinuteMs + MinuteMs
  {
  }

  /**
   * A departure 90 minutes before the arrival reads "-2h -30m": the hours are floored
   * while the remainder keeps the sign of the gap.
   */
  lemma LayoverOfNegativeGap()
    ensures LayoverParts(-5400000) == (-2, -30)
  {
  }
}

=== FILE: text.dfy ===
/**
 * String functions with the meaning of the JavaScript built-ins the source uses:
 * `includes`, `split(c)[0]`, `replace`, `toLowerCase`, `trim`, number formatting,
 * `encodeURIComponent` and the default string order of `Array.prototype.sort`.
 */
module Text {
  import Seqs

  // ---------------------------------------------------------------- substrings

  /** `p` is a prefix of `s`. */
  predicate IsPrefix(p: string, s: string) {
    |p| <= |s| && s[..|p|] == p
  }

  /** `s.endsWith(p)`. */
  predicate IsSuffix(p: string, s: string) {
    |p| <= |s| && s[|s| - |p|..] == p
  }

  /** A concatenation starts with its first part and ends with its second. */
  lemma PrefixSuffixOfConcat(a: string, b: string)
    ensures IsPrefix(a, a + b) && IsSuffix(b, a + b)
  {
    assert (a + b)[..|a|] == a;
    assert (a + b)[|a + b| - |b|..] == b;
  }

  /** `sub` occurs in `s` starting at index `i`. */
  predicate OccursAt(s: string, sub: string, i: int) {
    0 <= i && i + |sub| <= |s| && s[i..i + |sub|] == sub
  }

  /** `s.includes(sub)`. */
  predicate Contains(s: string, sub: string)
    decreases |s|
  {
    IsPrefix(sub, s) || (|s| > 0 && Contains(s[1..], sub))
  }

  /** The recursive definition agrees with "some index where `sub` starts". */
  lemma {:induction false} ContainsIff(s: string, sub: string)
    ensures Contains(s, sub) <==> exists i :: OccursAt(s, sub, i)
  {
    if IsPrefix(sub, s) {
      assert OccursAt(s, sub, 0);
    } else if |s| > 0 {
      ContainsIff(s[1..], sub);
      forall i | OccursAt(s[1..], sub, i) ensures OccursAt(s, sub, i + 1) {
        assert s[1..][i..i + |sub|] == s[i + 1..i + 1 + |sub|];
      }
      assert OccursAt(s, sub, 0) ==> IsPrefix(sub, s);
      forall i | OccursAt(s, sub, i) ensures OccursAt(s[1..], sub, i - 1) {
        assert i != 0;
        assert s[1..][i - 1..i - 1 + |sub|] == s[i..i + |sub|];
      }
    }
  }

  /** A string ends with, and so contains, its last piece. */
  lemma ContainsLastPiece(s: string, b: string)
    ensures Contains(s + b, b)
  {
    var u := s + b;
    assert u[|s|..|s| + |b|] == b;
    assert OccursAt(u, b, |s|);
    ContainsIff(u, b);
  }

  /** Appending text keeps every occurrence. */
  lemma ContainsExtend(s: string, t: string, b: string)
    requires Contains(s, b)
    ensures Contains(s + t, b)
  {
    ContainsIff(s, b);
    var i :| OccursAt(s, b, i);
    assert (s + t)[i..i + |b|] == s[i..i + |b|];
    assert OccursAt(s + t, b, i);
    ContainsIff(s + t, b);
  }

  /** A string lacking some character of `sub` does not contain `sub`. */
  lemma MissingCharNotContains(s: string, sub: string, c: char)
    requires c in sub && c !in s
    ensures !Contains(s, sub)
  {
    ContainsIff(s, sub);
    var j :| 0 <= j < |sub| && sub[j] == c;
    forall i | 0 <= i && i + |sub| <= |s|
      ensures !OccursAt(s, sub, i)
    {
      assert s[i..i + |sub|][j] == s[i + j];
    }
  }

  /** A string shorter than `sub` cannot contain it. */
  lemma {:induction false} ShortNotContains(s: string, sub: string)
    requires |s| < |sub|
    ensures !Contains(s, sub)
  {
    if |s| > 0 {
      ShortNotContains(s[1..], sub);
    }
  }

  /** The empty string occurs in every string. */
  lemma ContainsEmpty(s: string)
    ensures Contains(s, "")
  {
    assert IsPrefix("", s);
  }

  /** `s.split(c)[0]`: the part of `s` before the first `c`, or all of `s` when there is none. */
  function BeforeFirst(s: string, c: char): (r: string)
    ensures IsPrefix(r, s)
    ensures c !in r
    ensures |r| < |s| ==> s[|r|] == c
  {
    if |s| == 0 || s[0] == c then ""
    else [s[0]] + BeforeFirst(s[1..], c)
  }

  /** `split(c)[0]` of a text whose first `c` sits right after `a`. */
  lemma {:induction false} BeforeFirstAt(a: string, b: string, c: char)
    requires c !in a && (|b| == 0 || b[0] == c)
    ensures BeforeFirst(a + b, c) == a
  {
    if |a| == 0 {
      assert a + b == b;
    } else {
      assert (a + b)[0] == a[0] && a[0] in a;
      assert (a + b)[1..] == a[1..] + b;
      assert c !in a[1..];
      BeforeFirstAt(a[1..], b, c);
    }
  }

  /** `s.replace(pat, '')` with a string pattern: deletes the first occurrence only. */
  function RemoveFirst(s: string, pat: string): (r: string)
    ensures !Contains(s, pat) ==> r == s
    ensures Contains(s, pat) ==> |r| == |s| - |pat|
    decreases |s|
  {
    if IsPrefix(pat, s) then s[|pat|..]
    else if |s| == 0 then s
    else [s[0]] + RemoveFirst(s[1..], pat)
  }

  /** `s.replace(/[cs]/g, '')`: deletes every character of `cs`, keeping the rest in order. */
  function RemoveChars(s: string, cs: set<char>): (r: string)
    ensures forall i :: 0 <= i < |r| ==> r[i] !in cs
    ensures forall c :: c in r <==> c in s && c !in cs
    ensures Seqs.IsSubseq(r, s)
  {
    if |s| == 0 then ""
    else if s[0] in cs then RemoveChars(s[1..], cs)
    else [s[0]] + RemoveChars(s[1..], cs)
  }

  lemma {:induction false} RemoveCharsConcat(a: string, b: string, cs: set<char>)
    ensures RemoveChars(a + b, cs) == RemoveChars(a, cs) + RemoveChars(b, cs)
  {
    if |a| > 0 {
      assert (a + b)[1..] == a[1..] + b;
      RemoveCharsConcat(a[1..], b, cs);
    } else {
      assert a + b == b;
    }
  }

  /** Text without any character of `cs` is left unchanged. */
  lemma {:induction false} RemoveCharsNone(s: string, cs: set<char>)
    requires forall i :: 0 <= i < |s| ==> s[i] !in cs
    ensures RemoveChars(s, cs) == s
  {
    if |s| > 0 {
      RemoveCharsNone(s[1..], cs);
      assert s == [s[0]] + s[1..];
    }
  }

  // ---------------------------------------------------------------- ASCII case

  function LowerChar(c: char): char {
    if 'A' <= c <= 'Z' then (c as int + 32) as char else c
  }

  function UpperChar(c: char): char {
    if 'a' <= c <= 'z' then (c as int - 32) as char else c
  }

  /** `toLowerCase`, restricted to ASCII letters. */
  function Lower(s: string): string {
    seq(|s|, i requires 0 <= i < |s| => LowerChar(s[i]))
  }

  /** `toUpperCase`, restricted to ASCII letters. */
  function Upper(s: string): string {
    seq(|s|, i requires 0 <= i < |s| => UpperChar(s[i]))
  }

  /** `s.toLowerCase().includes(sub.toLowerCase())`. */
  predicate ContainsIgnoreCase(s: string, sub: string) {
    Contains(Lower(s), Lower(sub))
  }

  /** An empty search text matches every string. */
  lemma ContainsIgnoreCaseEmpty(s: string)
    ensures ContainsIgnoreCase(s, "")
  {
    assert Lower("") == "";
    ContainsEmpty(Lower(s));
  }

  /** Case-insensitive matching does not depend on the case in which the search text was typed. */
  lemma ContainsIgnoreCaseUpper(s: string, sub: string)
    ensures ContainsIgnoreCase(s, Upper(sub)) == ContainsIgnoreCase(s, sub)
  {
    assert Lower(Upper(sub)) == Lower(sub) by {
      forall i | 0 <= i < |sub| ensures Lower(Upper(sub))[i] == Lower(sub)[i] {
        var c := sub[i];
        assert Upper(sub)[i] == UpperChar(c);
      }
    }
  }

  // ---------------------------------------------------------------- trimming

  /** The characters `String.prototype.trim` removes: WhiteSpace and LineTerminator of ECMA-262. */
  const WhiteSpace: set<char> := {
    '\t', '\n', '\U{000B}', '\U{000C}', '\r', ' ', '\U{00A0}', '\U{1680}',
    '\U{2000}', '\U{2001}', '\U{2002}', '\U{2003}', '\U{2004}', '\U{2005}',
    '\U{2006}', '\U{2007}', '\U{2008}', '\U{2009}', '\U{200A}', '\U{2028}',
    '\U{2029}', '\U{202F}', '\U{205F}', '\U{3000}', '\U{FEFF}'
  }

  predicate IsSpace(c: char) {
    c in WhiteSpace
  }

  /** The end of the run of white space that starts at `i`. */
  function SpaceRunFrom(s: string, i: nat): (n: nat)
    requires i <= |s|
    ensures i <= n <= |s|
    ensures forall k :: i <= k < n ==> IsSpace(s[k])
    ensures n < |s| ==> !IsSpace(s[n])
    decreases |s| - i
  {
    if i < |s| && IsSpace(s[i]) then SpaceRunFrom(s, i + 1) else i
  }

  /** The start of the run of white space that ends at `j`, going no further back than `lo`. */
  function SpaceRunBack(s: string, lo: nat, j: nat): (n: nat)
    requires lo <= j <= |s|
    ensures lo <= n <= j
    ensures forall k :: n <= k < j ==> IsSpace(s[k])
    ensures n > lo ==> !IsSpace(s[n - 1])
    decreases j
  {
    if j > lo && IsSpace(s[j - 1]) then SpaceRunBack(s, lo, j - 1) else j
  }

  /** Number of white-space characters `trim` removes from the front. */
  function LeadingSpaces(s: string): nat {
    SpaceRunFrom(s, 0)
  }

  /** `s.trim()`: the middle of `s`, with all white space at either end removed. */
  function Trim(s: string): (r: string)
    ensures OccursAt(s, r, LeadingSpaces(s))
    ensures forall k :: 0 <= k < LeadingSpaces(s) ==> IsSpace(s[k])
    ensures forall k :: LeadingSpaces(s) + |r| <= k < |s| ==> IsSpace(s[k])
    ensures |r| > 0 ==> !IsSpace(r[0]) && !IsSpace(r[|r| - 1])
  {
    var a := SpaceRunFrom(s, 0);
    var b := SpaceRunBack(s, a, |s|);
    s[a..b]
  }

  /** Trimming a text that ends in one space, and has no white space at either end otherwise, drops that space. */
  lemma TrimTrailingSpace(name: string)
    requires |name| > 0 && !IsSpace(name[0]) && !IsSpace(name[|name| - 1])
    ensures Trim(name + " ") == name
  {
    var s := name + " ";
    assert s[0] == name[0];
    assert SpaceRunFrom(s, 0) == 0;
    assert IsSpace(s[|s| - 1]);
    assert s[|s| - 2] == name[|name| - 1];
    assert SpaceRunBack(s, 0, |s| - 1) == |name|;
    assert s[..|name|] == name;
  }

  // ---------------------------------------------------------------- numbers

  function DigitChar(d: nat): (c: char)
    requires d < 10
    ensures '0' <= c <= '9' && c as int - '0' as int == d
  {
    (48 + d) as char
  }

  predicate AllDigits(s: string) {
    forall i :: 0 <= i < |s| ==> '0' <= s[i] <= '9'
  }

  /** The value of a string of decimal digits. */
  function DigitsValue(s: string): nat
    requires AllDigits(s)
  {
    if |s| == 0 then 0
    else DigitsValue(s[..|s| - 1]) * 10 + (s[|s| - 1] as int - '0' as int)
  }

  /** Decimal text of a natural number, as `String(n)` prints it. */
  function NatToString(n: nat): (r: string)
    ensures |r| >= 1 && AllDigits(r)
    ensures r[0] == '0' ==> n == 0
  {
    if n < 10 then [DigitChar(n)]
    else NatToString(n / 10) + [DigitChar(n % 10)]
  }

  /** Reading the decimal text back gives the number. */
  lemma {:induction false} NatToStringRoundTrip(n: nat)
    ensures DigitsValue(NatToString(n)) == n
  {
    if n >= 10 {
      var s := NatToString(n);
      assert s[..|s| - 1] == NatToString(n / 10);
      NatToStringRoundTrip(n / 10);
    }
  }

  /** `String(n)` for an integer. */
  function IntToString(n: int): (r: string)
    ensures |r| >= 1
    ensures (r[0] == '-') <==> n < 0
  {
    if n < 0 then "-" + NatToString(-n) else NatToString(n)
  }

  /** `String(c / 100)`: an amount of cents printed as a JavaScript number of currency units. */
  function CentsToString(c: int): string {
    var a := if c < 0 then -c else c;
    var frac := a % 100;
    (if c < 0 then "-" else "")
    + NatToString(a / 100)
    + (if frac == 0 then ""
       else if frac % 10 == 0 then "." + [DigitChar(frac / 10)]
       else "." + [DigitChar(frac / 10), DigitChar(frac % 10)])
  }

  /** Whole amounts print with no fractional part. */
  lemma CentsToStringWhole(units: int)
    ensures CentsToString(units * 100) == IntToString(units)
  {
  }

  // ---------------------------------------------------------------- URI components

  /** The characters `encodeURIComponent` leaves alone. */
  predicate Unreserved(c: char) {
    ('A' <= c <= 'Z') || ('a' <= c <= 'z') || ('0' <= c <= '9') || c in "-_.!~*'()"
  }

  predicate HexUpper(c: char) {
    ('0' <= c <= '9') || ('A' <= c <= 'F')
  }

  /** Characters that can appear in the output of `encodeURIComponent`. */
  predicate UriSafe(c: char) {
    Unreserved(c) || c == '%'
  }

  function HexDigit(d: nat): (c: char)
    requires d < 16
    ensures HexUpper(c)
  {
    "0123456789ABCDEF"[d]
  }

  /** UTF-8 encoding of one Unicode scalar value. */
  function Utf8Bytes(cp: nat): (r: seq<nat>)
    ensures 1 <= |r| <= 4
    ensures forall i :: 0 <= i < |r| ==> r[i] < 256
    ensures cp < 0x80 ==> r == [cp]
  {
    if cp < 0x80 then [cp]
    else if cp < 0x800 then [0xC0 + cp / 64, 0x80 + cp % 64]
    else if cp < 0x10000 then [0xE0 + cp / 4096, 0x80 + (cp / 64) % 64, 0x80 + cp % 64]
    else [0xF0 + (cp / 262144) % 8, 0x80 + (cp / 4096) % 64, 0x80 + (cp / 64) % 64, 0x80 + cp % 64]
  }

  function PercentBytes(bs: seq<nat>): (r: string)
    requires forall i :: 0 <= i < |bs| ==> bs[i] < 256
    ensures |r| == 3 * |bs|
    ensures forall i :: 0 <= i < |r| ==> r[i] == '%' || HexUpper(r[i])
  {
    if |bs| == 0 then ""
    else ['%', HexDigit(bs[0] / 16), HexDigit(bs[0] % 16)] + PercentBytes(bs[1..])
  }

  function EncodeChar(c: char): (r: string)
    ensures forall i :: 0 <= i < |r| ==> UriSafe(r[i])
  {
    if Unreserved(c) then [c] else PercentBytes(Utf8Bytes(c as int))
  }

  /** `encodeURIComponent(s)`. */
  function EncodeURIComponent(s: string): (r: string)
    ensures forall i :: 0 <= i < |r| ==> UriSafe(r[i])
    ensures |r| >= |s|
  {
    if |s| == 0 then ""
    else EncodeChar(s[0]) + EncodeURIComponent(s[1..])
  }

  /** Text made only of unreserved characters is left unchanged. */
  lemma {:induction false} EncodeUnreservedIdentity(s: string)
    requires forall i :: 0 <= i < |s| ==> Unreserved(s[i])
    ensures EncodeURIComponent(s) == s
  {
    if |s| > 0 {
      EncodeUnreservedIdentity(s[1..]);
      assert s == [s[0]] + s[1..];
    }
  }

  /** A space becomes `%20`. */
  lemma EncodeSpace()
    ensures EncodeURIComponent(" ") == "%20"
  {
    assert Utf8Bytes(' ' as int) == [32];
  }

  // ---------------------------------------------------------------- ordering

  /** The order `Array.prototype.sort` uses on strings: lexicographic on character codes. */
  predicate StrLess(a: string, b: string)
    decreases |a|
  {
    |b| > 0 && (|a| == 0 || a[0] < b[0] || (a[0] == b[0] && StrLess(a[1..], b[1..])))
  }

  lemma {:induction false} StrLessIrreflexive(a: string)
    ensures !StrLess(a, a)
  {
    if |a| > 0 {
      StrLessIrreflexive(a[1..]);
    }
  }

  lemma {:induction false} StrLessTotal(a: string, b: string)
    ensures a == b || StrLess(a, b) || StrLess(b, a)
  {
    if |a| > 0 && |b| > 0 && a[0] == b[0] {
      StrLessTotal(a[1..], b[1..]);
      if a[1..] == b[1..] {
        assert a == [a[0]] + a[1..] && b == [b[0]] + b[1..];
      }
    }
  }

  /** Every pair of positions is in strictly increasing order (so there are no duplicates). */
  predicate StrictlySorted(s: seq<string>) {
    forall i, j :: 0 <= i < j < |s| ==> StrLess(s[i], s[j])
  }

  lemma {:induction false} StrLessTransitive(a: string, b: string, c: string)
    requires StrLess(a, b) && StrLess(b, c)
    ensures StrLess(a, c)
  {
    if |a| > 0 && a[0] == b[0] && b[0] == c[0] {
      StrLessTransitive(a[1..], b[1..], c[1..]);
    }
  }

  /** Adds `x` to a sorted duplicate-free list, keeping it sorted and duplicate-free. */
  function InsertUnique(x: string, s: seq<string>): (r: seq<string>)
    requires StrictlySorted(s)
    ensures StrictlySorted(r)
    ensures forall y :: y in r <==> y in s || y == x
  {
    if |s| == 0 then [x]
    else if x == s[0] then s
    else if StrLess(x, s[0]) then
      assert forall j :: 0 < j < |s| ==> StrLess(x, s[j]) by {
        forall j | 0 < j < |s| ensures StrLess(x, s[j]) {
          StrLessTransitive(x, s[0], s[j]);
        }
      }
      [x] + s
    else
      var rest := InsertUnique(x, s[1..]);
      StrLessTotal(x, s[0]);
      assert forall y :: y in s[1..] ==> StrLess(s[0], y);
      [s[0]] + rest
  }
}

=== FILE: types.dfy ===
/**
 * The application's records (types.ts), as immutable datatypes.
 * Amounts of money are integer cents; timestamps stay ISO-8601 text.
 */
module Types {
  import opened Wrappers

  /** What the user told the wizard about themselves. */
  datatype FlightProfile = FlightProfile(
    homeAirports: seq<string>,
    chaosLevel: int,          // the 1..5 "adventure level"
    budgetMaxCents: int)

  /** Where and when the user wants to go. */
  datatype TripPlan = TripPlan(
    destinationRegions: seq<string>,
    durationMin: int,
    startDate: string,        // YYYY-MM-DD
    flexibleDays: int)

  datatype PatternType = Direct | Positioning | SplitTicket | HubSpoke | HiddenCity | Loop

  datatype Risk = Low | Medium | High

  datatype LinkProvider = GoogleFlights | Skyscanner | Kiwi | DirectAirline

  /** A deep link for booking one leg of a multi-leg pattern. */
  datatype BookingStepLink = BookingStepLink(caption: string, url: string, provider: LinkProvider)

  datatype ActionPlan = ActionPlan(tool: string, instruction: string)

  /** One templated routing suggestion. */
  datatype RoutePattern = RoutePattern(
    id: string,
    name: string,
    nodes: seq<string>,
    patternType: PatternType,
    description: string,
    rationale: string,
    tradeOffs: seq<string>,
    actionPlans: seq<ActionPlan>,
    stepLinks: seq<BookingStepLink>,
    risk: Risk,
    estimatedSavings: string)

  /** An advice card: a condition and what to do about it. */
  datatype StrategySolution = StrategySolution(
    condition: string,
    title: string,
    description: string,
    suggestedActions: seq<string>)

  datatype SearchProvider = GoogleFlightsSearch | GoogleExplore | SkyscannerSearch | Kayak

  datatype SearchLink = SearchLink(provider: SearchProvider, caption: string, url: string, primary: bool)

  datatype StrategyPrompt = StrategyPrompt(tool: string, description: string, promptText: string)

  datatype Difficulty = Easy | Medium | Hard

  datatype StrategyStep = StrategyStep(title: string, description: string, difficulty: Difficulty)

  /** Everything the engine produces for one wizard submission. */
  datatype Strategy = Strategy(
    id: string,
    summary: string,
    corePlan: seq<RoutePattern>,
    backupPlans: seq<RoutePattern>,
    chaosPlans: seq<RoutePattern>,
    solutions: seq<StrategySolution>,
    searchLinks: seq<SearchLink>,
    prompts: seq<StrategyPrompt>,
    steps: seq<StrategyStep>)

  /** One flight of an itinerary; times are ISO-8601 text. */
  datatype FlightSegment = FlightSegment(
    departureCode: string,
    departureAt: string,
    arrivalCode: string,
    arrivalAt: string,
    carrierCode: string,
    number: string,
    duration: string)

  datatype DealSource = Amadeus | Mock

  /** A priced itinerary. */
  datatype FlightDeal = FlightDeal(
    id: string,
    source: DealSource,
    priceCents: int,
    currency: string,
    airlines: seq<string>,
    segments: seq<FlightSegment>,
    deepLink: Option<string>,
    duration: string,
    stops: int)

  datatype AIAnalysis = AIAnalysis(
    recommendation: string,
    topPickId: Option<string>,
    riskAssessment: string,
    hacksDetected: seq<string>)

  /**
   * A snapshot kept in local storage. The summaries are `None` when the list they
   * come from was empty; `deals` is `None` for records written without one.
   */
  datatype SavedStrategy = SavedStrategy(
    id: string,
    name: string,
    createdAt: string,
    originSummary: Option<string>,
    targetSummary: Option<string>,
    profile: FlightProfile,
    trip: TripPlan,
    strategy: Strategy,
    deals: Option<seq<FlightDeal>>,
    aiAnalysis: Option<AIAnalysis>)

  datatype LocationType = Region | Country | City | Airport

  /** An entry of a location picker; a missing keyword list is the empty list. */
  datatype LocationOption = LocationOption(caption: string, value: string, locationType: LocationType, keywords: seq<string>)

  /** What the airport table holds about a code (coordinates are not modelled). */
  datatype AirportInfo = AirportInfo(city: string, country: string)

  type AirportDb = map<string, AirportInfo>

  /** The arrival code of the last segment: where the deal ends. */
  function FinalArrival(d: FlightDeal): string
    requires |d.segments| > 0
  {
    d.segments[|d.segments| - 1].arrivalCode
  }
}

=== FILE: wrappers.dfy ===
/** Optional values: the model's stand-in for `null`/`undefined`. */
module Wrappers {

  datatype Option<+T> = None | Some(value: T) {

    /** The wrapped value, or `default` when there is none (JavaScript's `x || d` on objects). */
    function GetOr(default: T): T {
      match this
      case Some(v) => v
      case None => default
    }
  }
}
